=== FILE: README.md ===
# autoweb, modelled in Dafny

autoweb is a Windows desktop automation tool. A scheduler alternates an
ACTIVE phase with an IDLE phase. In the ACTIVE phase it performs random
mouse moves, clicks, application switches, tab switches and scrolls at
random intervals. In the IDLE phase it does nothing for a random time. The
tool has four interchangeable idle detectors that decide whether the human
user is active:
- hook-based;
- click-and-key hooks with a pending flag;
- click-and-key hooks that pass a flag to a check thread;
- polling of the key states.

Around these sit a window manager, an input simulator that builds
`SendInput` records, a global hotkey with a shortcut-string codec, an
application-protection layer and a forced logout:
- application protection locks the workstation when the tool dies unexpectedly;
- application protection shuts down gracefully on logoff, sleep or lock;
- the forced logout logs the user off on real user activity.

The Tk window shows the scheduler's state and puts consent in front of
`start`.

The model is one Dafny module per source file:

| file | module | source |
|---|---|---|
| base.dfy | `Base` | shared `Option`/`Outcome`, integer helpers, `random.randint` |
| text.dfy | `Text` | the Python string operations the core uses |
| idle_core.dfy | `IdleCore` | what all four detectors share: idle state, queries, the idle check, the callback trace |
| idle_hooks.dfy | `IdleHooks` | autoweb/idle_detector.py |
| idle_simple.dfy | `IdleSimple` | autoweb/idle_detector_simple.py |
| idle_clicks.dfy | `IdleClicks` | autoweb/idle_detector_clicks.py |
| idle_safe.dfy | `IdleSafe` | autoweb/idle_detector_safe.py |
| window_manager.dfy | `WindowManager` | autoweb/window_manager.py |
| scheduler.dfy | `Scheduler` | autoweb/scheduler.py |
| global_hotkey.dfy | `GlobalHotkey` | autoweb/global_hotkey.py |
| protection.dfy | `Protection` | autoweb/protection.py |
| force_logout.dfy | `ForceLogout` | autoweb/force_logout.py |
| input_simulator.dfy | `InputSimulator` | autoweb/input_simulator.py |
| ui.dfy | `Ui` | autoweb/ui.py |

Everything is a pure function on immutable state records. Threads become
step functions, and a run is a fold of steps over a sequence of events.
Everything the program reads from outside becomes a parameter:
- the clock (an integer tick; milliseconds in the scheduler);
- the random draws (arbitrary naturals reduced into range);
- the operating system's answers (`Outcome<T>`, which is `Ok(value)` or
  `Raised(message)` for a call that throws).

Windows calls that act on the world are recorded as effects or batches
instead of being performed.

The global hotkey keeps every listener thread it has started, not just the
latest, because `start` checks only the shared registered flag. A `stop`
whose two-second join times out leaves its thread alive. A later `start`
clears the shared stop event, so that older thread goes on pumping messages
and firing the callback, and `stop` only ever joins the latest thread.

## Model

| member | source | states |
|---|---|---|
| Base.RandInt | autoweb/scheduler.py:361-364 | `random.randint` fails exactly on an empty range and otherwise draws a value within both bounds |
| IdleCore.IsUserActive | autoweb/idle_detector.py:199-205 | with no activity recorded the user is not active; otherwise active exactly while less than the timeout has elapsed |
| IdleCore.SecondsUntilIdle | autoweb/idle_detector.py:208-215 | never negative, 0 before any activity, otherwise the time left until the timeout |
| IdleCore.ActiveIffTimeLeft | autoweb/idle_detector.py:199-215 | the user is active exactly when some time is left before idle |
| IdleCore.IdleCheck | autoweb/idle_detector.py:396-412 | the idle callback fires exactly when activity was recorded, the timeout has elapsed and it has not fired since the last activity; the notified flag is then set; nothing else changes before any activity |
| IdleCore.NoRepeatIdleMeansSeparated | autoweb/idle_detector.py:405-407 | "no second idle notification while one is pending" is the same as "between any two idle notifications there is an activity notification or a re-arm" |
| IdleCore.IdleCheckKeepsNoRepeat | autoweb/idle_detector.py:402-412 | an idle check never adds a second idle notification to a trace whose pending idle is already notified |
| IdleCore.SettleKeepsNoRepeat | autoweb/idle_detector_simple.py:225-268 | one check-thread pass (an activity notification, then the idle check) adds no second idle notification while one is pending |
| IdleCore.Settle | autoweb/idle_detector_simple.py:225-268 | a check-thread pass reports its activity notifications first, then at most one idle notification |
| IdleCore.EndClearsPending | autoweb/idle_detector.py:226 | after an activity notification or a re-arm no idle notification is pending |
| IdleHooks.MarkActive | autoweb/idle_detector.py:217-227 | marks the state active at the current time, clears the notified flag and raises the pending flag, touching nothing else |
| IdleHooks.Hook | autoweb/idle_detector.py:243-305 | a hook message marks activity exactly when the detector is not suppressed, the code is non-negative and it is a button-down, key-down or a move of more than 10 pixels on either axis; only such a move updates the remembered position |
| IdleHooks.SuppressedHooksInert | autoweb/idle_detector.py:260-263 | while suppressed no hook message changes the detector |
| IdleHooks.ReleasesIgnored | autoweb/idle_detector.py:279-280 | button releases, wheel messages and key releases change nothing |
| IdleHooks.JitterIgnored | autoweb/idle_detector.py:270-275 | any number of moves within 10 pixels of the remembered position change nothing |
| IdleHooks.CheckPass | autoweb/idle_detector.py:385-412 | a pending activity is reported first, as a mouse move, and cleared; without one only idle notifications can appear |
| IdleHooks.Start | autoweb/idle_detector.py:416-455 | refused while running; otherwise the detector runs with the activity time set to now |
| IdleHooks.Stop | autoweb/idle_detector.py:457-475 | the detector stops and nothing else changes |
| IdleHooks.Reset | autoweb/idle_detector.py:477-483 | the activity time becomes now, the user is active, the idle duration is 0 and the notified flag is cleared |
| IdleHooks.RunNeverRepeatsIdle | autoweb/idle_detector.py:380-412 | over any run of hooks, checks, starts, stops, resets and suppressions, idle notifications stay separated by an activity notification or by the re-arm a reset (or, in the simple and polling variants, a restart) makes |
| IdleHooks.FreshDetectorNeverRepeatsIdle | autoweb/idle_detector.py:134-187 | a new detector's notifications never contain two idle notifications without an activity notification or a reset's re-arm between them |
| IdleSimple.Hook | autoweb/idle_detector_simple.py:144-173 | a button-down or key-down with a non-negative code sets the flag and the last kind; every other message changes nothing |
| IdleSimple.MovesAndReleasesIgnored | autoweb/idle_detector_simple.py:153-171 | mouse moves, button releases, the wheel, `WM_KEYUP` and `WM_SYSKEYUP` leave the detector unchanged |
| IdleSimple.BurstCollapses | autoweb/idle_detector_simple.py:154-171 | a burst of hook messages leaves only the flag and the kind of the last counted message |
| IdleSimple.CheckPass | autoweb/idle_detector_simple.py:223-268 | a flagged activity is dropped while suppressed, otherwise reported with its kind at the current time; the flag is always cleared |
| IdleSimple.Start | autoweb/idle_detector_simple.py:274-307 | refused while running; otherwise runs with the activity time set to now |
| IdleSimple.Reset | autoweb/idle_detector_simple.py:326-332 | the activity time becomes now and the notified flag is cleared |
| IdleSimple.RunNeverRepeatsIdle | autoweb/idle_detector_simple.py:219-272 | over any run, idle notifications stay separated by an activity notification or by the re-arm a reset (or, in the simple and polling variants, a restart) makes |
| IdleSimple.FreshDetectorNeverRepeatsIdle | autoweb/idle_detector_simple.py:75-114 | a new detector never gives two idle notifications without an activity notification or a re-arm between them |
| IdleClicks.MarkActivity | autoweb/idle_detector_clicks.py:157-174 | ignored while suppressed; otherwise records the kind at the current time, raises the pending flag and clears the notified flag |
| IdleClicks.Hook | autoweb/idle_detector_clicks.py:176-213 | only button-down and key-down messages with a non-negative code mark activity |
| IdleClicks.Start | autoweb/idle_detector_clicks.py:321-358 | refused while running; otherwise runs with the activity time set to now, keeping the notified and pending flags |
| IdleClicks.CheckPass | autoweb/idle_detector_clicks.py:280-314 | a pending activity is reported once with its recorded kind and cleared; the activity time is not changed by the pass |
| IdleClicks.ReportedOnce | autoweb/idle_detector_clicks.py:282-293 | a second pass right after the first reports no activity |
| IdleClicks.RestartStaysSilent | autoweb/idle_detector_clicks.py:321-358 | a restart does not clear the notified flag, so a detector that had already reported idle stays silent after restarting |
| IdleClicks.RunNeverRepeatsIdle | autoweb/idle_detector_clicks.py:274-319 | over any run, idle notifications stay separated by an activity notification or by the re-arm a reset (or, in the simple and polling variants, a restart) makes |
| IdleClicks.FreshDetectorNeverRepeatsIdle | autoweb/idle_detector_clicks.py:79-127 | a new detector never gives two idle notifications without an activity notification or a re-arm between them |
| IdleSafe.KeyboardKeysDistinct | autoweb/idle_detector_safe.py:31-56 | the polled keyboard list holds 63 distinct codes |
| IdleSafe.ScanFrom | autoweb/idle_detector_safe.py:173-186 | the scan finds a press exactly when some key from the start position is down now and was up before; it stops at the first, records every key it passed and leaves later keys alone |
| IdleSafe.CheckMouseClicks | autoweb/idle_detector_safe.py:158-171 | reports a new press of the left, right or middle button exactly when one happened |
| IdleSafe.CheckKeyboard | autoweb/idle_detector_safe.py:173-186 | reports a new press of a listed key exactly when one happened |
| IdleSafe.HeldOrReleasedIsNotActivity | autoweb/idle_detector_safe.py:165-169 | keys that stay held or are released are not activity, and the scan records the present key states |
| IdleSafe.RescanFindsNothing | autoweb/idle_detector_safe.py:180-184 | scanning the same key states twice never reports the same press again |
| IdleSafe.Poll | autoweb/idle_detector_safe.py:192-243 | nothing happens while suppressed; a new click is reported as a click, else a new key press as keyboard activity, at the current time; without either, only idle notifications can appear |
| IdleSafe.Start | autoweb/idle_detector_safe.py:253-281 | refused while running; otherwise runs with every remembered key state released and the notified flag cleared |
| IdleSafe.Reset | autoweb/idle_detector_safe.py:297-303 | the activity time becomes now and the notified flag is cleared |
| IdleSafe.RunNeverRepeatsIdle | autoweb/idle_detector_safe.py:188-251 | over any run, idle notifications stay separated by an activity notification or by the re-arm a reset (or, in the simple and polling variants, a restart) makes |
| IdleSafe.FreshDetectorNeverRepeatsIdle | autoweb/idle_detector_safe.py:90-122 | a new detector never gives two idle notifications without an activity notification or a re-arm between them |
| WindowManager.GetAllWindows | autoweb/window_manager.py:104-163 | every listed window is visible, titled and not excluded, and there are no more of them than enumerated windows |
| WindowManager.GetAllWindowsMembers | autoweb/window_manager.py:119-154 | a window is listed exactly when some enumerated window is visible, titled, not excluded, not a tool window and not minimised |
| WindowManager.GetAllWindowsAppend | autoweb/window_manager.py:159-163 | enumeration keeps order: the list for two runs of windows is the concatenation of their lists |
| WindowManager.CountMatches | autoweb/window_manager.py:289-296 | the window count is the number of accepted windows |
| WindowManager.GetVisibleWindows | autoweb/window_manager.py:310-322 | one entry per accepted window, and a window is listed exactly when some enumerated window is visible, titled, not excluded, not a tool window and not minimised |
| WindowManager.VisibleWindowsNotMinimised | autoweb/window_manager.py:310-322 | every window `get_visible_windows` returns comes from a visible, non-minimised window |
| WindowManager.GetForegroundWindow | autoweb/window_manager.py:165-192 | no window for handle 0; otherwise the handle with its title, or "Unknown" when the title is empty |
| WindowManager.SwitchToWindow | autoweb/window_manager.py:194-249 | a minimised window is refused; otherwise success when focus is granted, and when it is refused the thread-attach fallback counts as success unless it throws |
| WindowManager.IndexOfHandle | autoweb/window_manager.py:274-278 | the first index holding the handle, or -1 when none does |
| WindowManager.SwitchToNextWindow | autoweb/window_manager.py:251-287 | fewer than two windows: nothing; no foreground window, or one not in the list: the first; otherwise the one after the current, wrapping; the result is returned only when the switch succeeds |
| WindowManager.NextAfter | autoweb/window_manager.py:281-282 | the next window is the following index modulo the count, and never the current window |
| WindowManager.TourVisitsAll | autoweb/window_manager.py:251-287 | switching as many times as there are windows visits every window once and ends where it started |
| Scheduler.UpdateState | autoweb/scheduler.py:178-188 | each field reads the value of the last keyword naming it, or keeps its value |
| Scheduler.LastAssignedNone | autoweb/scheduler.py:186-188 | a field is assigned exactly when some keyword names it |
| Scheduler.UnknownKeysIgnored | autoweb/scheduler.py:187 | keywords naming no field change nothing |
| Scheduler.FinishIsKeywordUpdate | autoweb/scheduler.py:418-424 | the stopping update is the keyword update `stop` and the loop's `finally` pass |
| Scheduler.Uniform | autoweb/scheduler.py:314-317 | the interval lies between its two bounds, in whichever order they are given |
| Scheduler.Remaining | autoweb/scheduler.py:305-309 | the whole seconds left are at most 0 exactly when more than duration minus one second has elapsed, and never exceed the duration |
| Scheduler.OtherWindows | autoweb/scheduler.py:240 | exactly the listed windows whose handle is not the current one |
| Scheduler.MoveAction | autoweb/scheduler.py:224-226 | the description is an error exactly when `move_mouse_random` raised |
| Scheduler.AltTabAction | autoweb/scheduler.py:251-257 | an error exactly when Alt+Tab or the foreground query raised; otherwise the new foreground title, or "Unknown", is published |
| Scheduler.SwitchApp | autoweb/scheduler.py:234-257 | a switch target is a listed window other than the current one, chosen whenever one exists among more than one window; otherwise it falls back to Alt+Tab |
| Scheduler.ExecuteAction | autoweb/scheduler.py:208-278 | a raising foreground query fails the action; only an app switch publishes an app or a target; scroll falls back to a move outside scrollable apps; click, tab switch and scroll fail exactly when their call raises |
| Scheduler.SwitchAvoidsCurrent | autoweb/scheduler.py:240-243 | an app switch never targets the current foreground window |
| Scheduler.ShippedClickAlwaysFails | autoweb/scheduler.py:231 | with the input simulator as written, every click action ends in an "Error: ..." description |
| Scheduler.ShippedScrollFailsWhereScrollable | autoweb/scheduler.py:267 | with the input simulator as written, every scroll in a scrollable application ends in an error |
| Scheduler.ProvidedClickAndScrollSucceed | autoweb/scheduler.py:228-268 | with working click and scroll helpers, click and scroll succeed with their descriptions |
| Scheduler.WindDown | autoweb/scheduler.py:418-424 | the worker ends with the stopped state published and the cycle count kept |
| Scheduler.BeginCycle | autoweb/scheduler.py:400-408 | each cycle increments and publishes the count and starts an ACTIVE phase for the configured duration, with the foreground title as current app |
| Scheduler.EnterIdle | autoweb/scheduler.py:361-371 | the idle duration is drawn within the configured bounds and published with phase IDLE; a reversed range raises and ends the worker |
| Scheduler.ActiveTick | autoweb/scheduler.py:304-317 | once no whole second remains the worker goes idle; otherwise it publishes the time left and draws an interval within the bounds |
| Scheduler.WaitTick | autoweb/scheduler.py:323-345 | before the interval elapses only the countdown is published; then the action runs and its description and app are published with the refreshed time left |
| Scheduler.IdleTick | autoweb/scheduler.py:375-382 | the idle phase ends when no whole second remains and otherwise publishes the time left |
| Scheduler.Step | autoweb/scheduler.py:389-425 | a dead worker does nothing; a stop request ends a live one with the stopped state; only a new cycle changes the count, by one |
| Scheduler.Start | autoweb/scheduler.py:427-459 | refused while a worker lives; otherwise publishes running, cycle 0 and "Starting..." and starts a worker |
| Scheduler.PublishedRunningIsAlive | autoweb/scheduler.py:495-497 | over any run from a new scheduler, a state published as running has a live worker, so `is_running()` is true |
| Scheduler.Stop | autoweb/scheduler.py:461-493 | refused without a live worker; otherwise sets the stop flag and publishes the stopped state whether or not the worker ended in time |
| Scheduler.RunKeepsInvariant | autoweb/scheduler.py:389-493 | over any run of starts, stops and worker steps, the published state agrees with the worker: its phase, its cycle count, its drawn durations |
| Scheduler.EveryExitIsStopped | autoweb/scheduler.py:418-424 | whenever no worker is alive, the published state is the initial one or the stopped one |
| Scheduler.StopThenStepEnds | autoweb/scheduler.py:400 | a worker that missed the join deadline ends at its next stop-flag test |
| Scheduler.StopThenStartSucceeds | autoweb/scheduler.py:436-448 | once the worker has ended, `start` succeeds again and restarts the count at 0 |
| GlobalHotkey.VkEntry | autoweb/global_hotkey.py:29-39 | the table maps A-Z to 0x41-0x5A and F1-F12 to 0x70-0x7B |
| GlobalHotkey.VkNamesDistinct | autoweb/global_hotkey.py:29-39 | no two table entries share a name |
| GlobalHotkey.KeyCodeMatchesTable | autoweb/global_hotkey.py:224-225 | a name is a key exactly when the table lists it, with the listed code |
| GlobalHotkey.KeyName | autoweb/global_hotkey.py:186-194 | a listed code is shown by its table name, any other as its `HexName`: `0x` and upper-case hex digits reading back as a non-negative code, or `0x-` and the digits of the magnitude for a negative one |
| GlobalHotkey.ModBitsOfModsOf | autoweb/global_hotkey.py:177-184 | the four modifier bits shown in a name are exactly the low four bits of the modifiers |
| GlobalHotkey.ScanTokens | autoweb/global_hotkey.py:215-227 | fails exactly on an unknown piece; otherwise collects every modifier named and the last key named |
| GlobalHotkey.ParseTokens | autoweb/global_hotkey.py:215-232 | succeeds exactly when no piece is unknown and some piece names a key |
| GlobalHotkey.ParseShortcut | autoweb/global_hotkey.py:200-232 | succeeds exactly when, after split, strip and upper-casing, no piece is unknown and some piece is a key; the modifiers are then below 16 and the key is a table code |
| GlobalHotkey.EmptyPieceRejected | autoweb/global_hotkey.py:210-227 | a shortcut with an empty piece, such as "Ctrl++P", is rejected |
| GlobalHotkey.ParseSeesOnlyModifierSetAndLastKey | autoweb/global_hotkey.py:215-225 | two piece lists with the same modifiers and the same last key parse alike: repeats and order do not matter |
| GlobalHotkey.NameRoundTrip | autoweb/global_hotkey.py:174-232 | parsing the name of any modifiers below 16 and table key gives them back |
| GlobalHotkey.NameParsesBack | autoweb/global_hotkey.py:174-232 | for any modifiers, parsing the name of a table key gives back its low four modifier bits and the key |
| GlobalHotkey.HexNameRejected | autoweb/global_hotkey.py:193-194 | the name of a key outside the table does not parse back |
| GlobalHotkey.Start | autoweb/global_hotkey.py:104-122 | refused while the shared flag is set; otherwise the stop event is cleared and one more listener thread starts, while every earlier thread, including one a timed-out `stop` left alive, is kept |
| GlobalHotkey.Stop | autoweb/global_hotkey.py:124-133 | does nothing when the flag is clear and the latest thread is not alive; otherwise sets the event, joins only the latest thread (ended exactly when the join is in time) and clears the flag, leaving older threads as they were |
| GlobalHotkey.SetShortcut | autoweb/global_hotkey.py:84-102 | the new shortcut is always stored; when the flag was set, the hotkey is stopped first (the latest thread ends exactly when the join finishes in time, older threads are kept) and then one new listener thread is started for it |
| GlobalHotkey.ShortcutName | autoweb/global_hotkey.py:174-197 | the name splits at `+` into exactly the set modifiers' names in the order Ctrl, Shift, Alt, Win, then the key name |
| GlobalHotkey.ListenerStep | autoweb/global_hotkey.py:136-171 | a thread registers the combination stored at that moment with the no-repeat flag added, or ends when refused; a pumping thread fires the callback exactly on a hotkey message with its own id while the event is clear, and once the event is set it unregisters and clears the shared flag; other threads are untouched |
| GlobalHotkey.RunConsistent | autoweb/global_hotkey.py:104-171 | over any run, including starts after timed-out stops, the shared flag is set only while some listener thread pumps messages under its own registration |
| GlobalHotkey.StopMissesStrayListener | autoweb/global_hotkey.py:124-126 | a listener the latest thread no longer refers to is out of `stop`'s reach: with the flag clear and the latest thread ended, `stop` returns at once and the old listener still fires the callback |
| GlobalHotkey.StrayListenerReachable | autoweb/global_hotkey.py:115-151 | that state is reached by start, registration, a stop whose join times out, a second start and a refused registration for the new thread |
| Protection.ErrorsOfAppend | autoweb/protection.py:576-579 | the errors logged for two runs of cleanups are those of each run in turn |
| Protection.RunCleanup | autoweb/protection.py:574-580 | calls every cleanup function once, in order, and logs exactly the errors of those that raised |
| Protection.LockWorkstation | autoweb/protection.py:525-572 | calls `LockWorkStation`; when it fails or throws, presses and releases Win+L, every key released in reverse order |
| Protection.Enable | autoweb/protection.py:94-131 | does nothing when enabled or when the emergency file exists; otherwise enabled exactly when setup does not raise |
| Protection.Disable | autoweb/protection.py:133-155 | does nothing when disabled; otherwise restores handlers, runs the cleanups and ends disabled |
| Protection.AddCleanup | autoweb/protection.py:157-164 | adds one cleanup function and changes nothing else |
| Protection.Trigger | autoweb/protection.py:507-523 | at most once, and never with the emergency file present: marks the lock triggered, runs the cleanups and locks |
| Protection.ShutdownGracefully | autoweb/protection.py:328-344 | at most once: records the reason, runs the cleanups, disables protection and schedules the exit last |
| Protection.OnExit | autoweb/protection.py:501-505 | triggers the lock only when protection is enabled and not yet triggered |
| Protection.ConsoleDispatch | autoweb/protection.py:214-227 | C, Break and Close lock; logoff and shutdown shut down gracefully; the rest is not handled |
| Protection.WindowDispatch | autoweb/protection.py:258-291 | window messages never lock; shutdowns are handled; end-session shuts down only when its flag is set; unhandled messages go to the default procedure |
| Protection.WindowReasons | autoweb/protection.py:259-289 | suspend queries and suspends, session ending, lock, logoff and console disconnect each give their own reason |
| Protection.ApplyCounts | autoweb/protection.py:495-523 | a single event locks at most when it first sets the triggered flag, and exits at most when it first sets the shutdown flag |
| Protection.RunCounts | autoweb/protection.py:328-344 | over any run, one lock exactly when the triggered flag goes up and one exit exactly when the shutdown flag goes up; both flags and the reason stay once set |
| Protection.AtMostOneLock | autoweb/protection.py:507-516 | from a fresh instance any run locks the workstation at most once and schedules at most one exit |
| ForceLogout.OnUserActivity | autoweb/force_logout.py:106-130 | starts a logout exactly when enabled and none is in progress, and then marks one in progress |
| ForceLogout.ExecuteLogoutSequence | autoweb/force_logout.py:132-175 | the cleanup callback, the privilege step, a forced logoff, and the force-if-hung logoff exactly when the first returns 0; the in-progress flag is cleared in every case |
| ForceLogout.CleanupPrecedesLogout | autoweb/force_logout.py:136-151 | the cleanup callback runs before any logoff call |
| ForceLogout.CheckSessionEnding | autoweb/force_logout.py:240-251 | the session is taken as ending exactly when the desktop handle is 0 or the query throws |
| ForceLogout.AtMostOneLogout | autoweb/force_logout.py:113-130 | over any run at most one logout sequence runs at a time, and the guard is up exactly while one runs |
| ForceLogout.DisabledIgnoresActivity | autoweb/force_logout.py:113-114 | a disabled handler ignores activity |
| InputSimulator.Create | autoweb/input_simulator.py:188-199 | the constructor fails exactly when a screen dimension is 0 |
| InputSimulator.Word | autoweb/input_simulator.py:136-142 | a `WORD` field holds the low 16 bits and keeps values that fit |
| InputSimulator.Clamp | autoweb/input_simulator.py:256-259 | the coordinate is clamped into the screen and unchanged when on it |
| InputSimulator.AbsoluteCoord | autoweb/input_simulator.py:262-263 | a clamped coordinate scales into the absolute range 0-65534 |
| InputSimulator.MoveInput | autoweb/input_simulator.py:256-284 | an absolute move carries MOVE and ABSOLUTE and scaled coordinates; a relative one carries MOVE and the deltas |
| InputSimulator.AbsoluteMoveSeesClampedPoint | autoweb/input_simulator.py:256-259 | an absolute move depends only on the clamped point |
| InputSimulator.MoveMouse | autoweb/input_simulator.py:240-288 | one record is sent, and the call succeeds exactly when `SendInput` accepted something |
| InputSimulator.Lerp | autoweb/input_simulator.py:316-323 | the interpolated coordinate is the start at step 0 and the target at the last step |
| InputSimulator.LerpBetween | autoweb/input_simulator.py:316-323 | every interpolated coordinate lies between the start and the target, truncation included |
| InputSimulator.SmoothPoint | autoweb/input_simulator.py:319-323 | intermediate points are within 2 pixels of the interpolation; the last step has no jitter |
| InputSimulator.SmoothPointNearPath | autoweb/input_simulator.py:314-323 | every step stays within 2 pixels of the box spanned by the start and the target |
| InputSimulator.MoveMouseSmooth | autoweb/input_simulator.py:290-330 | one move per step and a final move to the target, and it returns true whatever was accepted |
| InputSimulator.SmoothMoveEndsOnTarget | autoweb/input_simulator.py:319-329 | with at least one step, the last two moves both go to the target |
| InputSimulator.MoveMouseRandom | autoweb/input_simulator.py:332-349 | raises exactly on a screen narrower or lower than 100 pixels; otherwise the target is at least 50 pixels inside every edge and is reached by a 10-step smooth move |
| InputSimulator.ButtonFlags | autoweb/input_simulator.py:379-390 | exactly the three named buttons are known, each with an up flag twice its down flag |
| InputSimulator.ButtonFlagsDistinct | autoweb/input_simulator.py:56-70 | different buttons use different down and up flags |
| InputSimulator.Click | autoweb/input_simulator.py:351-411 | moves first when both coordinates are given, even for an unknown button, which then fails; a known button sends down and up together and succeeds when both were accepted |
| InputSimulator.KeyPress | autoweb/input_simulator.py:413-443 | down and up of the same key in one call; success when both were accepted |
| InputSimulator.KeyDown | autoweb/input_simulator.py:445-465 | one key-down record; success when it was accepted |
| InputSimulator.KeyUp | autoweb/input_simulator.py:467-485 | one key-up record; success when it was accepted |
| InputSimulator.ShortcutTab | autoweb/input_simulator.py:487-551 | three calls, and always true |
| InputSimulator.AltTab | autoweb/input_simulator.py:487-513 | Alt down, Tab down, Tab up, Alt up, in that order, and always true |
| InputSimulator.CtrlTab | autoweb/input_simulator.py:515-532 | Ctrl down, Tab down, Tab up, Ctrl up, in that order, and always true |
| InputSimulator.WinTab | autoweb/input_simulator.py:534-551 | left Windows key down, Tab down, Tab up, left Windows key up, in that order, and always true |
| InputSimulator.ShortcutReleasesKeys | autoweb/input_simulator.py:503-511 | the modifier goes down, Tab is pressed and released, and the modifier comes up: every key pressed is released, innermost first |
| InputSimulator.TypeText | autoweb/input_simulator.py:553-590 | one call per character with a Unicode down and up of that character, and always true |
| InputSimulator.TypeTextRoundTrip | autoweb/input_simulator.py:567-586 | the typed records carry the text back for characters in the Basic Multilingual Plane |
| InputSimulator.TypedCharReleased | autoweb/input_simulator.py:569-584 | each character's release carries the same code unit as its press |
| Ui.FormatTime | autoweb/ui.py:497-508 | minutes, a colon and two digits of seconds 00-59; five characters for 0 up to 99:59; a leading minus exactly for negative input |
| Ui.FormatTimeRoundTrip | autoweb/ui.py:506-508 | reading the timer text back gives the exact number of seconds, since floor division keeps the seconds in 0-59 for negative input too |
| Ui.StatusOf | autoweb/ui.py:523-537 | ACTIVE and IDLE have their own label; every other phase reads STOPPED |
| Ui.StatusDistinguishesPhases | autoweb/ui.py:523-537 | the status label tells the three phases apart |
| Ui.AppText | autoweb/ui.py:548-549 | an empty title reads "None", a title of at most 40 characters is shown whole, a longer one as its first 40 characters and "..." |
| Ui.LogLine | autoweb/ui.py:552-553 | the last action is logged exactly when it is non-empty and not "Starting..." |
| Ui.OnStateChange | autoweb/ui.py:510-556 | the view shows the phase label, a timer that reads back as the remaining seconds and the shortened title, and logs per the filter |
| Ui.StartIsNotLogged | autoweb/ui.py:552-553 | the state a successful start publishes adds no log line |
| Ui.OnStart | autoweb/ui.py:558-575 | without consent the dialog's answer is recorded and a refusal starts nothing; with consent the scheduler is started and the buttons follow its answer |
| Ui.OnStop | autoweb/ui.py:577-584 | stops the scheduler and logs exactly one line, which says stopped exactly when the scheduler agreed |
| Ui.OnClose | autoweb/ui.py:586-593 | a running scheduler is stopped before the window closes |
| Ui.ConsentIsRemembered | autoweb/ui.py:561-563 | consent once given is kept for the rest of the run |
| Ui.NoStartWithoutConsent | autoweb/ui.py:561-568 | if the dialog is never agreed to, the scheduler is never started |
| Text.Split | autoweb/global_hotkey.py:210 | no piece contains the separator, and there is a single piece exactly when the string has no separator |
| Text.JoinSplit | autoweb/global_hotkey.py:197-210 | joining the pieces of a split with the same separator gives the string back |
| Text.SplitJoin | autoweb/global_hotkey.py:197-210 | splitting a join of separator-free pieces gives the pieces back |
| Text.Strip | autoweb/global_hotkey.py:210 | the result is no longer than the input and neither starts nor ends with whitespace |
| Text.StripKeeps | autoweb/global_hotkey.py:210 | a piece without surrounding whitespace is left unchanged |
| Text.Upper | autoweb/global_hotkey.py:210 | upper-casing keeps the length and maps each character on its own |
| Text.UpperKeeps | autoweb/global_hotkey.py:210 | a piece without lower-case letters is left unchanged |
| Text.HexName | autoweb/global_hotkey.py:193-194 | for a non-negative code, `0x` and at least two upper-case hex digits that read back as the code; a negative code gives `0x-` and the digits of its magnitude, as `:02X` does |
| Text.NatToHexRoundTrip | autoweb/global_hotkey.py:193-194 | the upper-case hex digits of a number read back as the number |
| Text.Pad2 | autoweb/ui.py:508 | `:02d`: two digits for 0-99, the digits of the number otherwise, a minus sign exactly for negative numbers, and the digits read back as the number |
| Text.NatToStringRoundTrip | autoweb/ui.py:508 | the decimal digits of a number read back as the number |
| IdleClicks.Stop | autoweb/idle_detector_clicks.py:360-378 | the detector stops and nothing else changes |
| IdleClicks.Reset | autoweb/idle_detector_clicks.py:380-386 | the activity time becomes now, the user is active, the idle duration is 0 and the notified flag is cleared |
| IdleSimple.Stop | autoweb/idle_detector_simple.py:309-324 | the detector stops and nothing else changes |
| IdleSafe.Stop | autoweb/idle_detector_safe.py:283-295 | the detector stops and nothing else changes |
| Protection.LockSequenceCounts | autoweb/protection.py:525-572 | locking the workstation is exactly one lock, whether the API works or Win+L is simulated, and no exit |
| Protection.LockCounts | autoweb/protection.py:507-523 | a first trigger runs the cleanups and locks exactly once |
| Protection.ShutdownCounts | autoweb/protection.py:328-344 | a first graceful shutdown schedules exactly one exit and never locks |
| Scheduler.Finish | autoweb/scheduler.py:418-424 | the worker's last update publishes the stopped state and keeps the cycle count, the app and the next-action time |
| Scheduler.ApplyKeepsInvariant | autoweb/scheduler.py:389-493 | a single start, stop or worker step keeps the published state in agreement with the worker |
| WindowManager.GetWindowCount | autoweb/window_manager.py:289-296 | the count is the number of accepted windows and never exceeds the enumerated ones |
| InputSimulator.Long | autoweb/input_simulator.py:116-117 | a `LONG` field wraps into the signed 32-bit range and keeps values that fit |
| InputSimulator.Jitter | autoweb/input_simulator.py:319-320 | the jitter lies between -2 and 2 |

## Left out

- Threads, locks, `join` timeouts and sleeps. Each thread is a step function; a timed-out join is the `exitsInTime` argument.
- Scheduler.Stop, Scheduler.RunKeepsInvariant: a worker step is atomic between two tests of the stop flag. In the source, a worker already inside `_execute_action` when the 2-second join times out still publishes `last_action` and `time_remaining` (autoweb/scheduler.py:339-345). That happens after `stop()` has published "Stopped" (autoweb/scheduler.py:485-490) and before the worker's `finally` publishes it again. The invariant's "a stop was requested, so the published state is the stopped one" holds only at this step granularity.
- All Win32 and COM calls. They are parameters (answers) or recorded effects. This covers hook installation, message pumps, `SendInput`, `GetAsyncKeyState`, `RegisterHotKey`, `ExitWindowsEx`, `LockWorkStation`, `keybd_event`, the window procedure's registration and `DefWindowProc`'s result.
- Logging in every module, the log timestamps in the window, and the emoji in log and status texts.
- tkinter: widgets, layout, colours and the consent dialog's rendering. The dialog's answer is a parameter.
- `_select_random_action`: a weighted float choice. The chosen action is an input of each worker step.
- The state-change notification to observers in `_update_state`. The published state is the value the model carries.
- The callbacks' own effects. The model records each activity and idle notification in a trace.
- Protection: `atexit` and signal registration, the exception hook and the watchdog process are reduced to handler effects.
  - The delayed `os._exit` is an `ExitScheduled` effect.
  - Console events, window messages and signals or unhandled exceptions are accepted in every state of the model, also before `enable_protection` and after `disable_protection`.
  - For unhandled exceptions and console events this matches the source: `disable_protection` never undoes the `sys.excepthook` set at autoweb/protection.py:352-362, nor the console handler.
  - For signals and window messages it over-approximates: `disable_protection` restores the original signal handlers (autoweb/protection.py:582-590) and destroys the message window (autoweb/protection.py:475-488).
  - The `atexit` registration of autoweb/protection.py:185 also stays after disable; `OnExit` checks the enabled flag, as `_on_exit` does.
- ForceLogout: the privilege adjustment of `_enable_shutdown_privilege` is a single `EnablePrivilege` call. Its internal failures are only logged.
- InputSimulator.MoveMouseRandom: the text of the `randint` error on an empty range differs between Python versions. The model carries "empty range".
- InputSimulator: `int(x * (65535 / width))` is floating point. The model divides exactly, which can differ by one unit where the float product rounds across an integer.
- InputSimulator: the interpolation `int(cur + (target - cur) * (i / steps))` is likewise computed exactly.
- InputSimulator: screen dimensions are taken as positive after construction. `GetSystemMetrics` reports no negative sizes, and zero raises in the constructor.
- InputSimulator.TypeTextRoundTrip: requires characters below U+10000. For a character above U+FFFF, `ord(char)` does not fit the 16-bit `wScan` field and only its low 16 bits are sent, so that text does not come back. The model sends the same truncated unit.
- Scheduler: `random.uniform` draws whole milliseconds, not a continuous value.
- WindowManager: the enumeration's attributes are given per window as inputs.
- IdleCore: elapsed times are integer ticks, not float seconds.
- IdleHooks.RunNeverRepeatsIdle, IdleSimple.RunNeverRepeatsIdle, IdleClicks.RunNeverRepeatsIdle, IdleSafe.RunNeverRepeatsIdle and the four FreshDetectorNeverRepeatsIdle lemmas do not promise that `on_idle` is re-armed only by user activity, because the source does not keep that promise. `reset()` clears the notified flag in all four detectors, for example at autoweb/idle_detector.py:477-483. `start()` clears it too in the simple and polling detectors. So two idle notifications with only a reset or restart between them are possible, and the model's trace records that re-arm as its own note.
- Text.Strip and Text.Upper: only ASCII whitespace and ASCII letters are handled. Python's `strip()` and `upper()` also handle other Unicode whitespace and letters, for example `'ß'.upper() == 'SS'`. The shortcut table is ASCII, so a non-ASCII piece is rejected either way, except where Unicode case mapping would turn it into an ASCII key name.

## Findings

| source | as written | input that shows it | evidently intended | confidence | as-written member | corrected member |
|---|---|---|---|---|---|---|
| autoweb/scheduler.py:231, autoweb/scheduler.py:267 | `_execute_action` calls `input_simulator.safe_click()` and `input_simulator.scroll_random()`, and autoweb/input_simulator.py defines neither, so each call raises `AttributeError` inside the `try` | a MOUSE_CLICK action in any window, or a SCROLL action while the foreground title contains "Chrome" | a safe edge click and a random scroll that return their position or direction | not executed | Scheduler.ExecuteActionAsShipped (with Scheduler.ShippedClickAlwaysFails, Scheduler.ShippedScrollFailsWhereScrollable) | Scheduler.ExecuteAction (with Scheduler.ProvidedClickAndScrollSucceed) |

=== FILE: base.dfy ===
/** Small value types shared by every module of the model. */
module Base {

  /** The conventional optional value, standing for Python's `None`. */
  datatype Option<+T> = None | Some(value: T) {
    function GetOr(default: T): T {
      match this
      case Some(v) => v
      case None => default
    }
  }

  /** The answer of a call into code outside the model: a value, or an
      exception carrying the message `str(e)` would render. */
  datatype Outcome<+T> = Ok(value: T) | Raised(message: string)

  function Max(a: int, b: int): int { if a >= b then a else b }

  function Min(a: int, b: int): int { if a <= b then a else b }

  function Abs(a: int): nat { if a >= 0 then a else -a }

  /** Python's `x & flag != 0` for a single-bit flag. Dafny's `/` floors for a
      positive divisor, which is an arithmetic shift, so this also reads the
      two's-complement bit of a negative `x` as Python does. */
  predicate HasFlag(x: int, flag: nat)
    requires flag > 0
  {
    (x / flag) % 2 == 1
  }

  /** No element occurs twice. */
  predicate Distinct<T(==)>(s: seq<T>) {
    forall i, j | 0 <= i < j < |s| :: s[i] != s[j]
  }

  lemma DistinctConcat<T>(a: seq<T>, b: seq<T>)
    requires Distinct(a) && Distinct(b)
    requires forall i, j | 0 <= i < |a| && 0 <= j < |b| :: a[i] != b[j]
    ensures Distinct(a + b)
  {
    var c := a + b;
    forall i, j | 0 <= i < j < |c| ensures c[i] != c[j] {
      if j < |a| {
      } else if i >= |a| {
        assert c[i] == b[i - |a|] && c[j] == b[j - |a|];
      } else {
        assert c[i] == a[i] && c[j] == b[j - |a|];
      }
    }
  }

  /** Python's `range(lo, hi)`. */
  function Range(lo: int, hi: int): (r: seq<int>)
    ensures |r| == if lo <= hi then hi - lo else 0
    ensures forall i | 0 <= i < |r| :: r[i] == lo + i
  {
    if lo >= hi then [] else seq(hi - lo, i requires 0 <= i < hi - lo => lo + i)
  }

  /** Python's `int(x / d)` for a positive divisor: division truncating toward zero. */
  function TruncDiv(x: int, d: int): (q: int)
    requires d > 0
    ensures Abs(q) == Abs(x) / d
    ensures x >= 0 ==> q >= 0
    ensures x <= 0 ==> q <= 0
  {
    if x >= 0 then x / d else -((-x) / d)
  }

  lemma MulAtLeast(n: int, k: int)
    requires n > 0 && k >= 1
    ensures n * k >= n
  {
    var m := k - 1;
    assert n * k == n * m + n;
    assert n * m >= 0;
  }

  lemma MulBetween(d: int, i: int, n: int)
    requires d >= 0 && 0 <= i <= n
    ensures 0 <= d * i <= d * n
  {
    assert d * n - d * i == d * (n - i);
  }

  /** The quotient is the one multiple of `n` that brackets `a`. */
  lemma DivUnique(a: int, n: int, q: int)
    requires n > 0 && n * q <= a < n * q + n
    ensures a / n == q
  {
    var p := a / n;
    assert a == n * p + a % n;
    if p < q {
      assert n * (q - p) == n * q - n * p;
      MulAtLeast(n, q - p);
      assert false;
    } else if p > q {
      assert n * (p - q) == n * p - n * q;
      MulAtLeast(n, p - q);
      assert false;
    }
  }

  lemma DivMonotone(a: int, b: int, n: int)
    requires n > 0 && 0 <= a <= b
    ensures a / n <= b / n
  {
    var p, q := a / n, b / n;
    assert a == n * p + a % n;
    assert b == n * q + b % n;
    if p > q {
      assert n * (p - q) == n * p - n * q;
      MulAtLeast(n, p - q);
      assert false;
    }
  }

  /** Truncating division undoes an exact multiplication. */
  lemma TruncDivMultiple(k: int, n: int)
    requires n > 0
    ensures TruncDiv(k * n, n) == k
  {
    if k >= 0 {
      DivUnique(k * n, n, k);
    } else {
      assert -(k * n) == (-k) * n;
      DivUnique((-k) * n, n, -k);
    }
  }

  /** Truncating division by a positive number is monotone. */
  lemma TruncDivMonotone(a: int, b: int, n: int)
    requires n > 0 && a <= b
    ensures TruncDiv(a, n) <= TruncDiv(b, n)
  {
    if b < 0 {
      DivMonotone(-b, -a, n);
    } else if a >= 0 {
      DivMonotone(a, b, n);
    }
  }

  /** `random.randint(lo, hi)` given the draw `d`; `None` where Python raises
      ValueError because the range is empty. */
  function RandInt(lo: int, hi: int, d: nat): (r: Option<int>)
    ensures r.Some? <==> lo <= hi
    ensures r.Some? ==> lo <= r.value <= hi
  {
    if lo > hi then None else Some(lo + d % (hi - lo + 1))
  }

  /** Every value of a non-empty range can be drawn. */
  lemma RandIntReachesAll(lo: int, hi: int, v: int)
    requires lo <= v <= hi
    ensures RandInt(lo, hi, v - lo) == Some(v)
  {
    var n := hi - lo + 1;
    assert 0 <= v - lo < n;
    assert (v - lo) % n == v - lo;
  }
}

=== FILE: force_logout.dfy ===
/** Forced logout on user activity (autoweb/force_logout.py): the enabled
    switch, the in-progress guard, and the control flow of the logout
    sequence, whose Windows calls are recorded with the answers passed in. */
module ForceLogout {
  import opened Base

  const EWX_LOGOFF := 0x00000000
  const EWX_FORCE := 0x00000004
  const EWX_FORCEIFHUNG := 0x00000010

  datatype Handler = Handler(enabled: bool, hasCallback: bool, inProgress: bool)

  /** The constructor: disabled, nothing in progress. */
  function Create(hasCallback: bool): Handler {
    Handler(false, hasCallback, false)
  }

  /** `on_user_activity_detected`: starts the logout sequence (the second
      component) only when enabled and no sequence is in progress. */
  function OnUserActivity(h: Handler): (r: (bool, Handler))
    ensures r.0 <==> h.enabled && !h.inProgress
    ensures r.0 ==> r.1 == h.(inProgress := true)
    ensures !r.0 ==> r.1 == h
  {
    if !h.enabled || h.inProgress then (false, h) else (true, h.(inProgress := true))
  }

  /** The calls the logout sequence makes, in order. */
  datatype Call = BeforeLogoutCallback | EnablePrivilege | ExitWindowsEx(flags: int)

  /** `_execute_logout_sequence`. `cleanup` is what the callback does,
      `first` and `second` what the two `ExitWindowsEx` calls answer (zero
      is failure). A raising callback is logged and the sequence goes on; a
      raising `ExitWindowsEx` ends it. The guard is cleared in every case. */
  function ExecuteLogoutSequence(h: Handler, cleanup: Outcome<()>, first: Outcome<int>, second: Outcome<int>)
    : (r: (seq<Call>, Handler))
    ensures r.1 == h.(inProgress := false)
    ensures var calls := r.0; var k := if h.hasCallback then 1 else 0;
      && |calls| >= k + 2
      && (h.hasCallback ==> calls[0] == BeforeLogoutCallback)
      && calls[k] == EnablePrivilege
      && calls[k + 1] == ExitWindowsEx(EWX_LOGOFF + EWX_FORCE)
      && (|calls| == k + 3 <==> first == Ok(0))
      && (|calls| == k + 3 ==> calls[k + 2] == ExitWindowsEx(EWX_LOGOFF + EWX_FORCEIFHUNG))
      && |calls| <= k + 3
  {
    var before := if h.hasCallback then [BeforeLogoutCallback] else [];
    var attempts :=
      if first == Ok(0) then [ExitWindowsEx(EWX_LOGOFF + EWX_FORCE), ExitWindowsEx(EWX_LOGOFF + EWX_FORCEIFHUNG)]
      else [ExitWindowsEx(EWX_LOGOFF + EWX_FORCE)];
    (before + [EnablePrivilege] + attempts, h.(inProgress := false))
  }

  /** Whatever the callback and the two calls do, the callback runs before
      the first logout attempt and at most two attempts are made. */
  lemma CleanupPrecedesLogout(h: Handler, cleanup: Outcome<()>, first: Outcome<int>, second: Outcome<int>)
    requires h.hasCallback
    ensures var calls := ExecuteLogoutSequence(h, cleanup, first, second).0;
      && calls[0] == BeforeLogoutCallback
      && forall i | 0 <= i < |calls| && calls[i].ExitWindowsEx? :: i >= 2
  {
  }

  /** `check_session_ending`: the session is taken to be ending when the
      desktop window handle is 0 or the query raises. */
  function CheckSessionEnding(desktop: Outcome<int>): (r: bool)
    ensures r <==> desktop.Raised? || desktop == Ok(0)
  {
    match desktop
    case Raised(_) => true
    case Ok(hwnd) => hwnd == 0
  }

  // ---------------------------------------------------------------------
  // Runs
  // ---------------------------------------------------------------------

  /** The handler together with the number of logout threads still running. */
  datatype World = World(h: Handler, running: nat)

  datatype Event =
    | SetEnabled(value: bool)
    | Activity
    | SequenceEnds(cleanup: Outcome<()>, first: Outcome<int>, second: Outcome<int>)

  /** One event; a sequence can only end if a logout thread is running. */
  function Apply(w: World, e: Event): (r: World)
    ensures e.Activity? && OnUserActivity(w.h).0 ==> r.running == w.running + 1
  {
    match e
    case SetEnabled(v) => w.(h := w.h.(enabled := v))
    case Activity =>
      var (started, h') := OnUserActivity(w.h);
      World(h', if started then w.running + 1 else w.running)
    case SequenceEnds(c, f, s) =>
      if w.running == 0 then w
      else World(ExecuteLogoutSequence(w.h, c, f, s).1, w.running - 1)
  }

  function Run(w: World, es: seq<Event>): World
    decreases |es|
  {
    if es == [] then w else Run(Apply(w, es[0]), es[1..])
  }

  /** The guard is up exactly while one logout thread runs. */
  predicate GuardMatches(w: World) {
    w.running == if w.h.inProgress then 1 else 0
  }

  /** Over any run, at most one logout sequence is ever running at a time:
      activity during a logout starts no second one. */
  lemma {:induction false} AtMostOneLogout(w: World, es: seq<Event>)
    requires GuardMatches(w)
    ensures GuardMatches(Run(w, es)) && Run(w, es).running <= 1
    decreases |es|
  {
    if es != [] {
      var next := Apply(w, es[0]);
      assert GuardMatches(next);
      AtMostOneLogout(next, es[1..]);
    }
  }

  /** A disabled handler ignores activity whatever else happens. */
  lemma DisabledIgnoresActivity(w: World)
    requires !w.h.enabled
    ensures Apply(w, Activity) == w
  {
  }
}

=== FILE: global_hotkey.dfy ===
/** The global hotkey: the shortcut-string codec (`parse_shortcut` and
    `_get_shortcut_name`) and the registration flags of the listener. */
module GlobalHotkey {
  import opened Base
  import opened Text

  const MOD_ALT := 0x0001
  const MOD_CTRL := 0x0002
  const MOD_SHIFT := 0x0004
  const MOD_WIN := 0x0008
  const MOD_NOREPEAT := 0x4000
  const WM_HOTKEY := 0x0312

  // ---------------------------------------------------------------------
  // The key table (`VK_MAP`)
  // ---------------------------------------------------------------------

  const VkCount := 38

  /** Entry `i` of `VK_MAP` in its insertion order: "A" to "Z" with codes
      0x41 to 0x5A, then "F1" to "F12" with codes 0x70 to 0x7B. */
  function VkEntry(i: nat): (e: (string, int))
    requires i < VkCount
    ensures |e.0| >= 1 && 'A' <= e.0[0] <= 'Z'
    ensures forall k | 0 <= k < |e.0| :: 'A' <= e.0[k] <= 'Z' || IsDigit(e.0[k])
    ensures i < 26 ==> e.1 == 0x41 + i && |e.0| == 1
    ensures i >= 26 ==> e.1 == 0x70 + (i - 26) && 2 <= |e.0| <= 3 && e.0[0] == 'F'
  {
    if i < 26 then ([(0x41 + i) as char], 0x41 + i)
    else
      var digits := NatToString(i - 25);
      assert |digits| <= 2 by {
        if i - 25 >= 10 {
          assert digits == NatToString((i - 25) / 10) + [DigitChar((i - 25) % 10)];
        }
      }
      var name := "F" + digits;
      assert name[0] == 'F' && forall k | 1 <= k < |name| :: name[k] == digits[k - 1];
      (name, 0x70 + (i - 26))
  }

  /** No name occurs twice in the table, so it is a proper dictionary. */
  lemma VkNamesDistinct(i: nat, j: nat)
    requires i < j < VkCount
    ensures VkEntry(i).0 != VkEntry(j).0
  {
    if i >= 26 {
      var a, b := NatToString(i - 25), NatToString(j - 25);
      NatToStringRoundTrip(i - 25);
      NatToStringRoundTrip(j - 25);
      assert VkEntry(i).0[1..] == a && VkEntry(j).0[1..] == b;
    } else if j < 26 {
      assert VkEntry(i).0[0] != VkEntry(j).0[0];
    } else {
      assert |VkEntry(i).0| < |VkEntry(j).0|;
    }
  }

  /** Codes are distinct too: letters and function keys occupy disjoint ranges. */
  lemma VkCodesDistinct(i: nat, j: nat)
    requires i < j < VkCount
    ensures VkEntry(i).1 != VkEntry(j).1
  {
  }

  predicate IsVkCode(vk: int) {
    exists i | 0 <= i < VkCount :: VkEntry(i).1 == vk
  }

  /** The first table position at or after `i` whose code is `vk`. */
  function FindCode(vk: int, i: nat): (r: Option<nat>)
    requires i <= VkCount
    ensures r.Some? ==> i <= r.value < VkCount && VkEntry(r.value).1 == vk
    ensures r.None? ==> forall j | i <= j < VkCount :: VkEntry(j).1 != vk
    decreases VkCount - i
  {
    if i == VkCount then None
    else if VkEntry(i).1 == vk then Some(i)
    else FindCode(vk, i + 1)
  }

  /** `VK_MAP[name]` if `name in VK_MAP`: a single capital letter is its
      own code, and "F1" to "F12" count up from 0x70. */
  function KeyCode(name: string): Option<int> {
    if |name| == 1 && 'A' <= name[0] <= 'Z' then Some(name[0] as int)
    else if |name| == 2 && name[0] == 'F' && '1' <= name[1] <= '9' then Some(0x6F + DigitValue(name[1]))
    else if |name| == 3 && name[0] == 'F' && name[1] == '1' && '0' <= name[2] <= '2' then Some(0x79 + DigitValue(name[2]))
    else None
  }

  /** `KeyCode` is the dictionary lookup in the table: it answers exactly for
      the table's names, with their codes. */
  lemma KeyCodeMatchesTable(name: string)
    ensures KeyCode(name).Some? <==> exists i | 0 <= i < VkCount :: VkEntry(i).0 == name
    ensures forall i | 0 <= i < VkCount && VkEntry(i).0 == name :: KeyCode(name) == Some(VkEntry(i).1)
  {
    forall i | 0 <= i < VkCount && VkEntry(i).0 == name ensures KeyCode(name) == Some(VkEntry(i).1) {
      if 26 <= i < 35 {
        DigitRoundTrip(i - 25);
        assert name == "F" + [DigitChar(i - 25)];
      } else if i >= 35 {
        DigitRoundTrip(i - 35);
        assert NatToString(i - 25) == NatToString(1) + [DigitChar(i - 35)];
        assert name == "F1" + [DigitChar(i - 35)];
      }
    }
    if KeyCode(name).Some? {
      if |name| == 1 {
        var i := name[0] as int - 0x41;
        assert VkEntry(i).0 == name;
      } else if |name| == 2 {
        var d := DigitValue(name[1]);
        DigitCharRoundTrip(name[1]);
        assert VkEntry(25 + d).0 == "F" + [DigitChar(d)] == name;
      } else {
        var d := DigitValue(name[2]);
        DigitCharRoundTrip(name[2]);
        assert NatToString(10 + d) == NatToString(1) + [DigitChar(d)];
        assert VkEntry(35 + d).0 == "F1" + [DigitChar(d)] == name;
      }
    }
  }

  /** The name `_get_shortcut_name` shows for a key: the table name of the
      code, or `0xNN` for a code the table lacks. */
  function KeyName(vk: int): (r: string)
    ensures IsVkCode(vk) ==> exists i | 0 <= i < VkCount :: VkEntry(i) == (r, vk)
    ensures !IsVkCode(vk) ==> r == HexName(vk)
  {
    match FindCode(vk, 0)
    case None => HexName(vk)
    case Some(i) => VkEntry(i).0
  }

  // ---------------------------------------------------------------------
  // Printing and parsing
  // ---------------------------------------------------------------------

  datatype Mod = Ctrl | Shift | Alt | Win

  /** The modifiers whose flag is set in `modifiers`. */
  function ModsOf(modifiers: int): set<Mod> {
    (if HasFlag(modifiers, MOD_CTRL) then {Ctrl} else {})
    + (if HasFlag(modifiers, MOD_SHIFT) then {Shift} else {})
    + (if HasFlag(modifiers, MOD_ALT) then {Alt} else {})
    + (if HasFlag(modifiers, MOD_WIN) then {Win} else {})
  }

  /** The OR of the flags of a set of modifiers. The flags are distinct
      single bits, so the OR is their sum, whatever order they came in. */
  function ModBits(ms: set<Mod>): (b: int)
    ensures 0 <= b < 16
  {
    (if Alt in ms then MOD_ALT else 0) + (if Ctrl in ms then MOD_CTRL else 0)
    + (if Shift in ms then MOD_SHIFT else 0) + (if Win in ms then MOD_WIN else 0)
  }

  /** Reading the four flags of a value below 16 and OR-ing them back gives the value. */
  lemma ModBitsOfModsOf(modifiers: int)
    requires 0 <= modifiers < 16
    ensures ModBits(ModsOf(modifiers)) == modifiers
  {
    var m := modifiers;
    if m == 0 {} else if m == 1 {} else if m == 2 {} else if m == 3 {}
    else if m == 4 {} else if m == 5 {} else if m == 6 {} else if m == 7 {}
    else if m == 8 {} else if m == 9 {} else if m == 10 {} else if m == 11 {}
    else if m == 12 {} else if m == 13 {} else if m == 14 {} else {}
  }

  /** The names of a set of modifiers in the fixed order Ctrl, Shift, Alt, Win. */
  function NamesOf(ms: set<Mod>): seq<string> {
    (if Ctrl in ms then ["Ctrl"] else [])
    + (if Shift in ms then ["Shift"] else [])
    + (if Alt in ms then ["Alt"] else [])
    + (if Win in ms then ["Win"] else [])
  }

  function ModNames(modifiers: int): seq<string> {
    NamesOf(ModsOf(modifiers))
  }

  /** `_get_shortcut_name`: Ctrl, Shift, Alt, Win in that order, each if
      its flag is set, then the key name, joined by '+'. */
  function ShortcutName(modifiers: int, vk: int): (r: string)
    ensures Split(r, '+') == ModNames(modifiers) + [KeyName(vk)]
  {
    NamesOfPlusFree(ModsOf(modifiers));
    KeyNamePlusFree(vk);
    PiecesSplitBack(ModNames(modifiers), KeyName(vk));
    Join(ModNames(modifiers) + [KeyName(vk)], '+')
  }

  /** No key name, from the table or in hex, contains the separator. */
  lemma KeyNamePlusFree(vk: int)
    ensures '+' !in KeyName(vk)
  {
    var r := KeyName(vk);
    if IsVkCode(vk) {
      KeyPieceClassifies(vk);
    } else {
      forall k | 0 <= k < |r| ensures r[k] != '+' {
        if k < 2 {
          assert r[k] == r[..2][k];
        }
      }
    }
  }

  datatype Token = ModToken(m: Mod) | KeyToken(vk: int) | BadToken

  /** One piece, already stripped and upper-cased. */
  function ClassifyWord(p: string): (t: Token)
    ensures t.KeyToken? ==> IsVkCode(t.vk)
  {
    KeyCodeMatchesTable(p);
    if p == "CTRL" || p == "CONTROL" then ModToken(Ctrl)
    else if p == "SHIFT" then ModToken(Shift)
    else if p == "ALT" then ModToken(Alt)
    else if p == "WIN" || p == "WINDOWS" || p == "SUPER" then ModToken(Win)
    else
      match KeyCode(p)
      case Some(vk) => KeyToken(vk)
      case None => BadToken
  }

  /** One '+'-separated piece, stripped and upper-cased, then classified. */
  function Classify(part: string): (t: Token)
    ensures t.KeyToken? ==> IsVkCode(t.vk)
  {
    ClassifyWord(Upper(Strip(part)))
  }

  function Tokens(parts: seq<string>): (r: seq<Token>)
    ensures |r| == |parts|
    ensures forall i | 0 <= i < |parts| :: r[i] == Classify(parts[i])
  {
    seq(|parts|, i requires 0 <= i < |parts| => Classify(parts[i]))
  }

  datatype Scan = Scan(mods: set<Mod>, key: Option<int>)

  /** The loop of `parse_shortcut`: give up at the first unrecognised piece;
      otherwise collect the modifiers and keep the last key. */
  function ScanTokens(toks: seq<Token>): (r: Option<Scan>)
    ensures r.None? <==> exists i | 0 <= i < |toks| :: toks[i].BadToken?
    ensures r.Some? ==> forall m :: m in r.value.mods <==> ModToken(m) in toks
    ensures r.Some? ==> (r.value.key.None? <==> forall i | 0 <= i < |toks| :: !toks[i].KeyToken?)
    ensures r.Some? && r.value.key.Some? ==>
      exists i | 0 <= i < |toks| :: toks[i] == KeyToken(r.value.key.value)
                                    && forall j | i < j < |toks| :: !toks[j].KeyToken?
    decreases |toks|
  {
    if toks == [] then Some(Scan({}, None))
    else
      var init := toks[..|toks| - 1];
      var last := toks[|toks| - 1];
      assert forall i | 0 <= i < |init| :: init[i] == toks[i];
      assert toks == init + [last];
      match ScanTokens(init)
      case None => None
      case Some(sc) =>
        match last
        case BadToken => None
        case ModToken(m) =>
          LastKeyAfterAppend(init, last, sc.key);
          Some(sc.(mods := sc.mods + {m}))
        case KeyToken(vk) =>
          assert toks[|toks| - 1] == KeyToken(vk);
          Some(sc.(key := Some(vk)))
  }

  /** Appending a piece that is not a key keeps the last key where it was. */
  lemma LastKeyAfterAppend(init: seq<Token>, last: Token, key: Option<int>)
    requires !last.KeyToken?
    requires key.Some? ==> exists i | 0 <= i < |init| ::
      init[i] == KeyToken(key.value) && forall j | i < j < |init| :: !init[j].KeyToken?
    ensures key.Some? ==> var toks := init + [last];
      exists i | 0 <= i < |toks| :: toks[i] == KeyToken(key.value) && forall j | i < j < |toks| :: !toks[j].KeyToken?
  {
    if key.None? {
      return;
    }
    var vk := key.value;
    var i :| 0 <= i < |init| && init[i] == KeyToken(vk) && forall j | i < j < |init| :: !init[j].KeyToken?;
    var toks := init + [last];
    assert toks[i] == KeyToken(vk);
    forall j | i < j < |toks| ensures !toks[j].KeyToken? {
      if j < |init| {
        assert toks[j] == init[j];
      }
    }
  }

  /** The outcome of `parse_shortcut` once its pieces are classified: the
      modifier flags and the last key, provided every piece was recognised
      and some piece was a key. */
  function ParseTokens(toks: seq<Token>): (r: Option<(int, int)>)
    ensures r.Some? ==> 0 <= r.value.0 < 16 && KeyToken(r.value.1) in toks
    ensures r.Some? <==>
      (forall i | 0 <= i < |toks| :: !toks[i].BadToken?) && (exists i | 0 <= i < |toks| :: toks[i].KeyToken?)
  {
    match ScanTokens(toks)
    case None => None
    case Some(sc) =>
      match sc.key
      case None => None
      case Some(vk) =>
        var i :| 0 <= i < |toks| && toks[i] == KeyToken(vk);
        Some((ModBits(sc.mods), vk))
  }

  /** `parse_shortcut`: `None` stands for `(None, None)`. */
  function ParseShortcut(s: string): (r: Option<(int, int)>)
    ensures r.Some? ==> 0 <= r.value.0 < 16 && IsVkCode(r.value.1)
    ensures r.Some? <==>
      (forall t | t in Tokens(Split(s, '+')) :: !t.BadToken?) && (exists t | t in Tokens(Split(s, '+')) :: t.KeyToken?)
  {
    ParseTokens(Tokens(Split(s, '+')))
  }

  /** An empty piece, as in "" or "Ctrl++P", makes the whole string invalid. */
  lemma EmptyPieceRejected(s: string, i: nat)
    requires i < |Split(s, '+')| && Strip(Split(s, '+')[i]) == ""
    ensures ParseShortcut(s).None?
  {
    assert Upper("") == "";
    assert Tokens(Split(s, '+'))[i].BadToken?;
  }

  /** Two token sequences with the same modifiers that end on the same key
      parse alike: the order and repetition of modifiers do not matter. */
  lemma ParseSeesOnlyModifierSetAndLastKey(a: seq<Token>, b: seq<Token>)
    requires ScanTokens(a).Some? && ScanTokens(b).Some?
    requires forall m :: ModToken(m) in a <==> ModToken(m) in b
    requires ScanTokens(a).value.key == ScanTokens(b).value.key
    ensures ParseTokens(a) == ParseTokens(b)
  {
    assert ScanTokens(a).value.mods == ScanTokens(b).value.mods;
  }

  lemma UpperIs(s: string, t: string)
    requires |s| == |t| && forall i | 0 <= i < |s| :: UpperChar(s[i]) == t[i]
    ensures Upper(s) == t
  {
  }

  /** A piece with no white space at its ends classifies as its upper case. */
  lemma ClassifyVia(s: string, w: string)
    requires |s| > 0 && !IsAsciiSpace(s[0]) && !IsAsciiSpace(s[|s| - 1]) && Upper(s) == w
    ensures Classify(s) == ClassifyWord(w)
  {
    StripKeeps(s);
  }

  lemma CtrlClassifies()
    ensures Classify("Ctrl") == ModToken(Ctrl)
  {
    UpperIs("Ctrl", "CTRL");
    ClassifyVia("Ctrl", "CTRL");
  }

  lemma ShiftClassifies()
    ensures Classify("Shift") == ModToken(Shift)
  {
    UpperIs("Shift", "SHIFT");
    ClassifyVia("Shift", "SHIFT");
  }

  lemma AltClassifies()
    ensures Classify("Alt") == ModToken(Alt)
  {
    UpperIs("Alt", "ALT");
    ClassifyVia("Alt", "ALT");
  }

  lemma WinClassifies()
    ensures Classify("Win") == ModToken(Win)
  {
    UpperIs("Win", "WIN");
    ClassifyVia("Win", "WIN");
  }

  /** Every table name reads back as its own key. */
  lemma KeyNameClassifies(i: nat)
    requires i < VkCount
    ensures Classify(VkEntry(i).0) == KeyToken(VkEntry(i).1)
  {
    var name := VkEntry(i).0;
    UpperKeeps(name);
    ClassifyVia(name, name);
    KeyCodeMatchesTable(name);
    assert name != "CTRL" && name != "CONTROL" && name != "SHIFT" && name != "ALT" by {
      if |name| >= 2 { assert name[0] == 'F'; }
    }
    assert name != "WIN" && name != "WINDOWS" && name != "SUPER" by {
      if |name| >= 2 { assert name[0] == 'F'; }
    }
  }

  function TokensOf(ms: set<Mod>): (r: seq<Token>)
    ensures forall i | 0 <= i < |r| :: r[i].ModToken?
  {
    (if Ctrl in ms then [ModToken(Ctrl)] else [])
    + (if Shift in ms then [ModToken(Shift)] else [])
    + (if Alt in ms then [ModToken(Alt)] else [])
    + (if Win in ms then [ModToken(Win)] else [])
  }

  lemma TokensAppend(a: seq<string>, b: seq<string>)
    ensures Tokens(a + b) == Tokens(a) + Tokens(b)
  {
    assert forall i | 0 <= i < |a + b| :: (a + b)[i] == if i < |a| then a[i] else b[i - |a|];
  }

  /** The modifier tokens of a set are exactly its members. */
  lemma TokensOfMembers(ms: set<Mod>)
    ensures forall m :: m in ms <==> ModToken(m) in TokensOf(ms)
  {
    var c: seq<Token> := if Ctrl in ms then [ModToken(Ctrl)] else [];
    var sh: seq<Token> := if Shift in ms then [ModToken(Shift)] else [];
    var a: seq<Token> := if Alt in ms then [ModToken(Alt)] else [];
    var w: seq<Token> := if Win in ms then [ModToken(Win)] else [];
    var t := TokensOf(ms);
    assert t == c + sh + a + w;
    forall m ensures ModToken(m) in t <==> m in ms {
      assert ModToken(m) in t <==> ModToken(m) in c || ModToken(m) in sh || ModToken(m) in a || ModToken(m) in w;
      match m {
        case Ctrl => assert ModToken(m) in c <==> m in ms;
        case Shift => assert ModToken(m) in sh <==> m in ms;
        case Alt => assert ModToken(m) in a <==> m in ms;
        case Win => assert ModToken(m) in w <==> m in ms;
      }
    }
  }

  /** One optional modifier name classifies to the matching optional token. */
  lemma OptionalPiece(present: bool, name: string, m: Mod)
    requires Classify(name) == ModToken(m)
    ensures Tokens(if present then [name] else []) == if present then [ModToken(m)] else []
  {
    if present { assert Tokens([name])[0] == Classify(name); }
  }

  /** The modifier names of a set classify to exactly that set's modifiers. */
  lemma NamesOfClassify(ms: set<Mod>)
    ensures Tokens(NamesOf(ms)) == TokensOf(ms)
  {
    CtrlClassifies();
    ShiftClassifies();
    AltClassifies();
    WinClassifies();
    var c: seq<string> := if Ctrl in ms then ["Ctrl"] else [];
    var sh: seq<string> := if Shift in ms then ["Shift"] else [];
    var a: seq<string> := if Alt in ms then ["Alt"] else [];
    var w: seq<string> := if Win in ms then ["Win"] else [];
    OptionalPiece(Ctrl in ms, "Ctrl", Ctrl);
    OptionalPiece(Shift in ms, "Shift", Shift);
    OptionalPiece(Alt in ms, "Alt", Alt);
    OptionalPiece(Win in ms, "Win", Win);
    TokensAppend(c, sh);
    TokensAppend(c + sh, a);
    TokensAppend(c + sh + a, w);
  }

  /** No modifier name contains the separator. */
  lemma NamesOfPlusFree(ms: set<Mod>)
    ensures forall k | 0 <= k < |NamesOf(ms)| :: '+' !in NamesOf(ms)[k]
  {
    var names := NamesOf(ms);
    forall k | 0 <= k < |names| ensures '+' !in names[k] {
      assert names[k] in ["Ctrl", "Shift", "Alt", "Win"];
    }
  }

  /** A set's modifier tokens followed by one key parse to that set's flags and that key. */
  lemma ParseModifiersThenKey(ms: set<Mod>, vk: int)
    ensures ParseTokens(TokensOf(ms) + [KeyToken(vk)]) == Some((ModBits(ms), vk))
  {
    var init := TokensOf(ms);
    var toks := init + [KeyToken(vk)];
    TokensOfMembers(ms);
    assert toks[..|toks| - 1] == init;
    var sc := ScanTokens(init).value;
    assert sc.mods == ms;
    assert ScanTokens(toks) == Some(sc.(key := Some(vk)));
  }

  /** Modifier pieces that classify to a set, then a key piece, joined by
      '+', split and classify back to the set's tokens and the key. */
  lemma PiecesClassifyBack(names: seq<string>, key: string, ms: set<Mod>, vk: int)
    requires Tokens(names) == TokensOf(ms) && Classify(key) == KeyToken(vk)
    requires (forall k | 0 <= k < |names| :: '+' !in names[k]) && '+' !in key
    ensures Tokens(Split(Join(names + [key], '+'), '+')) == TokensOf(ms) + [KeyToken(vk)]
  {
    PiecesSplitBack(names, key);
    TokensAppend(names, [key]);
    assert Tokens([key]) == [KeyToken(vk)];
  }

  /** The printed name of a table key is one piece that reads back as that key. */
  lemma KeyPieceClassifies(vk: int)
    requires IsVkCode(vk)
    ensures '+' !in KeyName(vk) && Classify(KeyName(vk)) == KeyToken(vk)
  {
    var i :| 0 <= i < VkCount && VkEntry(i) == (KeyName(vk), vk);
    KeyNameClassifies(i);
  }

  /** Round trip: the printed name of a shortcut parses back to the four
      modifier flags it shows and the same key. */
  lemma NameParsesBack(modifiers: int, vk: int)
    requires IsVkCode(vk)
    ensures ParseShortcut(ShortcutName(modifiers, vk)) == Some((ModBits(ModsOf(modifiers)), vk))
  {
    var key := KeyName(vk);
    KeyPieceClassifies(vk);
    NamesOfClassify(ModsOf(modifiers));
    NamesOfPlusFree(ModsOf(modifiers));
    PiecesClassifyBack(ModNames(modifiers), key, ModsOf(modifiers), vk);
    ParseModifiersThenKey(ModsOf(modifiers), vk);
  }

  /** The printed name splits back into the modifier names and the key name. */
  lemma PiecesSplitBack(names: seq<string>, key: string)
    requires forall k | 0 <= k < |names| :: '+' !in names[k]
    requires '+' !in key
    ensures Split(Join(names + [key], '+'), '+') == names + [key]
  {
    var parts := names + [key];
    forall k | 0 <= k < |parts| ensures '+' !in parts[k] {
      if k < |names| { assert parts[k] == names[k]; }
    }
    SplitJoin(parts, '+');
  }

  /** For the sixteen combinations of the four modifiers the round trip is exact. */
  lemma NameRoundTrip(modifiers: int, vk: int)
    requires 0 <= modifiers < 16 && IsVkCode(vk)
    ensures ParseShortcut(ShortcutName(modifiers, vk)) == Some((modifiers, vk))
  {
    NameParsesBack(modifiers, vk);
    ModBitsOfModsOf(modifiers);
  }

  /** A piece that starts with a digit names neither a modifier nor a key. */
  lemma DigitLedPieceIsBad(p: string)
    requires |p| > 0 && IsDigit(p[0]) && !IsAsciiSpace(p[|p| - 1])
    ensures Classify(p) == BadToken
  {
    var w := Upper(p);
    ClassifyVia(p, w);
    assert w[0] == p[0];
    assert w != "CTRL" && w != "CONTROL" && w != "SHIFT" && w != "ALT" by { assert w[0] == p[0]; }
    assert w != "WIN" && w != "WINDOWS" && w != "SUPER" by { assert w[0] == p[0]; }
  }

  /** The "0xNN" name of a key the table lacks is one piece that classifies as unrecognised. */
  lemma HexPieceIsBad(vk: int)
    requires !IsVkCode(vk)
    ensures '+' !in KeyName(vk) && Classify(KeyName(vk)) == BadToken
  {
    var hex := KeyName(vk);
    assert hex[..2] == "0x";
    assert '+' !in hex by {
      forall k | 0 <= k < |hex| ensures hex[k] != '+' {
        if k < 2 { assert hex[k] == "0x"[k]; }
      }
    }
    assert hex[0] == '0' by { assert hex[0] == hex[..2][0]; }
    DigitLedPieceIsBad(hex);
  }

  /** A key the table lacks is printed as "0xNN", which does not parse. */
  lemma HexNameRejected(modifiers: int, vk: int)
    requires !IsVkCode(vk)
    ensures ParseShortcut(ShortcutName(modifiers, vk)).None?
  {
    var names := ModNames(modifiers);
    var hex := KeyName(vk);
    NamesOfPlusFree(ModsOf(modifiers));
    HexPieceIsBad(vk);
    PiecesSplitBack(names, hex);
    var toks := Tokens(names + [hex]);
    assert toks[|toks| - 1] == Classify(hex);
  }

  // ---------------------------------------------------------------------
  // Registration flags
  // ---------------------------------------------------------------------

  /** Python's `m | flag` for a single-bit flag. */
  function OrFlag(m: int, flag: nat): (r: int)
    requires flag > 0
  {
    if HasFlag(m, flag) then m else m + flag
  }

  /** One listener thread: about to call `RegisterHotKey`, pumping messages
      under the (flags, key) pair it registered, or ended. */
  datatype Listener = Registering | Pumping(registeredAs: (int, int)) | Ended

  /** `threads` holds every listener thread started so far, oldest first;
      the last one is the thread `self._thread` refers to. `registered` is
      the flag and `stopSignalled` the stop event, both shared by all the
      threads. */
  datatype Hotkey = Hotkey(modifiers: int, vk: int, hotkeyId: int, registered: bool,
                           threads: seq<Listener>, stopSignalled: bool)

  /** Defaults: Ctrl+Shift+P under id 2. */
  function Create(): Hotkey {
    Hotkey(MOD_CTRL + MOD_SHIFT, 0x50, 2, false, [], false)
  }

  /** Whether `self._thread` refers to a live thread. */
  predicate LatestAlive(h: Hotkey) {
    |h.threads| > 0 && !h.threads[|h.threads| - 1].Ended?
  }

  /** `start`: refused while the shared flag is set; otherwise the stop
      event is cleared and one more thread is started. A thread that an
      earlier `stop` failed to join is not waited for: it stays in
      `threads` and, with the event cleared again, goes on pumping. */
  function Start(h: Hotkey): (r: (bool, Hotkey))
    ensures h.registered ==> r == (false, h)
    ensures !h.registered ==> r.0 && !r.1.stopSignalled && r.1.threads == h.threads + [Registering]
    ensures r.1.(threads := h.threads, stopSignalled := h.stopSignalled) == h
  {
    if h.registered then (false, h) else (true, h.(threads := h.threads + [Registering], stopSignalled := false))
  }

  /** `stop`: a no-op when the flag is clear and the latest thread is not
      alive; otherwise it sets the event, joins only the latest thread
      (which ends if `exitsInTime`) and clears the flag either way. Older
      threads are left to see the event on their own. */
  function Stop(h: Hotkey, exitsInTime: bool): (r: Hotkey)
    ensures !h.registered && !LatestAlive(h) ==> r == h
    ensures h.registered || LatestAlive(h) ==>
      && !r.registered && r.stopSignalled && |r.threads| == |h.threads|
      && (forall i | 0 <= i < |h.threads| - 1 :: r.threads[i] == h.threads[i])
      && (LatestAlive(r) <==> !exitsInTime && LatestAlive(h))
    ensures r.modifiers == h.modifiers && r.vk == h.vk && r.hotkeyId == h.hotkeyId
  {
    if !h.registered && !LatestAlive(h) then h
    else
      var joined := if exitsInTime && LatestAlive(h) then h.threads[|h.threads| - 1 := Ended] else h.threads;
      h.(stopSignalled := true, threads := joined, registered := false)
  }

  /** `set_shortcut`: the new combination is always stored; the listener is
      restarted exactly when the flag was set. */
  function SetShortcut(h: Hotkey, modifiers: int, vk: int, exitsInTime: bool): (r: Hotkey)
    ensures r.modifiers == modifiers && r.vk == vk
    ensures h.registered ==>
      && !r.registered && !r.stopSignalled && |r.threads| == |h.threads| + 1
      && r.threads[|h.threads|] == Registering
    ensures h.registered ==> r.threads[..|h.threads|] == Stop(h, exitsInTime).threads
    ensures !h.registered ==> r == h.(modifiers := modifiers, vk := vk)
  {
    var wasRunning := h.registered;
    var stopped := if wasRunning then Stop(h, exitsInTime) else h;
    var updated := stopped.(modifiers := modifiers, vk := vk);
    if wasRunning then Start(updated).1 else updated
  }

  /** What a listener sees in one step: the answer of `RegisterHotKey`
      (meaningful only before registering), or a peeked message, if any. */
  datatype ListenerInput = Granted | Denied | Message(msg: Option<(int, int)>)

  /** One step of listener thread `i`. Registration happens first, with the
      combination stored at that moment, and a refused registration ends the
      thread; then each step either sees the shared stop event, unregisters
      and clears the shared flag, or handles at most one message, firing the
      callback on this hotkey's `WM_HOTKEY`. */
  function ListenerStep(h: Hotkey, i: nat, input: ListenerInput): (r: (bool, Hotkey))
    ensures r.0 <==> i < |h.threads| && h.threads[i].Pumping? && !h.stopSignalled
                     && input == Message(Some((WM_HOTKEY, h.hotkeyId)))
    ensures i < |h.threads| && h.threads[i].Registering? && input == Granted ==>
      r.1 == h.(registered := true, threads := h.threads[i := Pumping((OrFlag(h.modifiers, MOD_NOREPEAT), h.vk))])
    ensures i < |h.threads| && h.threads[i].Registering? && input != Granted ==>
      r.1 == h.(threads := h.threads[i := Ended])
    ensures i < |h.threads| && h.threads[i].Pumping? && h.stopSignalled ==>
      r.1 == h.(registered := false, threads := h.threads[i := Ended])
    ensures |r.1.threads| == |h.threads|
    ensures forall j | 0 <= j < |h.threads| && j != i :: r.1.threads[j] == h.threads[j]
    ensures r.1.(registered := h.registered, threads := h.threads) == h
  {
    if i >= |h.threads| then (false, h)
    else match h.threads[i]
      case Ended => (false, h)
      case Registering =>
        if input == Granted then
          (false, h.(registered := true, threads := h.threads[i := Pumping((OrFlag(h.modifiers, MOD_NOREPEAT), h.vk))]))
        else (false, h.(threads := h.threads[i := Ended]))
      case Pumping(_) =>
        if h.stopSignalled then (false, h.(registered := false, threads := h.threads[i := Ended]))
        else (input == Message(Some((WM_HOTKEY, h.hotkeyId))), h)
  }

  /** The shared flag is set only while some thread pumps messages under a
      registration of its own. */
  predicate Consistent(h: Hotkey) {
    h.registered ==> exists i | 0 <= i < |h.threads| :: h.threads[i].Pumping?
  }

  datatype Event = StartCall | StopCall(exitsInTime: bool) | SetCall(modifiers: int, vk: int, exitsInTime: bool)
                 | ListenerCall(thread: nat, input: ListenerInput)

  function Apply(h: Hotkey, e: Event): Hotkey {
    match e
    case StartCall => Start(h).1
    case StopCall(x) => Stop(h, x)
    case SetCall(m, vk, x) => SetShortcut(h, m, vk, x)
    case ListenerCall(i, input) => ListenerStep(h, i, input).1
  }

  function Run(h: Hotkey, es: seq<Event>): Hotkey
    decreases |es|
  {
    if es == [] then h else Run(Apply(h, es[0]), es[1..])
  }

  /** One listener step keeps the flag backed by a pumping thread: the
      flag is only set by the thread that has just registered, and a thread
      that ends while another pumps leaves that other thread as witness. */
  lemma ListenerStepConsistent(h: Hotkey, i: nat, input: ListenerInput)
    requires Consistent(h)
    ensures Consistent(ListenerStep(h, i, input).1)
  {
    var r := ListenerStep(h, i, input).1;
    if r.registered && i < |h.threads| {
      if h.threads[i].Registering? && input == Granted {
        assert r.threads[i].Pumping?;
      } else {
        var j :| 0 <= j < |h.threads| && h.threads[j].Pumping?;
        assert r.threads[j].Pumping?;
      }
    }
  }

  lemma {:induction false} RunConsistent(h: Hotkey, es: seq<Event>)
    requires Consistent(h)
    ensures Consistent(Run(h, es))
    decreases |es|
  {
    if es != [] {
      if es[0].ListenerCall? {
        ListenerStepConsistent(h, es[0].thread, es[0].input);
      }
      var next := Apply(h, es[0]);
      assert Consistent(next);
      RunConsistent(next, es[1..]);
    }
  }

  /** A listener that the latest thread no longer refers to is out of
      `stop`'s reach: with the flag clear and the latest thread ended,
      `stop` returns at once, and the old listener still fires the callback. */
  lemma StopMissesStrayListener(h: Hotkey, i: nat, exitsInTime: bool)
    requires i < |h.threads| && h.threads[i].Pumping? && !h.stopSignalled
    requires !h.registered && !LatestAlive(h)
    ensures Stop(h, exitsInTime) == h
    ensures ListenerStep(Stop(h, exitsInTime), i, Message(Some((WM_HOTKEY, h.hotkeyId)))).0
  {
  }

  /** The state above is reachable: a `stop` whose join times out, a second
      `start` that clears the event, and a refused registration for the new
      thread leave the first listener pumping with nothing able to stop it. */
  lemma StrayListenerReachable()
    ensures var h := Run(Create(), [StartCall, ListenerCall(0, Granted), StopCall(false), StartCall, ListenerCall(1, Denied)]);
      && h.threads == [Pumping((MOD_CTRL + MOD_SHIFT + MOD_NOREPEAT, 0x50)), Ended]
      && !h.registered && !h.stopSignalled && !LatestAlive(h)
  {
    var es := [StartCall, ListenerCall(0, Granted), StopCall(false), StartCall, ListenerCall(1, Denied)];
    var h0 := Create();
    var h1 := Apply(h0, StartCall);
    assert h1.threads == [Registering];
    assert OrFlag(MOD_CTRL + MOD_SHIFT, MOD_NOREPEAT) == MOD_CTRL + MOD_SHIFT + MOD_NOREPEAT;
    var p := Pumping((MOD_CTRL + MOD_SHIFT + MOD_NOREPEAT, 0x50));
    var h2 := Apply(h1, ListenerCall(0, Granted));
    assert h2.threads == [p] && h2.registered;
    var h3 := Apply(h2, StopCall(false));
    assert h3.threads == [p] && !h3.registered && h3.stopSignalled;
    var h4 := Apply(h3, StartCall);
    assert h4.threads == [p, Registering] && !h4.stopSignalled;
    var h5 := Apply(h4, ListenerCall(1, Denied));
    assert h5.threads == [p, Ended];
    assert Run(h0, es) == Run(h1, es[1..]) == Run(h2, es[2..]) == Run(h3, es[3..]) == Run(h4, es[4..]) == Run(h5, []);
  }
}

=== FILE: idle_clicks.dfy ===
/** The marking idle detector (autoweb/idle_detector_clicks.py). Its hooks
    record a counted click or key press in the idle state at once (unless
    suppressed) and leave a pending flag; the check worker reports the
    pending activity and runs the shared idle check. Like the hook-based
    variant, and unlike the simple and polling ones, `start()` neither
    re-arms the idle notification nor drops a pending report. */
module IdleClicks {
  import opened Base
  import opened IdleCore

  datatype Detector = Detector(
    state: IdleState,
    notified: bool,
    pending: bool,
    suppressed: bool,
    running: bool,
    timeout: int)

  /** A pending report always has a recorded kind to report. */
  predicate Valid(d: Detector) {
    d.pending ==> d.state.activityType.Some?
  }

  function Create(timeout: int): (d: Detector)
    ensures Valid(d) && !d.running && !d.pending && d.state == InitialState
  {
    Detector(InitialState, false, false, false, false, timeout)
  }

  /** `_mark_activity`: ignored while suppressed; otherwise the activity is
      recorded now, the idle notification re-armed and a report left
      pending. */
  function MarkActivity(d: Detector, kind: ActivityType, now: int): (r: Detector)
    ensures d.suppressed ==> r == d
    ensures !d.suppressed ==> r.state == IdleState(true, now, 0, Some(kind)) && r.pending && !r.notified
    ensures r.(state := d.state, pending := d.pending, notified := d.notified) == d
  {
    if d.suppressed then d
    else d.(state := IdleState(true, now, 0, Some(kind)), notified := false, pending := true)
  }

  /** One hook callback at time `now`. */
  function Hook(d: Detector, m: HookMsg, now: int): (r: Detector)
    ensures m.Counts() && !d.suppressed ==> r.pending && r.state.activityType == Some(m.Kind()) && r.state.lastActivityTime == now
    ensures !m.Counts() || d.suppressed ==> r == d
  {
    if m.Counts() then MarkActivity(d, m.Kind(), now) else d
  }

  datatype Tick = Tick(detector: Detector, notes: seq<Note>)

  /** One pass of the check worker: a pending report is consumed and
      announced with the recorded kind, then the idle check runs. */
  function CheckPass(d: Detector, now: int): (r: Tick)
    requires Valid(d)
    ensures Valid(r.detector) && !r.detector.pending
    ensures r.detector.suppressed == d.suppressed && r.detector.running == d.running && r.detector.timeout == d.timeout
    ensures r.detector.state.lastActivityTime == d.state.lastActivityTime
    ensures r.detector.state.activityType == d.state.activityType
    ensures d.pending ==> |r.notes| >= 1 && r.notes[0] == Activity(d.state.activityType.value)
    ensures !d.pending ==> forall n | n in r.notes :: n == IdleNote
  {
    var act := if d.pending then [Activity(d.state.activityType.value)] else [];
    var s := Settle(d.state, d.notified, act, now, d.timeout);
    Tick(d.(state := s.state, notified := s.notified, pending := false), s.notes)
  }

  /** A pending report is announced once: a second pass with no hook call in
      between announces no activity. */
  lemma ReportedOnce(d: Detector, now1: int, now2: int)
    requires Valid(d)
    ensures var second := CheckPass(CheckPass(d, now1).detector, now2);
      forall n | n in second.notes :: n == IdleNote
  {
  }

  /** `start()`: refused while running; otherwise the user counts as active
      now. The notified flag and any pending report are kept. */
  function Start(d: Detector, now: int): (r: (bool, Detector))
    ensures !r.0 <==> d.running
    ensures d.running ==> r.1 == d
    ensures r.0 ==> r.1.running && r.1.notified == d.notified && r.1.pending == d.pending
    ensures r.0 ==> r.1.state == d.state.(lastActivityTime := now, isUserActive := true)
  {
    if d.running then (false, d)
    else (true, d.(state := d.state.(lastActivityTime := now, isUserActive := true), running := true))
  }

  /** Because `start()` keeps the notified flag, a detector that announced
      idleness, was stopped and started again stays silent through the next
      idle stretch unless activity or `reset()` intervenes. */
  lemma RestartStaysSilent(d: Detector, start: int, later: int)
    requires Valid(d) && !d.running && d.notified && !d.pending
    requires start > 0
    ensures var r := CheckPass(Start(d, start).1, later);
      r.notes == [] && r.detector.notified
  {
  }

  function Stop(d: Detector): (r: Detector)
    ensures !r.running && r.(running := d.running) == d
  {
    d.(running := false)
  }

  /** `reset()`: the idle timer restarts now and the idle notification is
      re-armed. */
  function Reset(d: Detector, now: int): (r: Detector)
    ensures r.state.lastActivityTime == now && r.state.isUserActive && r.state.idleDuration == 0 && !r.notified
    ensures r.(state := d.state, notified := d.notified) == d
  {
    d.(state := d.state.(lastActivityTime := now, isUserActive := true, idleDuration := 0), notified := false)
  }

  datatype Event =
    | HookCall(msg: HookMsg, now: int)
    | CheckTick(now: int)
    | SuppressActivity
    | RestoreActivity
    | StartDetector(now: int)
    | StopDetector
    | ResetTimer(now: int)

  function Step(d: Detector, e: Event): (r: Tick)
    requires Valid(d)
    ensures Valid(r.detector)
  {
    match e
    case HookCall(m, now) => Tick(if d.running then Hook(d, m, now) else d, [])
    case CheckTick(now) => if d.running then CheckPass(d, now) else Tick(d, [])
    case SuppressActivity => Tick(d.(suppressed := true), [])
    case RestoreActivity => Tick(d.(suppressed := false), [])
    case StartDetector(now) => Tick(Start(d, now).1, [])
    case StopDetector => Tick(Stop(d), [])
    case ResetTimer(now) => Tick(Reset(d, now), [Rearmed])
  }

  function Run(d: Detector, es: seq<Event>): (r: Tick)
    requires Valid(d)
    ensures Valid(r.detector)
    decreases |es|
  {
    if |es| == 0 then Tick(d, [])
    else
      var t := Step(d, es[0]);
      var rest := Run(t.detector, es[1..]);
      Tick(rest.detector, t.notes + rest.notes)
  }

  /** A pending idle notification is covered by the notified flag, or else a
      report is pending that will end the idle stretch first. */
  predicate Consistent(d: Detector, t: seq<Note>) {
    Valid(d) && NoRepeatIdle(t) && (IdlePending(t) ==> d.notified || d.pending)
  }

  lemma {:induction false} StepKeepsConsistent(d: Detector, t: seq<Note>, e: Event)
    requires Consistent(d, t)
    ensures var s := Step(d, e); Consistent(s.detector, t + s.notes)
  {
    var s := Step(d, e);
    match e {
      case CheckTick(now) =>
        if d.running {
          var act := if d.pending then [Activity(d.state.activityType.value)] else [];
          SettleKeepsNoRepeat(t, d.state, d.notified, act, now, d.timeout);
        } else {
          assert t + s.notes == t;
        }
      case ResetTimer(now) =>
        EndClearsPending(t, Rearmed);
      case _ =>
        assert t + s.notes == t;
    }
  }

  lemma {:induction false} RunNeverRepeatsIdle(d: Detector, t: seq<Note>, es: seq<Event>)
    requires Consistent(d, t)
    ensures var r := Run(d, es); Consistent(r.detector, t + r.notes)
    decreases |es|
  {
    if |es| > 0 {
      var s := Step(d, es[0]);
      var rest := Run(s.detector, es[1..]);
      StepKeepsConsistent(d, t, es[0]);
      RunNeverRepeatsIdle(s.detector, t + s.notes, es[1..]);
      TraceAssoc(t, s.notes, rest.notes);
      assert Run(d, es) == Tick(rest.detector, s.notes + rest.notes);
    } else {
      assert t + Run(d, es).notes == t;
    }
  }

  /** From construction, `on_idle` fires at most once per idle stretch. */
  lemma FreshDetectorNeverRepeatsIdle(timeout: int, es: seq<Event>)
    ensures IdleSeparated(Run(Create(timeout), es).notes)
  {
    RunNeverRepeatsIdle(Create(timeout), [], es);
    assert [] + Run(Create(timeout), es).notes == Run(Create(timeout), es).notes;
    NoRepeatIdleMeansSeparated(Run(Create(timeout), es).notes);
  }
}

=== FILE: idle_core.dfy ===
/** What the four idle detectors share: the idle state record, the two
    read-only queries, the once-per-stretch idle check that every detector
    runs on each tick, and the trace of callback notifications. Time is an
    integer clock reading; `0` means "no activity recorded yet", as the
    source's `last_activity_time == 0` test does. */
module IdleCore {
  import opened Base

  datatype ActivityType = MouseMove | MouseClick | Keyboard

  datatype IdleState = IdleState(
    isUserActive: bool,
    lastActivityTime: int,
    idleDuration: int,
    activityType: Option<ActivityType>)

  /** The `IdleState()` a detector is constructed with. */
  const InitialState := IdleState(false, 0, 0, None)

  /** A callback the detector makes, `on_activity(kind)` or `on_idle()`, or
      the mark an explicit `start()` / `reset()` leaves when it re-arms the
      idle notification (no callback, but a new idle stretch begins). */
  datatype Note = Activity(kind: ActivityType) | IdleNote | Rearmed {
    /** This note ends an idle stretch. */
    predicate Ends() { !IdleNote? }
  }

  const WM_LBUTTONDOWN := 0x0201
  const WM_RBUTTONDOWN := 0x0204
  const WM_MBUTTONDOWN := 0x0207
  const WM_KEYDOWN := 0x0100
  const WM_SYSKEYDOWN := 0x0104
  const WM_MOUSEMOVE := 0x0200
  const WM_LBUTTONUP := 0x0202
  const WM_RBUTTONUP := 0x0205
  const WM_MBUTTONUP := 0x0208
  const WM_MOUSEWHEEL := 0x020A
  const WM_KEYUP := 0x0101
  const WM_SYSKEYUP := 0x0105

  /** A message delivered to one of the two low-level hooks, as the
      click-and-key detectors filter it. */
  datatype HookMsg = MouseMsg(nCode: int, wParam: int) | KeyMsg(nCode: int, wParam: int) {
    /** The hook treats the message as user activity. */
    predicate Counts() {
      match this
      case MouseMsg(n, w) => n >= 0 && (w == WM_LBUTTONDOWN || w == WM_RBUTTONDOWN || w == WM_MBUTTONDOWN)
      case KeyMsg(n, w) => n >= 0 && (w == WM_KEYDOWN || w == WM_SYSKEYDOWN)
    }

    function Kind(): ActivityType {
      if MouseMsg? then MouseClick else Keyboard
    }
  }

  /** The `is_user_active` property: activity recorded, and less than the
      timeout ago. */
  function IsUserActive(st: IdleState, now: int, timeout: int): (r: bool)
    ensures r ==> st.lastActivityTime != 0
    ensures st.lastActivityTime != 0 ==> (r <==> now < st.lastActivityTime + timeout)
  {
    if st.lastActivityTime == 0 then false else now - st.lastActivityTime < timeout
  }

  /** The `seconds_until_idle` property: time left before the timeout,
      never negative, zero before any activity. */
  function SecondsUntilIdle(st: IdleState, now: int, timeout: int): (r: int)
    ensures r >= 0
    ensures st.lastActivityTime == 0 ==> r == 0
    ensures r > 0 ==> r == st.lastActivityTime + timeout - now
  {
    if st.lastActivityTime == 0 then 0 else Max(0, timeout - (now - st.lastActivityTime))
  }

  /** The two queries agree: the user is active exactly when some time is
      left before the timeout. */
  lemma ActiveIffTimeLeft(st: IdleState, now: int, timeout: int)
    ensures IsUserActive(st, now, timeout) <==> SecondsUntilIdle(st, now, timeout) > 0
  {
  }

  /** Result of one idle check: the new state and notified flag, and whether
      `on_idle` fired. */
  datatype Check = Check(state: IdleState, notified: bool, fired: bool)

  /** The idle check every detector's worker runs once per tick. */
  function IdleCheck(st: IdleState, notified: bool, now: int, timeout: int): (r: Check)
    ensures r.fired <==> st.lastActivityTime > 0 && now - st.lastActivityTime >= timeout && !notified
    ensures r.notified <==> notified || r.fired
    ensures r.state.lastActivityTime == st.lastActivityTime && r.state.activityType == st.activityType
    ensures st.lastActivityTime > 0 ==> r.state.idleDuration == now - st.lastActivityTime
    ensures st.lastActivityTime <= 0 ==> r.state == st
    ensures r.state.isUserActive <==> st.isUserActive && !(st.lastActivityTime > 0 && now - st.lastActivityTime >= timeout)
  {
    if st.lastActivityTime > 0 then
      var elapsed := now - st.lastActivityTime;
      var st1 := st.(idleDuration := elapsed);
      if elapsed >= timeout then
        Check(st1.(isUserActive := false), true, !notified)
      else
        Check(st1, notified, false)
    else
      Check(st, notified, false)
  }

  /** The notification an idle check adds to the trace. */
  function IdleNotes(c: Check): (r: seq<Note>)
    ensures |r| <= 1
    ensures r == [IdleNote] <==> c.fired
  {
    if c.fired then [IdleNote] else []
  }

  /** Some activity notification or re-arming lies strictly between
      positions `i` and `j`. */
  predicate ActivityBetween(t: seq<Note>, i: int, j: int)
    requires 0 <= i <= j <= |t|
  {
    exists k | i < k < j :: t[k].Ends()
  }

  /** `on_idle` never fires twice without an `on_activity` (or an explicit
      re-arming) in between: between any two idle notifications of the trace
      lies a note that ends the idle stretch. */
  predicate IdleSeparated(t: seq<Note>) {
    forall i, j | 0 <= i < j < |t| && t[i].IdleNote? && t[j].IdleNote? :: ActivityBetween(t, i, j)
  }

  /** The same property, checked note by note: no idle notification follows
      another immediately. */
  predicate NoRepeatIdle(t: seq<Note>)
    decreases |t|
  {
    if |t| < 2 then true
    else !(t[|t| - 2].IdleNote? && t[|t| - 1].IdleNote?) && NoRepeatIdle(t[..|t| - 1])
  }

  /** The trace ends with an idle notification: another `on_idle` now would
      be a repeat. */
  predicate IdlePending(t: seq<Note>) {
    |t| > 0 && t[|t| - 1].IdleNote?
  }

  /** The note-by-note check says exactly that idle notifications are
      separated. */
  lemma {:induction false} NoRepeatIdleMeansSeparated(t: seq<Note>)
    ensures NoRepeatIdle(t) <==> IdleSeparated(t)
    decreases |t|
  {
    if |t| >= 2 {
      var p := t[..|t| - 1];
      NoRepeatIdleMeansSeparated(p);
      if NoRepeatIdle(t) {
        forall i, j | 0 <= i < j < |t| && t[i].IdleNote? && t[j].IdleNote?
          ensures ActivityBetween(t, i, j)
        {
          if j < |t| - 1 {
            assert p[i] == t[i] && p[j] == t[j];
            var k :| i < k < j && p[k].Ends();
            assert t[k] == p[k];
          } else if i == |t| - 2 {
            assert false;
          } else {
            assert t[|t| - 2].Ends();
          }
        }
      }
      if IdleSeparated(t) {
        forall i, j | 0 <= i < j < |p| && p[i].IdleNote? && p[j].IdleNote?
          ensures ActivityBetween(p, i, j)
        {
          assert t[i] == p[i] && t[j] == p[j];
          var k :| i < k < j && t[k].Ends();
          assert p[k] == t[k];
        }
        assert t[|t| - 2].IdleNote? && t[|t| - 1].IdleNote? ==> ActivityBetween(t, |t| - 2, |t| - 1);
      }
    }
  }

  /** Appending a notification keeps the no-repeat property as long as an
      idle notification is only appended when none is pending; afterwards an
      idle notification is pending exactly when the appended one is one. */
  lemma AppendNote(t: seq<Note>, n: Note)
    requires NoRepeatIdle(t)
    requires n.IdleNote? ==> !IdlePending(t)
    ensures NoRepeatIdle(t + [n])
    ensures IdlePending(t + [n]) <==> n.IdleNote?
  {
    assert (t + [n])[..|t|] == t;
  }

  /** One idle check keeps the no-repeat property, provided the notified
      flag it starts from covers any pending idle notification; the flag it
      leaves behind covers the pending one again. */
  lemma {:induction false} IdleCheckKeepsNoRepeat(t: seq<Note>, st: IdleState, notified: bool, now: int, timeout: int)
    requires NoRepeatIdle(t)
    requires IdlePending(t) ==> notified
    ensures var c := IdleCheck(st, notified, now, timeout);
      NoRepeatIdle(t + IdleNotes(c)) && (IdlePending(t + IdleNotes(c)) ==> c.notified)
  {
    var c := IdleCheck(st, notified, now, timeout);
    if c.fired {
      AppendNote(t, IdleNote);
    } else {
      assert t + IdleNotes(c) == t;
    }
  }

  /** A worker tick after its activity handling: the activity notes `act`
      it made, then the idle check. */
  datatype Settled = Settled(state: IdleState, notified: bool, notes: seq<Note>)

  function Settle(st: IdleState, notified: bool, act: seq<Note>, now: int, timeout: int): (r: Settled)
    ensures |act| <= |r.notes| <= |act| + 1 && r.notes[..|act|] == act
    ensures |r.notes| > |act| ==> r.notes[|act|] == IdleNote
  {
    var c := IdleCheck(st, notified, now, timeout);
    Settled(c.state, c.notified, act + IdleNotes(c))
  }

  /** A tick keeps the no-repeat property: either it reports activity (which
      ends the idle stretch) or the notified flag it starts from covers any
      pending idle notification. */
  lemma SettleKeepsNoRepeat(t: seq<Note>, st: IdleState, notified: bool, act: seq<Note>, now: int, timeout: int)
    requires NoRepeatIdle(t)
    requires act == [] || (|act| == 1 && act[0].Ends())
    requires act == [] && IdlePending(t) ==> notified
    ensures var r := Settle(st, notified, act, now, timeout);
      NoRepeatIdle(t + r.notes) && (IdlePending(t + r.notes) ==> r.notified)
  {
    var c := IdleCheck(st, notified, now, timeout);
    if act != [] {
      AppendNote(t, act[0]);
    } else {
      assert t + act == t;
    }
    IdleCheckKeepsNoRepeat(t + act, st, notified, now, timeout);
    assert t + (act + IdleNotes(c)) == (t + act) + IdleNotes(c);
  }

  /** Both trace properties read a trace the same however its pieces were
      concatenated. */
  lemma TraceAssoc(a: seq<Note>, b: seq<Note>, c: seq<Note>)
    ensures NoRepeatIdle(a + b + c) == NoRepeatIdle(a + (b + c))
    ensures IdlePending(a + b + c) == IdlePending(a + (b + c))
  {
    assert a + b + c == a + (b + c);
  }

  /** An activity notification or a re-arming clears any pending idle
      notification. */
  lemma EndClearsPending(t: seq<Note>, n: Note)
    requires NoRepeatIdle(t) && n.Ends()
    ensures NoRepeatIdle(t + [n]) && !IdlePending(t + [n])
  {
    AppendNote(t, n);
  }
}

=== FILE: idle_hooks.dfy ===
/** The movement-aware idle detector (autoweb/idle_detector.py). Its hooks
    mark the user active on a button press, a key press, or a mouse move of
    more than 10 pixels along either axis from the last recorded position;
    the check worker reports each pending mark as a generic `MOUSE_MOVE`
    activity and runs the shared idle check. */
module IdleHooks {
  import opened Base
  import opened IdleCore

  /** Movement up to this many pixels along both axes is jitter. */
  const MoveThreshold := 10

  datatype Point = Point(x: int, y: int)

  /** A hook message; mouse messages carry the pointer position. */
  datatype Msg = MouseEvent(nCode: int, wParam: int, pos: Point) | KeyEvent(nCode: int, wParam: int)

  datatype Detector = Detector(
    state: IdleState,
    notified: bool,
    pending: bool,
    suppressed: bool,
    running: bool,
    lastMousePos: Point,
    timeout: int)

  function Create(timeout: int): (d: Detector)
    ensures !d.running && !d.pending && d.lastMousePos == Point(0, 0) && d.state == InitialState
  {
    Detector(InitialState, false, false, false, false, Point(0, 0), timeout)
  }

  /** The move is far enough from the recorded position to count. */
  predicate FarMove(from: Point, to: Point) {
    Abs(to.x - from.x) > MoveThreshold || Abs(to.y - from.y) > MoveThreshold
  }

  /** `_mark_active`: the activity time is now and a report is pending; the
      recorded activity kind is left as it was. */
  function MarkActive(d: Detector, now: int): (r: Detector)
    ensures r.state == d.state.(lastActivityTime := now, isUserActive := true, idleDuration := 0)
    ensures r.pending && !r.notified
    ensures r.(state := d.state, pending := d.pending, notified := d.notified) == d
  {
    d.(state := d.state.(lastActivityTime := now, isUserActive := true, idleDuration := 0),
       notified := false, pending := true)
  }

  /** The message counts as activity for a detector in state `d`. */
  predicate Marks(d: Detector, m: Msg) {
    && m.nCode >= 0
    && !d.suppressed
    && match m
       case MouseEvent(_, w, pos) =>
         (w == WM_MOUSEMOVE && FarMove(d.lastMousePos, pos))
         || w == WM_LBUTTONDOWN || w == WM_RBUTTONDOWN || w == WM_MBUTTONDOWN
       case KeyEvent(_, w) => w == WM_KEYDOWN || w == WM_SYSKEYDOWN
  }

  /** One hook callback at time `now`. */
  function Hook(d: Detector, m: Msg, now: int): (r: Detector)
    ensures Marks(d, m) ==> r.pending && r.state.lastActivityTime == now && !r.notified
    ensures Marks(d, m) ==> r.state.isUserActive && r.state.idleDuration == 0
    ensures !Marks(d, m) ==> r == d
    ensures r.lastMousePos != d.lastMousePos ==> Marks(d, m) && m.MouseEvent? && m.wParam == WM_MOUSEMOVE && r.lastMousePos == m.pos
    ensures (Marks(d, m) && m.MouseEvent? && m.wParam == WM_MOUSEMOVE) ==> r.lastMousePos == m.pos
    ensures r.state.activityType == d.state.activityType
  {
    if m.nCode < 0 || d.suppressed then d
    else match m
      case MouseEvent(_, w, pos) =>
        if w == WM_MOUSEMOVE then
          if FarMove(d.lastMousePos, pos) then MarkActive(d.(lastMousePos := pos), now) else d
        else if w == WM_LBUTTONDOWN || w == WM_RBUTTONDOWN || w == WM_MBUTTONDOWN then MarkActive(d, now)
        else d
      case KeyEvent(_, w) =>
        if w == WM_KEYDOWN || w == WM_SYSKEYDOWN then MarkActive(d, now) else d
  }

  /** Suppression makes every hook callback a no-op. */
  lemma SuppressedHooksInert(d: Detector, m: Msg, now: int)
    requires d.suppressed
    ensures Hook(d, m, now) == d
  {
  }

  /** Button releases, the wheel and key releases never count. */
  lemma ReleasesIgnored(d: Detector, nCode: int, pos: Point, now: int)
    ensures Hook(d, MouseEvent(nCode, WM_LBUTTONUP, pos), now) == d
    ensures Hook(d, MouseEvent(nCode, WM_RBUTTONUP, pos), now) == d
    ensures Hook(d, MouseEvent(nCode, WM_MBUTTONUP, pos), now) == d
    ensures Hook(d, MouseEvent(nCode, WM_MOUSEWHEEL, pos), now) == d
    ensures Hook(d, KeyEvent(nCode, WM_KEYUP), now) == d
    ensures Hook(d, KeyEvent(nCode, WM_SYSKEYUP), now) == d
  {
  }

  function MoveAll(d: Detector, ps: seq<Point>, now: int): Detector
    decreases |ps|
  {
    if |ps| == 0 then d else MoveAll(Hook(d, MouseEvent(0, WM_MOUSEMOVE, ps[0]), now), ps[1..], now)
  }

  /** Jitter never counts: any number of moves that stay within 10 pixels
      of the recorded position along both axes leave the detector as it was. */
  lemma {:induction false} JitterIgnored(d: Detector, ps: seq<Point>, now: int)
    requires forall i | 0 <= i < |ps| :: !FarMove(d.lastMousePos, ps[i])
    ensures MoveAll(d, ps, now) == d
    decreases |ps|
  {
    if |ps| > 0 {
      assert Hook(d, MouseEvent(0, WM_MOUSEMOVE, ps[0]), now) == d;
      JitterIgnored(d, ps[1..], now);
    }
  }

  datatype Tick = Tick(detector: Detector, notes: seq<Note>)

  /** One pass of the check worker: a pending mark is consumed and announced
      as a generic `MOUSE_MOVE` activity, whatever caused it; then the idle
      check runs. */
  function CheckPass(d: Detector, now: int): (r: Tick)
    ensures !r.detector.pending
    ensures r.detector.(state := d.state, notified := d.notified, pending := d.pending) == d
    ensures r.detector.state.lastActivityTime == d.state.lastActivityTime
    ensures d.pending ==> |r.notes| >= 1 && r.notes[0] == Activity(MouseMove)
    ensures !d.pending ==> forall n | n in r.notes :: n == IdleNote
  {
    var act := if d.pending then [Activity(MouseMove)] else [];
    var s := Settle(d.state, d.notified, act, now, d.timeout);
    Tick(d.(state := s.state, notified := s.notified, pending := false), s.notes)
  }

  /** `start()`: refused while running; otherwise the user counts as active
      now. The notified flag and any pending mark are kept. */
  function Start(d: Detector, now: int): (r: (bool, Detector))
    ensures !r.0 <==> d.running
    ensures d.running ==> r.1 == d
    ensures r.0 ==> r.1.running && r.1.notified == d.notified && r.1.pending == d.pending
    ensures r.0 ==> r.1.state == d.state.(lastActivityTime := now, isUserActive := true)
  {
    if d.running then (false, d)
    else (true, d.(state := d.state.(lastActivityTime := now, isUserActive := true), running := true))
  }

  function Stop(d: Detector): (r: Detector)
    ensures !r.running && r.(running := d.running) == d
  {
    d.(running := false)
  }

  function Reset(d: Detector, now: int): (r: Detector)
    ensures r.state.lastActivityTime == now && r.state.isUserActive && r.state.idleDuration == 0 && !r.notified
    ensures r.(state := d.state, notified := d.notified) == d
  {
    d.(state := d.state.(lastActivityTime := now, isUserActive := true, idleDuration := 0), notified := false)
  }

  datatype Event =
    | HookCall(msg: Msg, now: int)
    | CheckTick(now: int)
    | SuppressActivity
    | RestoreActivity
    | StartDetector(now: int)
    | StopDetector
    | ResetTimer(now: int)

  function Step(d: Detector, e: Event): Tick {
    match e
    case HookCall(m, now) => Tick(if d.running then Hook(d, m, now) else d, [])
    case CheckTick(now) => if d.running then CheckPass(d, now) else Tick(d, [])
    case SuppressActivity => Tick(d.(suppressed := true), [])
    case RestoreActivity => Tick(d.(suppressed := false), [])
    case StartDetector(now) => Tick(Start(d, now).1, [])
    case StopDetector => Tick(Stop(d), [])
    case ResetTimer(now) => Tick(Reset(d, now), [Rearmed])
  }

  function Run(d: Detector, es: seq<Event>): Tick
    decreases |es|
  {
    if |es| == 0 then Tick(d, [])
    else
      var t := Step(d, es[0]);
      var rest := Run(t.detector, es[1..]);
      Tick(rest.detector, t.notes + rest.notes)
  }

  predicate Consistent(d: Detector, t: seq<Note>) {
    NoRepeatIdle(t) && (IdlePending(t) ==> d.notified || d.pending)
  }

  lemma {:induction false} StepKeepsConsistent(d: Detector, t: seq<Note>, e: Event)
    requires Consistent(d, t)
    ensures var s := Step(d, e); Consistent(s.detector, t + s.notes)
  {
    var s := Step(d, e);
    match e {
      case CheckTick(now) =>
        if d.running {
          var act := if d.pending then [Activity(MouseMove)] else [];
          SettleKeepsNoRepeat(t, d.state, d.notified, act, now, d.timeout);
        } else {
          assert t + s.notes == t;
        }
      case ResetTimer(now) =>
        EndClearsPending(t, Rearmed);
      case _ =>
        assert t + s.notes == t;
    }
  }

  lemma {:induction false} RunNeverRepeatsIdle(d: Detector, t: seq<Note>, es: seq<Event>)
    requires Consistent(d, t)
    ensures var r := Run(d, es); Consistent(r.detector, t + r.notes)
    decreases |es|
  {
    if |es| > 0 {
      var s := Step(d, es[0]);
      var rest := Run(s.detector, es[1..]);
      StepKeepsConsistent(d, t, es[0]);
      RunNeverRepeatsIdle(s.detector, t + s.notes, es[1..]);
      TraceAssoc(t, s.notes, rest.notes);
      assert Run(d, es) == Tick(rest.detector, s.notes + rest.notes);
    } else {
      assert t + Run(d, es).notes == t;
    }
  }

  /** From construction, `on_idle` fires at most once per idle stretch. */
  lemma FreshDetectorNeverRepeatsIdle(timeout: int, es: seq<Event>)
    ensures IdleSeparated(Run(Create(timeout), es).notes)
  {
    RunNeverRepeatsIdle(Create(timeout), [], es);
    assert [] + Run(Create(timeout), es).notes == Run(Create(timeout), es).notes;
    NoRepeatIdleMeansSeparated(Run(Create(timeout), es).notes);
  }
}

=== FILE: idle_safe.dfy ===
/** The polling idle detector (autoweb/idle_detector_safe.py). Every 50 ms
    its worker samples which mouse buttons and keyboard keys are held down,
    counts only a key that is down now and was up at the previous sample,
    and then runs the shared idle check. The sample is the set of codes
    whose `GetAsyncKeyState` high bit is set. */
module IdleSafe {
  import opened Base
  import opened IdleCore

  const VK_LBUTTON := 0x01
  const VK_RBUTTON := 0x02
  const VK_MBUTTON := 0x04

  const MouseButtons: seq<int> := [VK_LBUTTON, VK_RBUTTON, VK_MBUTTON]

  const LetterKeys: seq<int> := Range(0x41, 0x5B)
  const DigitKeys: seq<int> := Range(0x30, 0x3A)
  const FunctionKeys: seq<int> := Range(0x70, 0x7C)
  /** Backspace, Tab, Enter, Escape, Space, the four arrows, Delete, Insert,
      Home, End, Page Up, Page Down. */
  const SpecialKeys: seq<int> :=
    [0x08, 0x09, 0x0D, 0x1B, 0x20, 0x25, 0x26, 0x27, 0x28, 0x2E, 0x2D, 0x24, 0x23, 0x21, 0x22]

  /** The watched keyboard codes, in the order the worker samples them. */
  const KeyboardKeys: seq<int> := LetterKeys + DigitKeys + FunctionKeys + SpecialKeys

  lemma SpecialKeysDistinct()
    ensures Distinct(SpecialKeys)
    ensures forall i | 0 <= i < |SpecialKeys| :: SpecialKeys[i] < 0x30
  {
  }

  /** The 63 watched keyboard codes are pairwise different. */
  lemma KeyboardKeysDistinct()
    ensures |KeyboardKeys| == 63 && Distinct(KeyboardKeys)
  {
    var l, d, f := LetterKeys, DigitKeys, FunctionKeys;
    DistinctConcat(l, d);
    var ld := l + d;
    assert forall i | 0 <= i < |ld| :: 0x30 <= ld[i] < 0x5B by {
      forall i | 0 <= i < |ld| ensures 0x30 <= ld[i] < 0x5B {
        if i < |l| { assert ld[i] == l[i]; } else { assert ld[i] == d[i - |l|]; }
      }
    }
    DistinctConcat(ld, f);
    var ldf := ld + f;
    assert forall i | 0 <= i < |ldf| :: 0x30 <= ldf[i] by {
      forall i | 0 <= i < |ldf| ensures 0x30 <= ldf[i] {
        if i < |ld| { assert ldf[i] == ld[i]; } else { assert ldf[i] == f[i - |ld|]; }
      }
    }
    SpecialKeysDistinct();
    DistinctConcat(ldf, SpecialKeys);
  }

  /** Each watched code has a remembered previous state. */
  predicate Tracks(prev: map<int, bool>, codes: seq<int>) {
    forall j | 0 <= j < |codes| :: codes[j] in prev
  }

  /** Code `codes[j]` is a fresh press: down now, up at the previous sample. */
  predicate FreshPress(codes: seq<int>, prev: map<int, bool>, pressed: set<int>, j: int)
    requires 0 <= j < |codes| && Tracks(prev, codes)
  {
    codes[j] in pressed && !prev[codes[j]]
  }

  /** Some code from position `i` on is a fresh press. */
  predicate AnyFreshPress(codes: seq<int>, prev: map<int, bool>, pressed: set<int>, i: int)
    requires 0 <= i <= |codes| && Tracks(prev, codes)
  {
    exists j | i <= j < |codes| :: FreshPress(codes, prev, pressed, j)
  }

  /** Outcome of one scan: whether a fresh press was found, and the
      remembered states afterwards. */
  datatype Scan = Scan(found: bool, prev: map<int, bool>)

  /** The scan loop of `_check_mouse_clicks` / `_check_keyboard`, from
      position `i` on: it records each code's state in order and stops at
      the first fresh press, leaving the codes after it as they were. */
  function ScanFrom(codes: seq<int>, prev: map<int, bool>, pressed: set<int>, i: nat): (r: Scan)
    requires i <= |codes| && Distinct(codes) && Tracks(prev, codes)
    ensures r.prev.Keys == prev.Keys
    ensures r.found <==> AnyFreshPress(codes, prev, pressed, i)
    ensures forall c | c in prev && c !in codes[i..] :: r.prev[c] == prev[c]
    ensures !r.found ==> forall j | i <= j < |codes| :: r.prev[codes[j]] == (codes[j] in pressed)
    ensures r.found ==> exists k | i <= k < |codes| :: StopsAt(codes, prev, pressed, r.prev, i, k)
    decreases |codes| - i
  {
    if i == |codes| then Scan(false, prev)
    else
      var vk := codes[i];
      if vk in pressed && !prev[vk] then
        var r := Scan(true, prev[vk := true]);
        assert StopsAt(codes, prev, pressed, r.prev, i, i) by {
          forall j | i < j < |codes| ensures r.prev[codes[j]] == prev[codes[j]] {
            assert codes[j] != codes[i];
          }
        }
        r
      else
        var prev' := prev[vk := vk in pressed];
        var r := ScanFrom(codes, prev', pressed, i + 1);
        RecordKeepsLater(codes, prev, pressed, i);
        if r.found then
          var k :| i + 1 <= k < |codes| && StopsAt(codes, prev', pressed, r.prev, i + 1, k);
          assert StopsAt(codes, prev, pressed, r.prev, i, k);
          r
        else
          r
  }

  /** Recording a code that is not a fresh press leaves the later codes'
      states, and so whether a fresh press lies ahead, unchanged. */
  lemma RecordKeepsLater(codes: seq<int>, prev: map<int, bool>, pressed: set<int>, i: nat)
    requires i < |codes| && Distinct(codes) && Tracks(prev, codes)
    requires !(codes[i] in pressed && !prev[codes[i]])
    ensures var prev' := prev[codes[i] := codes[i] in pressed];
      && (forall j | i < j < |codes| :: prev'[codes[j]] == prev[codes[j]])
      && (AnyFreshPress(codes, prev', pressed, i + 1) <==> AnyFreshPress(codes, prev, pressed, i))
      && (forall c | c in prev && c !in codes[i..] :: c != codes[i] && c !in codes[i + 1..])
  {
    var vk := codes[i];
    var prev' := prev[vk := vk in pressed];
    assert forall j | i < j < |codes| :: codes[j] != vk;
    assert forall j | i < j < |codes| :: prev'[codes[j]] == prev[codes[j]];
    assert AnyFreshPress(codes, prev', pressed, i + 1) <==> AnyFreshPress(codes, prev, pressed, i) by {
      assert !FreshPress(codes, prev, pressed, i);
      forall j | i < j < |codes| ensures FreshPress(codes, prev', pressed, j) == FreshPress(codes, prev, pressed, j) {
      }
    }
    forall c | c in prev && c !in codes[i..] ensures c != vk && c !in codes[i + 1..] {
      assert codes[i..] == [vk] + codes[i + 1..];
    }
  }

  /** The scan from `i` stopped at the fresh press `k`: every code before it
      was recorded as sampled, `k` is recorded as down, and the codes after
      it keep their previous state. */
  predicate StopsAt(codes: seq<int>, prev: map<int, bool>, pressed: set<int>, next: map<int, bool>, i: int, k: int)
    requires 0 <= i <= k < |codes| && Tracks(prev, codes) && Tracks(next, codes)
  {
    && FreshPress(codes, prev, pressed, k)
    && next[codes[k]]
    && (forall j | i <= j < k :: !FreshPress(codes, prev, pressed, j) && next[codes[j]] == (codes[j] in pressed))
    && (forall j | k < j < |codes| :: next[codes[j]] == prev[codes[j]])
  }

  /** `_check_mouse_clicks`. */
  function CheckMouseClicks(prev: map<int, bool>, pressed: set<int>): (r: Scan)
    requires Tracks(prev, MouseButtons)
    ensures r.found <==> AnyFreshPress(MouseButtons, prev, pressed, 0)
    ensures r.prev.Keys == prev.Keys
  {
    ScanFrom(MouseButtons, prev, pressed, 0)
  }

  /** `_check_keyboard`. */
  function CheckKeyboard(prev: map<int, bool>, pressed: set<int>): (r: Scan)
    requires Tracks(prev, KeyboardKeys)
    ensures r.found <==> AnyFreshPress(KeyboardKeys, prev, pressed, 0)
    ensures r.prev.Keys == prev.Keys
  {
    KeyboardKeysDistinct();
    ScanFrom(KeyboardKeys, prev, pressed, 0)
  }

  /** Holding a key down, or releasing it, is never counted: with no code
      that is down now and was up before, a scan finds nothing and records
      the sample. */
  lemma HeldOrReleasedIsNotActivity(codes: seq<int>, prev: map<int, bool>, pressed: set<int>)
    requires Distinct(codes) && Tracks(prev, codes)
    requires forall j | 0 <= j < |codes| :: codes[j] in pressed ==> prev[codes[j]]
    ensures var r := ScanFrom(codes, prev, pressed, 0);
      !r.found && forall j | 0 <= j < |codes| :: r.prev[codes[j]] == (codes[j] in pressed)
  {
  }

  /** A scan that found nothing leaves the sample recorded, so the same
      sample scanned again finds nothing either. */
  lemma RescanFindsNothing(codes: seq<int>, prev: map<int, bool>, pressed: set<int>)
    requires Distinct(codes) && Tracks(prev, codes)
    requires !ScanFrom(codes, prev, pressed, 0).found
    ensures !ScanFrom(codes, ScanFrom(codes, prev, pressed, 0).prev, pressed, 0).found
  {
    var r := ScanFrom(codes, prev, pressed, 0);
    assert Tracks(r.prev, codes);
    HeldOrReleasedIsNotActivity(codes, r.prev, pressed);
  }

  function AllReleased(codes: seq<int>): (m: map<int, bool>)
    ensures Tracks(m, codes)
    ensures forall c | c in m :: !m[c]
  {
    map c | c in codes :: false
  }

  datatype Detector = Detector(
    state: IdleState,
    notified: bool,
    prevMouse: map<int, bool>,
    prevKeys: map<int, bool>,
    suppressed: bool,
    running: bool,
    timeout: int)

  predicate Valid(d: Detector) {
    Tracks(d.prevMouse, MouseButtons) && Tracks(d.prevKeys, KeyboardKeys)
  }

  /** The detector as constructed: nothing recorded, every key up. */
  function Create(timeout: int): (d: Detector)
    ensures Valid(d) && !d.running && !d.suppressed && !d.notified
    ensures d.state == InitialState
  {
    Detector(InitialState, false, AllReleased(MouseButtons), AllReleased(KeyboardKeys), false, false, timeout)
  }

  /** A detector together with the callbacks one operation made. */
  datatype Tick = Tick(detector: Detector, notes: seq<Note>)

  predicate OnlyIdleNotes(notes: seq<Note>) {
    forall n | n in notes :: n == IdleNote
  }

  /** One pass of the polling worker at time `now` with the given sample. */
  function Poll(d: Detector, now: int, pressed: set<int>): (r: Tick)
    requires Valid(d)
    ensures Valid(r.detector)
    ensures r.detector.suppressed == d.suppressed && r.detector.running == d.running && r.detector.timeout == d.timeout
    ensures d.suppressed ==> r == Tick(d, [])
    ensures !d.suppressed ==> r.detector.prevMouse == CheckMouseClicks(d.prevMouse, pressed).prev
    ensures !d.suppressed ==> r.detector.prevKeys == CheckKeyboard(d.prevKeys, pressed).prev
    ensures (!d.suppressed && AnyFreshPress(MouseButtons, d.prevMouse, pressed, 0)) ==>
      && |r.notes| >= 1 && r.notes[0] == Activity(MouseClick)
      && r.detector.state.lastActivityTime == now && r.detector.state.activityType == Some(MouseClick)
    ensures (!d.suppressed && !AnyFreshPress(MouseButtons, d.prevMouse, pressed, 0)
             && AnyFreshPress(KeyboardKeys, d.prevKeys, pressed, 0)) ==>
      && |r.notes| >= 1 && r.notes[0] == Activity(Keyboard)
      && r.detector.state.lastActivityTime == now && r.detector.state.activityType == Some(Keyboard)
    ensures (!d.suppressed && !AnyFreshPress(MouseButtons, d.prevMouse, pressed, 0)
             && !AnyFreshPress(KeyboardKeys, d.prevKeys, pressed, 0)) ==>
      && r.detector.state.lastActivityTime == d.state.lastActivityTime
      && OnlyIdleNotes(r.notes)
  {
    if d.suppressed then Tick(d, [])
    else
      var m := CheckMouseClicks(d.prevMouse, pressed);
      var k := CheckKeyboard(d.prevKeys, pressed);
      var kind := if m.found then MouseClick else Keyboard;
      var newPress := m.found || k.found;
      var st := if newPress then IdleState(true, now, 0, Some(kind)) else d.state;
      var notified := if newPress then false else d.notified;
      var act := if newPress then [Activity(kind)] else [];
      var s := Settle(st, notified, act, now, d.timeout);
      Tick(d.(state := s.state, notified := s.notified, prevMouse := m.prev, prevKeys := k.prev), s.notes)
  }

  /** `start()`: refused while running; otherwise marks the user active now,
      re-arms the idle notification and forgets every held key. */
  function Start(d: Detector, now: int): (r: (bool, Detector))
    ensures !r.0 <==> d.running
    ensures d.running ==> r.1 == d
    ensures r.0 ==> Valid(r.1) && r.1.running && !r.1.notified
    ensures r.0 ==> r.1.state.lastActivityTime == now && r.1.state.isUserActive
    ensures r.0 ==> r.1.state.activityType == d.state.activityType
    ensures r.0 ==> forall c | c in r.1.prevMouse :: !r.1.prevMouse[c]
    ensures r.0 ==> forall c | c in r.1.prevKeys :: !r.1.prevKeys[c]
  {
    if d.running then (false, d)
    else
      (true, d.(state := d.state.(lastActivityTime := now, isUserActive := true), notified := false,
                prevMouse := AllReleased(MouseButtons), prevKeys := AllReleased(KeyboardKeys), running := true))
  }

  /** `stop()`: ends the worker; nothing else changes. */
  function Stop(d: Detector): (r: Detector)
    ensures !r.running
    ensures r.(running := d.running) == d
  {
    d.(running := false)
  }

  /** `reset()`: the idle timer restarts now and the idle notification is
      re-armed. */
  function Reset(d: Detector, now: int): (r: Detector)
    ensures r.state.lastActivityTime == now && r.state.isUserActive && r.state.idleDuration == 0 && !r.notified
    ensures r.state.activityType == d.state.activityType
    ensures r.(state := d.state, notified := d.notified) == d
  {
    d.(state := d.state.(lastActivityTime := now, isUserActive := true, idleDuration := 0), notified := false)
  }

  datatype Event =
    | Sample(now: int, pressed: set<int>)
    | SuppressActivity
    | RestoreActivity
    | StartDetector(now: int)
    | StopDetector
    | ResetTimer(now: int)

  /** One event; samples are only taken while the worker runs. */
  function Step(d: Detector, e: Event): (r: Tick)
    requires Valid(d)
    ensures Valid(r.detector)
  {
    match e
    case Sample(now, pressed) => if d.running then Poll(d, now, pressed) else Tick(d, [])
    case SuppressActivity => Tick(d.(suppressed := true), [])
    case RestoreActivity => Tick(d.(suppressed := false), [])
    case StartDetector(now) =>
      var (ok, d') := Start(d, now);
      Tick(d', if ok then [Rearmed] else [])
    case StopDetector => Tick(Stop(d), [])
    case ResetTimer(now) => Tick(Reset(d, now), [Rearmed])
  }

  function Run(d: Detector, es: seq<Event>): (r: Tick)
    requires Valid(d)
    ensures Valid(r.detector)
    decreases |es|
  {
    if |es| == 0 then Tick(d, [])
    else
      var t := Step(d, es[0]);
      var rest := Run(t.detector, es[1..]);
      Tick(rest.detector, t.notes + rest.notes)
  }

  /** The notified flag covers any idle notification not yet followed by
      activity or re-arming. */
  predicate Consistent(d: Detector, t: seq<Note>) {
    Valid(d) && NoRepeatIdle(t) && (IdlePending(t) ==> d.notified)
  }

  lemma {:induction false} StepKeepsConsistent(d: Detector, t: seq<Note>, e: Event)
    requires Consistent(d, t)
    ensures var s := Step(d, e); Consistent(s.detector, t + s.notes)
  {
    var s := Step(d, e);
    match e {
      case Sample(now, pressed) =>
        if d.running && !d.suppressed {
          var m := CheckMouseClicks(d.prevMouse, pressed);
          var k := CheckKeyboard(d.prevKeys, pressed);
          var kind := if m.found then MouseClick else Keyboard;
          var newPress := m.found || k.found;
          var st := if newPress then IdleState(true, now, 0, Some(kind)) else d.state;
          var notified := if newPress then false else d.notified;
          var act := if newPress then [Activity(kind)] else [];
          SettleKeepsNoRepeat(t, st, notified, act, now, d.timeout);
        } else {
          assert t + s.notes == t;
        }
      case StartDetector(now) =>
        if !d.running {
          EndClearsPending(t, Rearmed);
        } else {
          assert t + s.notes == t;
        }
      case ResetTimer(now) =>
        EndClearsPending(t, Rearmed);
      case _ =>
        assert t + s.notes == t;
    }
  }

  /** Over any run, `on_idle` fires at most once per idle stretch: between
      two idle notifications there is always an activity notification or an
      explicit start/reset. */
  lemma {:induction false} RunNeverRepeatsIdle(d: Detector, t: seq<Note>, es: seq<Event>)
    requires Consistent(d, t)
    ensures var r := Run(d, es); Consistent(r.detector, t + r.notes)
    decreases |es|
  {
    if |es| > 0 {
      var s := Step(d, es[0]);
      var rest := Run(s.detector, es[1..]);
      StepKeepsConsistent(d, t, es[0]);
      RunNeverRepeatsIdle(s.detector, t + s.notes, es[1..]);
      TraceAssoc(t, s.notes, rest.notes);
      assert Run(d, es) == Tick(rest.detector, s.notes + rest.notes);
    } else {
      assert t + Run(d, es).notes == t;
    }
  }

  /** From construction, the notifications of any run never repeat `on_idle`. */
  lemma FreshDetectorNeverRepeatsIdle(timeout: int, es: seq<Event>)
    ensures IdleSeparated(Run(Create(timeout), es).notes)
  {
    RunNeverRepeatsIdle(Create(timeout), [], es);
    assert [] + Run(Create(timeout), es).notes == Run(Create(timeout), es).notes;
    NoRepeatIdleMeansSeparated(Run(Create(timeout), es).notes);
  }
}

=== FILE: idle_simple.dfy ===
/** The hook-flag idle detector (autoweb/idle_detector_simple.py). The
    low-level hooks only raise a flag and remember the kind of the latest
    counted message; the check worker consumes the flag, records the
    activity unless suppressed, and runs the shared idle check. Mouse
    movement is never counted. */
module IdleSimple {
  import opened Base
  import opened IdleCore

  datatype Detector = Detector(
    state: IdleState,
    notified: bool,
    detected: bool,
    lastType: Option<ActivityType>,
    suppressed: bool,
    running: bool,
    timeout: int)

  /** A raised flag always comes with the kind of the message that raised it. */
  predicate Valid(d: Detector) {
    d.detected ==> d.lastType.Some?
  }

  function Create(timeout: int): (d: Detector)
    ensures Valid(d) && !d.running && !d.detected && d.state == InitialState
  {
    Detector(InitialState, false, false, None, false, false, timeout)
  }

  /** One hook callback: a counted message raises the flag and records its
      kind; anything else (movement, button and key releases, wheel, negative
      hook codes) leaves the detector alone. Suppression is not consulted
      here. */
  function Hook(d: Detector, m: HookMsg): (r: Detector)
    ensures m.Counts() ==> r == d.(detected := true, lastType := Some(m.Kind()))
    ensures !m.Counts() ==> r == d
  {
    if m.Counts() then d.(detected := true, lastType := Some(m.Kind())) else d
  }

  /** Mouse movement, button releases, the wheel and key releases never
      raise the flag. */
  lemma MovesAndReleasesIgnored(d: Detector, nCode: int)
    ensures Hook(d, MouseMsg(nCode, WM_MOUSEMOVE)) == d
    ensures Hook(d, MouseMsg(nCode, WM_LBUTTONUP)) == d
    ensures Hook(d, MouseMsg(nCode, WM_RBUTTONUP)) == d
    ensures Hook(d, MouseMsg(nCode, WM_MBUTTONUP)) == d
    ensures Hook(d, MouseMsg(nCode, WM_MOUSEWHEEL)) == d
    ensures Hook(d, KeyMsg(nCode, WM_KEYUP)) == d
    ensures Hook(d, KeyMsg(nCode, WM_SYSKEYUP)) == d
  {
  }

  /** A burst of hook callbacks between two worker passes, in order. */
  function ApplyHooks(d: Detector, ms: seq<HookMsg>): (r: Detector)
    ensures r.(detected := d.detected, lastType := d.lastType) == d
    decreases |ms|
  {
    if |ms| == 0 then d else Hook(ApplyHooks(d, ms[..|ms| - 1]), ms[|ms| - 1])
  }

  /** The kind of the last counted message of a burst, if any. */
  function LastCounted(ms: seq<HookMsg>): (r: Option<ActivityType>)
    ensures r.None? <==> forall i | 0 <= i < |ms| :: !ms[i].Counts()
    decreases |ms|
  {
    if |ms| == 0 then None
    else if ms[|ms| - 1].Counts() then Some(ms[|ms| - 1].Kind())
    else
      var r := LastCounted(ms[..|ms| - 1]);
      assert forall i | 0 <= i < |ms| - 1 :: ms[..|ms| - 1][i] == ms[i];
      r
  }

  /** A burst raises the flag exactly when one of its messages counts, and
      the remembered kind is that of the last counted message: however many
      clicks and key presses arrive between two passes, the worker sees one
      activity of the latest kind. */
  lemma {:induction false} BurstCollapses(d: Detector, ms: seq<HookMsg>)
    ensures var r := ApplyHooks(d, ms);
      && r.detected == (d.detected || LastCounted(ms).Some?)
      && r.lastType == (if LastCounted(ms).Some? then LastCounted(ms) else d.lastType)
    decreases |ms|
  {
    if |ms| > 0 {
      BurstCollapses(d, ms[..|ms| - 1]);
    }
  }

  /** A detector together with the callbacks one operation made. */
  datatype Tick = Tick(detector: Detector, notes: seq<Note>)

  /** One pass of the check worker. A raised flag is always lowered; while
      suppressed the pass then ends at once, skipping even the idle check;
      otherwise the activity is recorded and reported before the idle check. */
  function CheckPass(d: Detector, now: int): (r: Tick)
    requires Valid(d)
    ensures Valid(r.detector) && !r.detector.detected
    ensures r.detector.suppressed == d.suppressed && r.detector.running == d.running
    ensures r.detector.lastType == d.lastType && r.detector.timeout == d.timeout
    ensures d.detected && d.suppressed ==> r == Tick(d.(detected := false), [])
    ensures (d.detected && !d.suppressed) ==>
      && |r.notes| >= 1 && r.notes[0] == Activity(d.lastType.value)
      && r.detector.state.lastActivityTime == now && r.detector.state.activityType == d.lastType
    ensures !d.detected ==> r.detector.state.lastActivityTime == d.state.lastActivityTime && IdleOnly(r.notes)
  {
    if d.detected && d.suppressed then Tick(d.(detected := false), [])
    else
      var st := if d.detected then IdleState(true, now, 0, d.lastType) else d.state;
      var notified := if d.detected then false else d.notified;
      var act := if d.detected then [Activity(d.lastType.value)] else [];
      var s := Settle(st, notified, act, now, d.timeout);
      Tick(d.(state := s.state, notified := s.notified, detected := false), s.notes)
  }

  predicate IdleOnly(notes: seq<Note>) {
    forall n | n in notes :: n == IdleNote
  }

  /** `start()`: refused while running; otherwise marks the user active now,
      drops any raised flag and re-arms the idle notification. */
  function Start(d: Detector, now: int): (r: (bool, Detector))
    ensures !r.0 <==> d.running
    ensures d.running ==> r.1 == d
    ensures r.0 ==> r.1.running && !r.1.detected && !r.1.notified
    ensures r.0 ==> r.1.state == d.state.(lastActivityTime := now, isUserActive := true)
  {
    if d.running then (false, d)
    else (true, d.(state := d.state.(lastActivityTime := now, isUserActive := true),
                   detected := false, notified := false, running := true))
  }

  function Stop(d: Detector): (r: Detector)
    ensures !r.running && r.(running := d.running) == d
  {
    d.(running := false)
  }

  function Reset(d: Detector, now: int): (r: Detector)
    ensures r.state.lastActivityTime == now && r.state.isUserActive && r.state.idleDuration == 0 && !r.notified
    ensures r.(state := d.state, notified := d.notified) == d
  {
    d.(state := d.state.(lastActivityTime := now, isUserActive := true, idleDuration := 0), notified := false)
  }

  datatype Event =
    | HookCall(msg: HookMsg)
    | CheckTick(now: int)
    | SuppressActivity
    | RestoreActivity
    | StartDetector(now: int)
    | StopDetector
    | ResetTimer(now: int)

  /** One event; hooks and worker passes only happen while running. */
  function Step(d: Detector, e: Event): (r: Tick)
    requires Valid(d)
    ensures Valid(r.detector)
  {
    match e
    case HookCall(m) => Tick(if d.running then Hook(d, m) else d, [])
    case CheckTick(now) => if d.running then CheckPass(d, now) else Tick(d, [])
    case SuppressActivity => Tick(d.(suppressed := true), [])
    case RestoreActivity => Tick(d.(suppressed := false), [])
    case StartDetector(now) =>
      var (ok, d') := Start(d, now);
      Tick(d', if ok then [Rearmed] else [])
    case StopDetector => Tick(Stop(d), [])
    case ResetTimer(now) => Tick(Reset(d, now), [Rearmed])
  }

  function Run(d: Detector, es: seq<Event>): (r: Tick)
    requires Valid(d)
    ensures Valid(r.detector)
    decreases |es|
  {
    if |es| == 0 then Tick(d, [])
    else
      var t := Step(d, es[0]);
      var rest := Run(t.detector, es[1..]);
      Tick(rest.detector, t.notes + rest.notes)
  }

  predicate Consistent(d: Detector, t: seq<Note>) {
    Valid(d) && NoRepeatIdle(t) && (IdlePending(t) ==> d.notified)
  }

  lemma {:induction false} StepKeepsConsistent(d: Detector, t: seq<Note>, e: Event)
    requires Consistent(d, t)
    ensures var s := Step(d, e); Consistent(s.detector, t + s.notes)
  {
    var s := Step(d, e);
    match e {
      case CheckTick(now) =>
        if d.running && !(d.detected && d.suppressed) {
          var st := if d.detected then IdleState(true, now, 0, d.lastType) else d.state;
          var notified := if d.detected then false else d.notified;
          var act := if d.detected then [Activity(d.lastType.value)] else [];
          SettleKeepsNoRepeat(t, st, notified, act, now, d.timeout);
        } else {
          assert t + s.notes == t;
        }
      case StartDetector(now) =>
        if !d.running {
          EndClearsPending(t, Rearmed);
        } else {
          assert t + s.notes == t;
        }
      case ResetTimer(now) =>
        EndClearsPending(t, Rearmed);
      case _ =>
        assert t + s.notes == t;
    }
  }

  lemma {:induction false} RunNeverRepeatsIdle(d: Detector, t: seq<Note>, es: seq<Event>)
    requires Consistent(d, t)
    ensures var r := Run(d, es); Consistent(r.detector, t + r.notes)
    decreases |es|
  {
    if |es| > 0 {
      var s := Step(d, es[0]);
      var rest := Run(s.detector, es[1..]);
      StepKeepsConsistent(d, t, es[0]);
      RunNeverRepeatsIdle(s.detector, t + s.notes, es[1..]);
      TraceAssoc(t, s.notes, rest.notes);
      assert Run(d, es) == Tick(rest.detector, s.notes + rest.notes);
    } else {
      assert t + Run(d, es).notes == t;
    }
  }

  /** From construction, `on_idle` fires at most once per idle stretch. */
  lemma FreshDetectorNeverRepeatsIdle(timeout: int, es: seq<Event>)
    ensures IdleSeparated(Run(Create(timeout), es).notes)
  {
    RunNeverRepeatsIdle(Create(timeout), [], es);
    assert [] + Run(Create(timeout), es).notes == Run(Create(timeout), es).notes;
    NoRepeatIdleMeansSeparated(Run(Create(timeout), es).notes);
  }
}

=== FILE: input_simulator.dfy ===
/** The input simulator (autoweb/input_simulator.py): which INPUT records
    each method hands to `SendInput`, batch by batch, with which flags.
    `SendInput` itself, the cursor query and the screen metrics are
    parameters; each batch is one `SendInput` call. */
module InputSimulator {
  import opened Base

  const MOUSEEVENTF_MOVE := 0x0001
  const MOUSEEVENTF_LEFTDOWN := 0x0002
  const MOUSEEVENTF_LEFTUP := 0x0004
  const MOUSEEVENTF_RIGHTDOWN := 0x0008
  const MOUSEEVENTF_RIGHTUP := 0x0010
  const MOUSEEVENTF_MIDDLEDOWN := 0x0020
  const MOUSEEVENTF_MIDDLEUP := 0x0040
  const MOUSEEVENTF_ABSOLUTE := 0x8000

  const KEYEVENTF_KEYDOWN := 0x0000
  const KEYEVENTF_KEYUP := 0x0002
  const KEYEVENTF_UNICODE := 0x0004

  const VK_TAB := 0x09
  const VK_CONTROL := 0x11
  const VK_ALT := 0x12
  const VK_LWIN := 0x5B

  /** The span of absolute mouse coordinates. */
  const AbsoluteRange := 65535

  /** Storing into a `WORD` field keeps the low 16 bits. */
  function Word(x: int): (r: int)
    ensures 0 <= r < 0x1_0000
    ensures 0 <= x < 0x1_0000 ==> r == x
  {
    x % 0x1_0000
  }

  /** Storing into a `LONG` field keeps the value modulo 2^32, read signed. */
  function Long(x: int): (r: int)
    ensures -0x8000_0000 <= r < 0x8000_0000
    ensures -0x8000_0000 <= x < 0x8000_0000 ==> r == x
  {
    (x + 0x8000_0000) % 0x1_0000_0000 - 0x8000_0000
  }

  /** One INPUT record: a mouse event or a keyboard event. */
  datatype Input =
    | MouseInput(dx: int, dy: int, flags: int)
    | KeyInput(wVk: int, wScan: int, flags: int)

  /** The screen size read at construction. */
  datatype Simulator = Simulator(width: int, height: int)

  /** The constructor divides 65535 by both screen dimensions. */
  function Create(width: int, height: int): (r: Outcome<Simulator>)
    ensures r.Ok? <==> width != 0 && height != 0
    ensures r.Ok? ==> r.value == Simulator(width, height)
  {
    if width == 0 || height == 0 then Raised("division by zero") else Ok(Simulator(width, height))
  }

  /** `max(lo, min(x, hi))`. */
  function Clamp(x: int, lo: int, hi: int): (r: int)
    ensures lo <= hi ==> lo <= r <= hi
    ensures lo <= x <= hi ==> r == x
  {
    Max(lo, Min(x, hi))
  }

  /** `int(x * (65535 / size))` for a clamped coordinate, in exact arithmetic. */
  function AbsoluteCoord(x: int, size: int): (r: int)
    requires size > 0 && 0 <= x < size
    ensures 0 <= r < AbsoluteRange
  {
    assert x * AbsoluteRange < size * AbsoluteRange;
    x * AbsoluteRange / size
  }

  /** The record `move_mouse` builds: an absolute move is clamped to the
      screen and scaled; a relative one carries the deltas as given. */
  function MoveInput(s: Simulator, x: int, y: int, absolute: bool): (r: Input)
    requires s.width > 0 && s.height > 0
    ensures r.MouseInput?
    ensures absolute ==> r.flags == MOUSEEVENTF_MOVE + MOUSEEVENTF_ABSOLUTE
                         && 0 <= r.dx < AbsoluteRange && 0 <= r.dy < AbsoluteRange
    ensures !absolute ==> r == MouseInput(Long(x), Long(y), MOUSEEVENTF_MOVE)
  {
    if absolute then
      var cx, cy := Clamp(x, 0, s.width - 1), Clamp(y, 0, s.height - 1);
      MouseInput(AbsoluteCoord(cx, s.width), AbsoluteCoord(cy, s.height), MOUSEEVENTF_MOVE + MOUSEEVENTF_ABSOLUTE)
    else MouseInput(Long(x), Long(y), MOUSEEVENTF_MOVE)
  }

  /** Two absolute moves to points that clamp to the same pixel send the
      same record: only the clamped position matters. */
  lemma AbsoluteMoveSeesClampedPoint(s: Simulator, x: int, y: int)
    requires s.width > 0 && s.height > 0
    ensures MoveInput(s, x, y, true) == MoveInput(s, Clamp(x, 0, s.width - 1), Clamp(y, 0, s.height - 1), true)
  {
  }

  /** What a method sent and returned. */
  datatype Sent<T> = Sent(batches: seq<seq<Input>>, result: T)

  /** `move_mouse`; `accepted` is what `SendInput` answers. */
  function MoveMouse(s: Simulator, x: int, y: int, absolute: bool, accepted: int): (r: Sent<bool>)
    requires s.width > 0 && s.height > 0
    ensures r.batches == [[MoveInput(s, x, y, absolute)]]
    ensures r.result <==> accepted > 0
  {
    Sent([[MoveInput(s, x, y, absolute)]], accepted > 0)
  }

  // ---------------------------------------------------------------------
  // Smooth and random moves
  // ---------------------------------------------------------------------

  /** `int(c + (t - c) * (i / n))` in exact arithmetic, truncating toward zero. */
  function Lerp(c: int, t: int, i: int, n: int): (r: int)
    requires 0 <= i <= n && n > 0
    ensures i == n ==> r == t
    ensures i == 0 ==> r == c
  {
    var num := c * n + (t - c) * i;
    if i == n then
      assert num == t * n;
      TruncDivMultiple(t, n);
      TruncDiv(num, n)
    else if i == 0 then
      assert num == c * n;
      TruncDivMultiple(c, n);
      TruncDiv(num, n)
    else TruncDiv(num, n)
  }

  /** Every interpolated point lies between the start and the target. */
  lemma LerpBetween(c: int, t: int, i: int, n: int)
    requires 0 <= i <= n && n > 0
    ensures Min(c, t) <= Lerp(c, t, i, n) <= Max(c, t)
  {
    var num := c * n + (t - c) * i;
    assert Lerp(c, t, i, n) == TruncDiv(num, n);
    NumeratorBetween(c, t, i, n);
    TruncDivMultiple(Min(c, t), n);
    TruncDivMultiple(Max(c, t), n);
    TruncDivMonotone(Min(c, t) * n, num, n);
    TruncDivMonotone(num, Max(c, t) * n, n);
  }

  /** The scaled interpolation lies between the scaled end points. */
  lemma NumeratorBetween(c: int, t: int, i: int, n: int)
    requires 0 <= i <= n
    ensures Min(c, t) * n <= c * n + (t - c) * i <= Max(c, t) * n
  {
    if c <= t {
      MulBetween(t - c, i, n);
      assert (t - c) * n == t * n - c * n;
    } else {
      MulBetween(c - t, i, n);
      assert (t - c) * i == -((c - t) * i);
      assert (c - t) * n == c * n - t * n;
    }
  }

  /** `random.randint(-2, 2)` given a draw. */
  function Jitter(d: nat): (r: int)
    ensures -2 <= r <= 2
  {
    RandInt(-2, 2, d).value
  }

  /** The point the smooth move aims at on step `i` (1-based): the
      interpolated point plus jitter, with no jitter on the last step. */
  function SmoothPoint(cur: (int, int), tx: int, ty: int, steps: int, i: int, draw: nat -> (nat, nat)): (r: (int, int))
    requires 1 <= i <= steps
    ensures i < steps ==> Abs(r.0 - Lerp(cur.0, tx, i, steps)) <= 2 && Abs(r.1 - Lerp(cur.1, ty, i, steps)) <= 2
    ensures i == steps ==> r == (tx, ty)
  {
    var jx := if i < steps then Jitter(draw(i).0) else 0;
    var jy := if i < steps then Jitter(draw(i).1) else 0;
    (Lerp(cur.0, tx, i, steps) + jx, Lerp(cur.1, ty, i, steps) + jy)
  }

  /** Every step of a smooth move stays within two pixels of the box
      spanned by the start and the target. */
  lemma SmoothPointNearPath(cur: (int, int), tx: int, ty: int, steps: int, i: int, draw: nat -> (nat, nat))
    requires 1 <= i <= steps
    ensures var p := SmoothPoint(cur, tx, ty, steps, i, draw);
      && Min(cur.0, tx) - 2 <= p.0 <= Max(cur.0, tx) + 2
      && Min(cur.1, ty) - 2 <= p.1 <= Max(cur.1, ty) + 2
  {
    LerpBetween(cur.0, tx, i, steps);
    LerpBetween(cur.1, ty, i, steps);
  }

  /** `move_mouse_smooth`: one absolute move per step, then one exact move
      to the target; it returns true whatever `SendInput` answers. `cur` is
      the cursor position read at the start, `draw(i)` the jitter draws of
      step `i`. */
  function MoveMouseSmooth(s: Simulator, cur: (int, int), tx: int, ty: int, steps: int, draw: nat -> (nat, nat))
    : (r: Sent<bool>)
    requires s.width > 0 && s.height > 0
    ensures r.result
    ensures |r.batches| == Max(steps, 0) + 1
    ensures r.batches[|r.batches| - 1] == [MoveInput(s, tx, ty, true)]
    ensures forall k | 0 <= k < |r.batches| - 1 ::
      var p := SmoothPoint(cur, tx, ty, steps, k + 1, draw); r.batches[k] == [MoveInput(s, p.0, p.1, true)]
  {
    var n := Max(steps, 0);
    var moves := seq(n, k requires 0 <= k < n =>
      var p := SmoothPoint(cur, tx, ty, steps, k + 1, draw); [MoveInput(s, p.0, p.1, true)]);
    Sent(moves + [[MoveInput(s, tx, ty, true)]], true)
  }

  /** With at least one step the move's last two records both go to the target. */
  lemma SmoothMoveEndsOnTarget(s: Simulator, cur: (int, int), tx: int, ty: int, steps: int, draw: nat -> (nat, nat))
    requires s.width > 0 && s.height > 0 && steps >= 1
    ensures var b := MoveMouseSmooth(s, cur, tx, ty, steps, draw).batches;
      b[|b| - 2] == b[|b| - 1] == [MoveInput(s, tx, ty, true)]
  {
    var b := MoveMouseSmooth(s, cur, tx, ty, steps, draw).batches;
    assert b[|b| - 2] == [MoveInput(s, tx, ty, true)] by {
      var p := SmoothPoint(cur, tx, ty, steps, steps, draw);
      assert p == (tx, ty);
    }
  }

  const Margin := 50

  /** `move_mouse_random`: a target at least 50 pixels inside every edge,
      reached by a 10-step smooth move; `randint` raises on a screen
      narrower or lower than 100 pixels. */
  function MoveMouseRandom(s: Simulator, dx: nat, dy: nat, cur: (int, int), draw: nat -> (nat, nat))
    : (r: Outcome<Sent<(int, int)>>)
    requires s.width > 0 && s.height > 0
    ensures r.Ok? <==> s.width >= 2 * Margin && s.height >= 2 * Margin
    ensures r.Ok? ==> var p := r.value.result;
      && Margin <= p.0 <= s.width - Margin && Margin <= p.1 <= s.height - Margin
      && r.value.batches == MoveMouseSmooth(s, cur, p.0, p.1, 10, draw).batches
  {
    match (RandInt(Margin, s.width - Margin, dx), RandInt(Margin, s.height - Margin, dy))
    case (Some(x), Some(y)) => Ok(Sent(MoveMouseSmooth(s, cur, x, y, 10, draw).batches, (x, y)))
    case _ => Raised("empty range")
  }

  // ---------------------------------------------------------------------
  // Clicks and keys
  // ---------------------------------------------------------------------

  /** The down and up flags of a named button. */
  function ButtonFlags(button: string): (r: Option<(int, int)>)
    ensures r.Some? <==> button in {"left", "right", "middle"}
    ensures r.Some? ==> r.value.1 == 2 * r.value.0
  {
    if button == "left" then Some((MOUSEEVENTF_LEFTDOWN, MOUSEEVENTF_LEFTUP))
    else if button == "right" then Some((MOUSEEVENTF_RIGHTDOWN, MOUSEEVENTF_RIGHTUP))
    else if button == "middle" then Some((MOUSEEVENTF_MIDDLEDOWN, MOUSEEVENTF_MIDDLEUP))
    else None
  }

  /** The three buttons use six different flags. */
  lemma ButtonFlagsDistinct(a: string, b: string)
    requires ButtonFlags(a).Some? && ButtonFlags(b).Some? && a != b
    ensures var fa, fb := ButtonFlags(a).value, ButtonFlags(b).value;
      fa.0 != fb.0 && fa.1 != fb.1 && fa.0 != fb.1 && fa.1 != fb.0
  {
  }

  /** `click`: the move to (x, y) comes first, when both are given, and is
      sent even for an unknown button, which then returns false; a known
      button sends down and up in one batch and succeeds when both are
      accepted. */
  function Click(s: Simulator, button: string, x: Option<int>, y: Option<int>, moveAccepted: int, accepted: int)
    : (r: Sent<bool>)
    requires s.width > 0 && s.height > 0
    ensures var moved := x.Some? && y.Some?;
      && |r.batches| == (if moved then 1 else 0) + (if ButtonFlags(button).Some? then 1 else 0)
      && (moved ==> r.batches[0] == [MoveInput(s, x.value, y.value, true)])
    ensures ButtonFlags(button).None? ==> !r.result
    ensures ButtonFlags(button).Some? ==>
      var f := ButtonFlags(button).value;
      && r.batches[|r.batches| - 1] == [MouseInput(0, 0, f.0), MouseInput(0, 0, f.1)]
      && (r.result <==> accepted == 2)
  {
    var move := if x.Some? && y.Some? then MoveMouse(s, x.value, y.value, true, moveAccepted).batches else [];
    match ButtonFlags(button)
    case None => Sent(move, false)
    case Some((down, up)) => Sent(move + [[MouseInput(0, 0, down), MouseInput(0, 0, up)]], accepted == 2)
  }

  function KeyDownInput(vk: int): Input { KeyInput(Word(vk), 0, KEYEVENTF_KEYDOWN) }

  function KeyUpInput(vk: int): Input { KeyInput(Word(vk), 0, KEYEVENTF_KEYUP) }

  /** `key_press`: down and up of the same key in one batch. */
  function KeyPress(vk: int, accepted: int): (r: Sent<bool>)
    ensures r.batches == [[KeyDownInput(vk), KeyUpInput(vk)]]
    ensures r.result <==> accepted == 2
  {
    Sent([[KeyDownInput(vk), KeyUpInput(vk)]], accepted == 2)
  }

  /** `key_down` and `key_up`: one record, success when it was accepted. */
  function KeyDown(vk: int, accepted: int): (r: Sent<bool>)
    ensures r.batches == [[KeyDownInput(vk)]] && (r.result <==> accepted > 0)
  {
    Sent([[KeyDownInput(vk)]], accepted > 0)
  }

  function KeyUp(vk: int, accepted: int): (r: Sent<bool>)
    ensures r.batches == [[KeyUpInput(vk)]] && (r.result <==> accepted > 0)
  {
    Sent([[KeyUpInput(vk)]], accepted > 0)
  }

  /** `shortcut_alt_tab`, `shortcut_ctrl_tab` and `shortcut_win_tab` with
      the modifier `modifier`: modifier down, Tab pressed and released,
      modifier up, in three batches; always true. */
  function ShortcutTab(modifier: int): (r: Sent<bool>)
    ensures r.result && |r.batches| == 3
  {
    Sent(KeyDown(modifier, 0).batches + KeyPress(VK_TAB, 0).batches + KeyUp(modifier, 0).batches, true)
  }

  /** `shortcut_alt_tab`: Alt held around a Tab press. */
  function AltTab(): (r: Sent<bool>)
    ensures r.result
    ensures Flatten(r.batches) == [KeyDownInput(VK_ALT), KeyDownInput(VK_TAB), KeyUpInput(VK_TAB), KeyUpInput(VK_ALT)]
  {
    ShortcutReleasesKeys(VK_ALT);
    ShortcutTab(VK_ALT)
  }

  /** `shortcut_ctrl_tab`: Ctrl held around a Tab press. */
  function CtrlTab(): (r: Sent<bool>)
    ensures r.result
    ensures Flatten(r.batches) == [KeyDownInput(VK_CONTROL), KeyDownInput(VK_TAB), KeyUpInput(VK_TAB), KeyUpInput(VK_CONTROL)]
  {
    ShortcutReleasesKeys(VK_CONTROL);
    ShortcutTab(VK_CONTROL)
  }

  /** `shortcut_win_tab`: the left Windows key held around a Tab press. */
  function WinTab(): (r: Sent<bool>)
    ensures r.result
    ensures Flatten(r.batches) == [KeyDownInput(VK_LWIN), KeyDownInput(VK_TAB), KeyUpInput(VK_TAB), KeyUpInput(VK_LWIN)]
  {
    ShortcutReleasesKeys(VK_LWIN);
    ShortcutTab(VK_LWIN)
  }

  /** The records of a run of batches, in sending order. */
  function Flatten(batches: seq<seq<Input>>): (r: seq<Input>)
    ensures |batches| == 1 ==> r == batches[0]
    decreases |batches|
  {
    if batches == [] then [] else batches[0] + Flatten(batches[1..])
  }

  /** A keyboard record sequence that presses keys and releases them
      innermost first, so no key is left held down. */
  predicate KeysReleased(keys: seq<Input>)
    decreases |keys|
  {
    keys == []
    || (|keys| >= 2 && keys[0].KeyInput? && keys[0].flags == KEYEVENTF_KEYDOWN
        && keys[|keys| - 1] == KeyInput(keys[0].wVk, keys[0].wScan, KEYEVENTF_KEYUP)
        && KeysReleased(keys[1..|keys| - 1]))
  }

  /** Every shortcut releases what it pressed, Tab inside the modifier. */
  lemma ShortcutReleasesKeys(modifier: int)
    ensures Flatten(ShortcutTab(modifier).batches)
         == [KeyDownInput(modifier), KeyDownInput(VK_TAB), KeyUpInput(VK_TAB), KeyUpInput(modifier)]
    ensures KeysReleased(Flatten(ShortcutTab(modifier).batches))
  {
    var b := ShortcutTab(modifier).batches;
    assert b == [[KeyDownInput(modifier)], [KeyDownInput(VK_TAB), KeyUpInput(VK_TAB)], [KeyUpInput(modifier)]];
    assert Flatten(b[2..]) == [KeyUpInput(modifier)] by { assert b[2..][1..] == []; }
    assert Flatten(b[1..]) == [KeyDownInput(VK_TAB), KeyUpInput(VK_TAB), KeyUpInput(modifier)] by {
      assert b[1..][1..] == b[2..];
    }
    var keys := Flatten(b);
    assert keys[1..|keys| - 1] == [KeyDownInput(VK_TAB), KeyUpInput(VK_TAB)];
    assert keys[1..|keys| - 1][1..1] == [];
  }

  // ---------------------------------------------------------------------
  // Typing
  // ---------------------------------------------------------------------

  /** The two records `type_text` sends for one character. */
  function CharInputs(c: char): seq<Input> {
    [KeyInput(0, Word(c as int), KEYEVENTF_UNICODE), KeyInput(0, Word(c as int), KEYEVENTF_UNICODE + KEYEVENTF_KEYUP)]
  }

  /** `type_text`: one batch per character, always true. */
  function TypeText(text: string): (r: Sent<bool>)
    ensures r.result && |r.batches| == |text|
    ensures forall i | 0 <= i < |text| :: r.batches[i] == CharInputs(text[i])
  {
    Sent(seq(|text|, i requires 0 <= i < |text| => CharInputs(text[i])), true)
  }

  /** Reading back the code units a run of `type_text` batches carries. */
  function TypedUnits(batches: seq<seq<Input>>): seq<int>
    requires forall i | 0 <= i < |batches| :: |batches[i]| >= 1 && batches[i][0].KeyInput?
  {
    seq(|batches|, i requires 0 <= i < |batches| => batches[i][0].wScan)
  }

  /** Round trip: the typed batches carry the text's code points, for
      text inside the Basic Multilingual Plane (beyond it the `WORD`
      field keeps only the low 16 bits). */
  lemma TypeTextRoundTrip(text: string)
    requires forall i | 0 <= i < |text| :: text[i] as int < 0x1_0000
    ensures var b := TypeText(text).batches;
      (forall i | 0 <= i < |b| :: |b[i]| >= 1 && b[i][0].KeyInput?)
      && TypedUnits(b) == seq(|text|, i requires 0 <= i < |text| => text[i] as int)
  {
  }

  /** Each character is pressed and released with the same code unit. */
  lemma TypedCharReleased(c: char)
    ensures var r := CharInputs(c);
      r[0].wScan == r[1].wScan && r[0].flags == KEYEVENTF_UNICODE && r[1].flags == KEYEVENTF_UNICODE + KEYEVENTF_KEYUP
  {
  }
}

=== FILE: protection.dfy ===
/** Application protection (autoweb/protection.py): the enabled, triggered
    and shutting-down flags, the two dispatch tables that turn console
    events and window messages into a lock or a graceful shutdown, and the
    cleanup list. Every call into Windows or the process is an effect the
    model records instead of performing; whether the emergency file exists
    is read at each call, so it is an argument. */
module Protection {
  import opened Base

  const CTRL_C_EVENT := 0
  const CTRL_BREAK_EVENT := 1
  const CTRL_CLOSE_EVENT := 2
  const CTRL_LOGOFF_EVENT := 5
  const CTRL_SHUTDOWN_EVENT := 6

  const WM_POWERBROADCAST := 0x218
  const PBT_APMQUERYSUSPEND := 0x0000
  const PBT_APMSUSPEND := 0x0004
  const WM_QUERYENDSESSION := 0x0011
  const WM_ENDSESSION := 0x0016

  const WM_WTSSESSION_CHANGE := 0x02B1
  const WTS_CONSOLE_DISCONNECT := 0x2
  const WTS_SESSION_LOGOFF := 0x6
  const WTS_SESSION_LOCK := 0x7

  const VK_LWIN := 0x5B
  const VK_L := 0x4C
  const KEYEVENTF_KEYUP := 0x0002

  // ---------------------------------------------------------------------
  // Cleanup functions
  // ---------------------------------------------------------------------

  /** The messages of the cleanup calls that raised, in call order. */
  function ErrorsOf(outcomes: seq<Outcome<()>>): (r: seq<string>)
    ensures |r| <= |outcomes|
    ensures (forall i | 0 <= i < |outcomes| :: outcomes[i].Ok?) ==> r == []
    decreases |outcomes|
  {
    if outcomes == [] then []
    else (if outcomes[0].Raised? then [outcomes[0].message] else []) + ErrorsOf(outcomes[1..])
  }

  lemma {:induction false} ErrorsOfAppend(a: seq<Outcome<()>>, b: seq<Outcome<()>>)
    ensures ErrorsOf(a + b) == ErrorsOf(a) + ErrorsOf(b)
    decreases |a|
  {
    if a != [] {
      assert (a + b)[0] == a[0] && (a + b)[1..] == a[1..] + b;
      ErrorsOfAppend(a[1..], b);
      var head: seq<string> := if a[0].Raised? then [a[0].message] else [];
      assert ErrorsOf(a + b) == head + ErrorsOf(a[1..] + b);
      assert head + (ErrorsOf(a[1..]) + ErrorsOf(b)) == (head + ErrorsOf(a[1..])) + ErrorsOf(b);
    } else {
      assert a + b == b;
    }
  }

  /** `_run_cleanup`: every registered function is called once, in
      registration order, and one that raises only adds a logged error;
      `outcomes[i]` is what the i-th function does when called. */
  method RunCleanup(outcomes: seq<Outcome<()>>) returns (called: seq<nat>, logged: seq<string>)
    ensures |called| == |outcomes| && forall i | 0 <= i < |called| :: called[i] == i
    ensures logged == ErrorsOf(outcomes)
  {
    called, logged := [], [];
    var i := 0;
    while i < |outcomes|
      invariant 0 <= i <= |outcomes|
      invariant |called| == i && forall k | 0 <= k < i :: called[k] == k
      invariant logged == ErrorsOf(outcomes[..i])
    {
      called := called + [i];
      ErrorsOfAppend(outcomes[..i], [outcomes[i]]);
      assert outcomes[..i + 1] == outcomes[..i] + [outcomes[i]];
      if outcomes[i].Raised? {
        logged := logged + [outcomes[i].message];
      }
      i := i + 1;
    }
    assert outcomes[..i] == outcomes;
  }

  // ---------------------------------------------------------------------
  // Locking the workstation
  // ---------------------------------------------------------------------

  /** What the model records in place of a call it does not perform. */
  datatype Effect =
    | HandlersInstalled
    | HandlersRestored
    | CleanupRun(registered: nat)
    | LockWorkStationCall
    | KeybdEvent(vk: int, flags: int)
    | ExitScheduled

  /** `_lock_workstation`: call `LockWorkStation`; if it reports failure or
      raises, simulate Win+L with `keybd_event`. */
  function LockWorkstation(api: Outcome<bool>): (r: seq<Effect>)
    ensures |r| >= 1 && r[0] == LockWorkStationCall
    ensures |r| > 1 <==> api != Ok(true)
    ensures |r| > 1 ==> PressesReleased(r[1..])
  {
    var fallback := [KeybdEvent(VK_LWIN, 0), KeybdEvent(VK_L, 0), KeybdEvent(VK_L, KEYEVENTF_KEYUP),
                     KeybdEvent(VK_LWIN, KEYEVENTF_KEYUP)];
    if api == Ok(true) then [LockWorkStationCall]
    else
      assert PressesReleased(fallback) by {
        assert fallback[1..3] == [KeybdEvent(VK_L, 0), KeybdEvent(VK_L, KEYEVENTF_KEYUP)];
      }
      [LockWorkStationCall] + fallback
  }

  /** A key sequence that presses keys and releases them innermost first,
      so no key is left held down. */
  predicate PressesReleased(keys: seq<Effect>)
    decreases |keys|
  {
    keys == []
    || (|keys| >= 2 && keys[0].KeybdEvent? && keys[0].flags == 0
        && keys[|keys| - 1] == KeybdEvent(keys[0].vk, KEYEVENTF_KEYUP)
        && PressesReleased(keys[1..|keys| - 1]))
  }

  // ---------------------------------------------------------------------
  // The protection state
  // ---------------------------------------------------------------------

  datatype Protection = Protection(
    enabled: bool,
    registered: nat,
    lockTriggered: bool,
    shouldShutdown: bool,
    shutdownReason: Option<string>)

  /** The constructor: nothing enabled, no cleanup function, no flag set. */
  function Create(): Protection {
    Protection(false, 0, false, false, None)
  }

  /** A state with the effects it caused. */
  datatype Step = Step(p: Protection, effects: seq<Effect>)

  /** `enable_protection`: a no-op when already enabled or when the
      emergency file exists; otherwise it installs the handlers and ends
      enabled, unless the setup raised. */
  function Enable(p: Protection, emergencyFile: bool, setupRaises: bool): (r: Step)
    ensures p.enabled || emergencyFile ==> r == Step(p, [])
    ensures !p.enabled && !emergencyFile ==> r.p.enabled == !setupRaises && r.p.(enabled := p.enabled) == p
  {
    if p.enabled || emergencyFile then Step(p, [])
    else if setupRaises then Step(p, [HandlersInstalled])
    else Step(p.(enabled := true), [HandlersInstalled])
  }

  /** `disable_protection`: a no-op unless enabled; otherwise it restores
      the handlers, runs the cleanup list and ends disabled. */
  function Disable(p: Protection): (r: Step)
    ensures !p.enabled ==> r == Step(p, [])
    ensures !r.p.enabled && r.p.(enabled := p.enabled) == p
    ensures p.enabled ==> CleanupRun(p.registered) in r.effects
  {
    if !p.enabled then Step(p, [])
    else Step(p.(enabled := false), [HandlersRestored, CleanupRun(p.registered)])
  }

  /** `add_cleanup_function`. */
  function AddCleanup(p: Protection): (r: Protection)
    ensures r.registered == p.registered + 1 && r.(registered := p.registered) == p
  {
    p.(registered := p.registered + 1)
  }

  /** `_trigger_protection`: at most once, and not at all while the
      emergency file exists (which leaves the flag unset, so a later call
      can still lock). */
  function Trigger(p: Protection, emergencyFile: bool, api: Outcome<bool>): (r: Step)
    ensures p.lockTriggered || emergencyFile ==> r == Step(p, [])
    ensures !p.lockTriggered && !emergencyFile ==>
      r.p == p.(lockTriggered := true) && r.effects == [CleanupRun(p.registered)] + LockWorkstation(api)
  {
    if p.lockTriggered || emergencyFile then Step(p, [])
    else Step(p.(lockTriggered := true), [CleanupRun(p.registered)] + LockWorkstation(api))
  }

  /** `_shutdown_gracefully`: idempotent; the first call records its
      reason, runs the cleanup list, disables protection (running the list
      again if it was still enabled) and schedules the exit. */
  function ShutdownGracefully(p: Protection, reason: string): (r: Step)
    ensures p.shouldShutdown ==> r == Step(p, [])
    ensures !p.shouldShutdown ==>
      && r.p.shouldShutdown && r.p.shutdownReason == Some(reason) && !r.p.enabled
      && |r.effects| >= 2 && r.effects[0] == CleanupRun(p.registered) && r.effects[|r.effects| - 1] == ExitScheduled
      && (|r.effects| == 4 <==> p.enabled)
  {
    if p.shouldShutdown then Step(p, [])
    else
      var marked := p.(shouldShutdown := true, shutdownReason := Some(reason));
      var d := Disable(marked);
      Step(d.p, [CleanupRun(p.registered)] + d.effects + [ExitScheduled])
  }

  /** `_on_exit`: locks only when protection is enabled and not yet triggered. */
  function OnExit(p: Protection, emergencyFile: bool, api: Outcome<bool>): (r: Step)
    ensures !p.enabled || p.lockTriggered ==> r == Step(p, [])
    ensures p.enabled ==> r == Trigger(p, emergencyFile, api)
  {
    if p.enabled && !p.lockTriggered then Trigger(p, emergencyFile, api) else Step(p, [])
  }

  // ---------------------------------------------------------------------
  // Dispatch tables
  // ---------------------------------------------------------------------

  /** What a handler asks for: a lock, a graceful shutdown with a reason, or nothing. */
  datatype Request = LockRequest | ShutdownRequest(reason: string) | NoRequest

  /** A handler's answer: the request it makes and the value it returns;
      `None` stands for the result of `DefWindowProc`. */
  datatype Dispatch = Dispatch(request: Request, handled: Option<bool>)

  /** The console control handler. */
  function ConsoleDispatch(ctrlType: int): (r: Dispatch)
    ensures r.handled == Some(r.request != NoRequest)
    ensures r.request == LockRequest <==> ctrlType in {CTRL_C_EVENT, CTRL_BREAK_EVENT, CTRL_CLOSE_EVENT}
    ensures r.request.ShutdownRequest? <==> ctrlType in {CTRL_LOGOFF_EVENT, CTRL_SHUTDOWN_EVENT}
  {
    if ctrlType == CTRL_C_EVENT || ctrlType == CTRL_BREAK_EVENT || ctrlType == CTRL_CLOSE_EVENT then
      Dispatch(LockRequest, Some(true))
    else if ctrlType == CTRL_LOGOFF_EVENT || ctrlType == CTRL_SHUTDOWN_EVENT then
      Dispatch(ShutdownRequest(if ctrlType == CTRL_SHUTDOWN_EVENT then "System shutdown" else "User logoff"), Some(true))
    else Dispatch(NoRequest, Some(false))
  }

  /** The window procedure of the hidden power-monitor window. */
  function WindowDispatch(message: int, wParam: int): (r: Dispatch)
    ensures r.request != LockRequest
    ensures r.request.ShutdownRequest? ==> r.handled == Some(true)
    ensures r.handled.None? <==> r.request == NoRequest && !(message == WM_ENDSESSION || message == WM_QUERYENDSESSION)
    ensures message == WM_ENDSESSION ==> (r.request.ShutdownRequest? <==> wParam != 0)
  {
    if message == WM_POWERBROADCAST then
      if wParam == PBT_APMQUERYSUSPEND || wParam == PBT_APMSUSPEND then
        Dispatch(ShutdownRequest("System sleep/hibernate"), Some(true))
      else Dispatch(NoRequest, None)
    else if message == WM_QUERYENDSESSION then Dispatch(ShutdownRequest("Session ending"), Some(true))
    else if message == WM_ENDSESSION then
      Dispatch(if wParam != 0 then ShutdownRequest("Session ended") else NoRequest, Some(true))
    else if message == WM_WTSSESSION_CHANGE then
      if wParam == WTS_SESSION_LOCK then Dispatch(ShutdownRequest("Workstation locked"), Some(true))
      else if wParam == WTS_SESSION_LOGOFF then Dispatch(ShutdownRequest("User logoff"), Some(true))
      else if wParam == WTS_CONSOLE_DISCONNECT then Dispatch(ShutdownRequest("Console disconnect"), Some(true))
      else Dispatch(NoRequest, None)
    else Dispatch(NoRequest, None)
  }

  /** The reasons each window message leads to, spelled out. */
  lemma WindowReasons(wParam: int)
    ensures WindowDispatch(WM_POWERBROADCAST, wParam).request ==
      if wParam in {0, 4} then ShutdownRequest("System sleep/hibernate") else NoRequest
    ensures WindowDispatch(WM_QUERYENDSESSION, wParam).request == ShutdownRequest("Session ending")
    ensures WindowDispatch(WM_WTSSESSION_CHANGE, wParam).request ==
      if wParam == 7 then ShutdownRequest("Workstation locked")
      else if wParam == 6 then ShutdownRequest("User logoff")
      else if wParam == 2 then ShutdownRequest("Console disconnect")
      else NoRequest
  {
  }

  /** Carrying out a handler's request. */
  function Perform(p: Protection, q: Request, emergencyFile: bool, api: Outcome<bool>): (r: Step)
    ensures q == NoRequest ==> r == Step(p, [])
  {
    match q
    case LockRequest => Trigger(p, emergencyFile, api)
    case ShutdownRequest(reason) => ShutdownGracefully(p, reason)
    case NoRequest => Step(p, [])
  }

  // ---------------------------------------------------------------------
  // Runs
  // ---------------------------------------------------------------------

  /** What can happen to the protection object. `emergencyFile` says
      whether the emergency file exists at the time, `api` what
      `LockWorkStation` answers. Signals and unhandled exceptions both end
      in `_trigger_protection` (the exception hook only while not yet
      triggered, which `Trigger` checks again). */
  datatype Event =
    | EnableCall(emergencyFile: bool, setupRaises: bool)
    | DisableCall
    | AddCleanupCall
    | ConsoleEvent(ctrlType: int, emergencyFile: bool, api: Outcome<bool>)
    | WindowMessage(message: int, wParam: int, emergencyFile: bool, api: Outcome<bool>)
    | SignalOrException(emergencyFile: bool, api: Outcome<bool>)
    | ProcessExit(emergencyFile: bool, api: Outcome<bool>)

  function Apply(p: Protection, e: Event): Step {
    match e
    case EnableCall(ef, raises) => Enable(p, ef, raises)
    case DisableCall => Disable(p)
    case AddCleanupCall => Step(AddCleanup(p), [])
    case ConsoleEvent(c, ef, api) => Perform(p, ConsoleDispatch(c).request, ef, api)
    case WindowMessage(m, w, ef, api) => Perform(p, WindowDispatch(m, w).request, ef, api)
    case SignalOrException(ef, api) => Trigger(p, ef, api)
    case ProcessExit(ef, api) => OnExit(p, ef, api)
  }

  function Run(p: Protection, es: seq<Event>): Step
    decreases |es|
  {
    if es == [] then Step(p, [])
    else
      var s := Apply(p, es[0]);
      var rest := Run(s.p, es[1..]);
      Step(rest.p, s.effects + rest.effects)
  }

  /** How many times `LockWorkStation` was called. */
  function Locks(effects: seq<Effect>): nat {
    multiset(effects)[LockWorkStationCall]
  }

  /** How many exits were scheduled. */
  function Exits(effects: seq<Effect>): nat {
    multiset(effects)[ExitScheduled]
  }

  lemma LockSequenceCounts(api: Outcome<bool>)
    ensures Locks(LockWorkstation(api)) == 1 && Exits(LockWorkstation(api)) == 0
  {
    var r := LockWorkstation(api);
    var fallback := r[1..];
    assert r == [LockWorkStationCall] + fallback;
    assert forall k | 0 <= k < |fallback| :: fallback[k].KeybdEvent? by {
      if |fallback| > 0 {
        forall k | 0 <= k < |fallback| ensures fallback[k].KeybdEvent? {
          assert fallback == [KeybdEvent(VK_LWIN, 0), KeybdEvent(VK_L, 0), KeybdEvent(VK_L, KEYEVENTF_KEYUP),
                              KeybdEvent(VK_LWIN, KEYEVENTF_KEYUP)];
        }
      }
    }
    assert LockWorkStationCall !in fallback && ExitScheduled !in fallback;
    assert multiset(r) == multiset{LockWorkStationCall} + multiset(fallback);
  }

  /** One event locks at most once, and only by setting the triggered
      flag; it schedules at most one exit, and only by setting the
      shutdown flag. */
  lemma ApplyCounts(p: Protection, e: Event)
    ensures var s := Apply(p, e);
      && Locks(s.effects) == (if !p.lockTriggered && s.p.lockTriggered then 1 else 0)
      && Exits(s.effects) == (if !p.shouldShutdown && s.p.shouldShutdown then 1 else 0)
      && (p.lockTriggered ==> s.p.lockTriggered)
      && (p.shouldShutdown ==> s.p.shouldShutdown && s.p.shutdownReason == p.shutdownReason)
  {
    var s := Apply(p, e);
    if s.effects != [] {
      var q := match e
        case ConsoleEvent(c, _, _) => ConsoleDispatch(c).request
        case WindowMessage(m, w, _, _) => WindowDispatch(m, w).request
        case _ => NoRequest;
      match e {
        case SignalOrException(ef, api) => LockCounts(p, api);
        case ProcessExit(ef, api) => LockCounts(p, api);
        case ConsoleEvent(_, ef, api) =>
          if q == LockRequest { LockCounts(p, api); } else { ShutdownCounts(p, q); }
        case WindowMessage(_, _, ef, api) => ShutdownCounts(p, q);
        case EnableCall(_, _) => assert s.effects == [HandlersInstalled];
        case DisableCall => assert s.effects == [HandlersRestored, CleanupRun(p.registered)];
        case AddCleanupCall =>
      }
    }
  }

  lemma LockCounts(p: Protection, api: Outcome<bool>)
    requires !p.lockTriggered
    ensures Locks([CleanupRun(p.registered)] + LockWorkstation(api)) == 1
    ensures Exits([CleanupRun(p.registered)] + LockWorkstation(api)) == 0
  {
    LockSequenceCounts(api);
  }

  lemma ShutdownCounts(p: Protection, q: Request)
    requires q.ShutdownRequest? && !p.shouldShutdown
    ensures Locks(ShutdownGracefully(p, q.reason).effects) == 0
    ensures Exits(ShutdownGracefully(p, q.reason).effects) == 1
  {
    var r := ShutdownGracefully(p, q.reason).effects;
    if p.enabled {
      assert r == [CleanupRun(p.registered), HandlersRestored, CleanupRun(p.registered), ExitScheduled];
    } else {
      assert r == [CleanupRun(p.registered), ExitScheduled];
    }
  }

  /** Over any run: the workstation is locked at most once, and exactly
      when the triggered flag went up; the exit is scheduled at most once;
      the first shutdown reason is never replaced. */
  lemma {:induction false} RunCounts(p: Protection, es: seq<Event>)
    ensures var r := Run(p, es);
      && Locks(r.effects) == (if !p.lockTriggered && r.p.lockTriggered then 1 else 0)
      && Exits(r.effects) == (if !p.shouldShutdown && r.p.shouldShutdown then 1 else 0)
      && (p.lockTriggered ==> r.p.lockTriggered)
      && (p.shouldShutdown ==> r.p.shouldShutdown && r.p.shutdownReason == p.shutdownReason)
    decreases |es|
  {
    if es != [] {
      var s := Apply(p, es[0]);
      var rest := Run(s.p, es[1..]);
      ApplyCounts(p, es[0]);
      RunCounts(s.p, es[1..]);
    }
  }

  /** From construction, a run locks the workstation at most once and
      schedules the exit at most once. */
  lemma AtMostOneLock(es: seq<Event>)
    ensures Locks(Run(Create(), es).effects) <= 1 && Exits(Run(Create(), es).effects) <= 1
  {
    RunCounts(Create(), es);
  }
}

=== FILE: scheduler.dfy ===
/** The automation scheduler: a worker that alternates an ACTIVE phase, in
    which it performs one action after each randomly drawn interval, with an
    IDLE phase of random length, until it is asked to stop.

    The worker thread is a small-step machine. Each step runs from one test of
    the stop flag to the next. Time is in milliseconds. The executor's
    answers, the clock and the random draws are all inputs to the step. */
module Scheduler {
  import opened Base
  import opened Text
  import opened WindowManager

  datatype Phase = Stopped | Active | Idle

  datatype ActionType = MouseMove | MouseClick | AppSwitch | TabSwitch | Scroll

  /** The snapshot the scheduler publishes to its observer. */
  datatype SchedulerState = SchedulerState(
    phase: Phase,
    timeRemaining: int,
    cycleCount: int,
    currentApp: string,
    lastAction: string,
    isRunning: bool,
    nextActionIn: int)

  const InitialState := SchedulerState(Stopped, 0, 0, "", "", false, 0)

  /** The last action `start` publishes before the first real one. */
  const StartingAction := "Starting..."

  /** Phase lengths are in seconds. The action interval bounds are in
      milliseconds, because `random.uniform` draws fractions of a second. The
      action weights only steer the random choice, which is an input here. */
  datatype Config = Config(activeDuration: int, idleMin: int, idleMax: int, intervalMinMs: int, intervalMaxMs: int)

  const DefaultConfig := Config(300, 120, 240, 3000, 10000)

  // ---------------------------------------------------------------------
  // Field-restricted updates (`_update_state(**kwargs)`)
  // ---------------------------------------------------------------------

  datatype Field = PhaseField | TimeRemainingField | CycleCountField | CurrentAppField
                 | LastActionField | IsRunningField | NextActionInField

  datatype Value = PhaseValue(p: Phase) | IntValue(i: int) | StrValue(s: string) | BoolValue(b: bool)

  /** The attribute a keyword names, if the state has one. */
  function FieldNamed(key: string): Option<Field> {
    if key == "phase" then Some(PhaseField)
    else if key == "time_remaining" then Some(TimeRemainingField)
    else if key == "cycle_count" then Some(CycleCountField)
    else if key == "current_app" then Some(CurrentAppField)
    else if key == "last_action" then Some(LastActionField)
    else if key == "is_running" then Some(IsRunningField)
    else if key == "next_action_in" then Some(NextActionInField)
    else None
  }

  /** The value has the type the field holds. */
  predicate Fits(f: Field, v: Value) {
    match f
    case PhaseField => v.PhaseValue?
    case CurrentAppField => v.StrValue?
    case LastActionField => v.StrValue?
    case IsRunningField => v.BoolValue?
    case TimeRemainingField => v.IntValue?
    case CycleCountField => v.IntValue?
    case NextActionInField => v.IntValue?
  }

  function Get(s: SchedulerState, f: Field): (v: Value)
    ensures Fits(f, v)
  {
    match f
    case PhaseField => PhaseValue(s.phase)
    case TimeRemainingField => IntValue(s.timeRemaining)
    case CycleCountField => IntValue(s.cycleCount)
    case CurrentAppField => StrValue(s.currentApp)
    case LastActionField => StrValue(s.lastAction)
    case IsRunningField => BoolValue(s.isRunning)
    case NextActionInField => IntValue(s.nextActionIn)
  }

  /** `setattr` on one field: that field reads back the value, no other changes. */
  function Set(s: SchedulerState, f: Field, v: Value): (r: SchedulerState)
    requires Fits(f, v)
    ensures Get(r, f) == v
    ensures forall g | g != f :: Get(r, g) == Get(s, g)
  {
    match f
    case PhaseField => s.(phase := v.p)
    case TimeRemainingField => s.(timeRemaining := v.i)
    case CycleCountField => s.(cycleCount := v.i)
    case CurrentAppField => s.(currentApp := v.s)
    case LastActionField => s.(lastAction := v.s)
    case IsRunningField => s.(isRunning := v.b)
    case NextActionInField => s.(nextActionIn := v.i)
  }

  /** A state is nothing but its seven fields. */
  lemma FieldsDetermineState(a: SchedulerState, b: SchedulerState)
    requires forall f :: Get(a, f) == Get(b, f)
    ensures a == b
  {
    assert Get(a, PhaseField) == Get(b, PhaseField);
    assert Get(a, TimeRemainingField) == Get(b, TimeRemainingField);
    assert Get(a, CycleCountField) == Get(b, CycleCountField);
    assert Get(a, CurrentAppField) == Get(b, CurrentAppField);
    assert Get(a, LastActionField) == Get(b, LastActionField);
    assert Get(a, IsRunningField) == Get(b, IsRunningField);
    assert Get(a, NextActionInField) == Get(b, NextActionInField);
  }

  type Kwargs = seq<(string, Value)>

  /** Every keyword that names a field carries a value of that field's type. */
  predicate WellTyped(kw: Kwargs) {
    forall i | 0 <= i < |kw| :: FieldNamed(kw[i].0).Some? ==> Fits(FieldNamed(kw[i].0).value, kw[i].1)
  }

  /** The value the last keyword naming `f` carries. */
  function LastAssigned(kw: Kwargs, f: Field): Option<Value>
    decreases |kw|
  {
    if kw == [] then None
    else if FieldNamed(kw[|kw| - 1].0) == Some(f) then Some(kw[|kw| - 1].1)
    else LastAssigned(kw[..|kw| - 1], f)
  }

  /** No keyword assigns `f` exactly when no keyword names it. */
  lemma {:induction false} LastAssignedNone(kw: Kwargs, f: Field)
    ensures LastAssigned(kw, f).None? <==> forall i | 0 <= i < |kw| :: FieldNamed(kw[i].0) != Some(f)
    decreases |kw|
  {
    if kw != [] {
      var init := kw[..|kw| - 1];
      LastAssignedNone(init, f);
      assert forall i | 0 <= i < |init| :: init[i] == kw[i];
    }
  }

  /** `_update_state(**kwargs)`: each keyword that names a state field is
      assigned in order; every other keyword is ignored. */
  function UpdateState(s: SchedulerState, kw: Kwargs): (r: SchedulerState)
    requires WellTyped(kw)
    ensures forall f :: Get(r, f) == LastAssigned(kw, f).GetOr(Get(s, f))
    decreases |kw|
  {
    if kw == [] then s
    else
      var init := kw[..|kw| - 1];
      assert forall i | 0 <= i < |init| :: init[i] == kw[i];
      var prev := UpdateState(s, init);
      match FieldNamed(kw[|kw| - 1].0)
      case None => prev
      case Some(f) => Set(prev, f, kw[|kw| - 1].1)
  }

  /** Fields that no keyword names keep their values. */
  lemma UpdateStateFrame(s: SchedulerState, kw: Kwargs, f: Field)
    requires WellTyped(kw)
    requires forall i | 0 <= i < |kw| :: FieldNamed(kw[i].0) != Some(f)
    ensures Get(UpdateState(s, kw), f) == Get(s, f)
  {
    LastAssignedNone(kw, f);
  }

  /** Keywords that name no field change nothing, wherever they appear. */
  lemma UnknownKeysIgnored(s: SchedulerState, kw: Kwargs, key: string, v: Value)
    requires WellTyped(kw) && FieldNamed(key).None?
    ensures WellTyped(kw + [(key, v)])
    ensures UpdateState(s, kw + [(key, v)]) == UpdateState(s, kw)
  {
    var kw' := kw + [(key, v)];
    assert kw'[..|kw'| - 1] == kw;
  }

  /** The update that stops the worker: phase STOPPED, not running, no time
      remaining, last action "Stopped". Written by `stop` and by the loop's
      `finally`. */
  function Finish(s: SchedulerState): (r: SchedulerState)
    ensures Stopping(r)
    ensures r.cycleCount == s.cycleCount && r.currentApp == s.currentApp && r.nextActionIn == s.nextActionIn
  {
    s.(phase := Stopped, isRunning := false, timeRemaining := 0, lastAction := "Stopped")
  }

  predicate Stopping(s: SchedulerState) {
    s.phase == Stopped && !s.isRunning && s.timeRemaining == 0 && s.lastAction == "Stopped"
  }

  /** The keywords `stop` and the loop's `finally` clause pass. */
  const FinishKwargs: Kwargs := [("phase", PhaseValue(Stopped)), ("is_running", BoolValue(false)),
                                 ("time_remaining", IntValue(0)), ("last_action", StrValue("Stopped"))]

  /** What each field is last assigned by those keywords. */
  lemma FinishKwargsAssign(f: Field)
    ensures LastAssigned(FinishKwargs, f) ==
      match f
      case PhaseField => Some(PhaseValue(Stopped))
      case IsRunningField => Some(BoolValue(false))
      case TimeRemainingField => Some(IntValue(0))
      case LastActionField => Some(StrValue("Stopped"))
      case _ => None
  {
    var kw := FinishKwargs;
    var k3, k2, k1 := kw[..3], kw[..2], kw[..1];
    assert k3[..2] == k2 && k2[..1] == k1 && k1[..0] == [];
    assert FieldNamed("phase") == Some(PhaseField) && FieldNamed("is_running") == Some(IsRunningField);
    assert FieldNamed("time_remaining") == Some(TimeRemainingField) && FieldNamed("last_action") == Some(LastActionField);
    assert LastAssigned(kw, f) == if f == LastActionField then Some(StrValue("Stopped")) else LastAssigned(k3, f);
    assert LastAssigned(k3, f) == if f == TimeRemainingField then Some(IntValue(0)) else LastAssigned(k2, f);
    assert LastAssigned(k2, f) == if f == IsRunningField then Some(BoolValue(false)) else LastAssigned(k1, f);
    assert LastAssigned(k1, f) == if f == PhaseField then Some(PhaseValue(Stopped)) else None;
  }

  /** `Finish` is the keyword update `stop` and the `finally` clause pass. */
  lemma FinishIsKeywordUpdate(s: SchedulerState)
    ensures WellTyped(FinishKwargs)
    ensures UpdateState(s, FinishKwargs) == Finish(s)
  {
    var r := UpdateState(s, FinishKwargs);
    forall f ensures Get(r, f) == Get(Finish(s), f) {
      FinishKwargsAssign(f);
    }
    FieldsDetermineState(r, Finish(s));
  }

  // ---------------------------------------------------------------------
  // Random draws and countdowns
  // ---------------------------------------------------------------------

  /** `random.uniform(a, b)` in milliseconds: it accepts its bounds in either order. */
  function Uniform(a: int, b: int, d: nat): (r: int)
    ensures Min(a, b) <= r <= Max(a, b)
  {
    Min(a, b) + d % (Max(a, b) - Min(a, b) + 1)
  }

  /** `int(duration - elapsed)`: whole seconds left, truncated toward zero. */
  function Remaining(durationS: int, elapsedMs: int): (r: int)
    ensures r <= 0 <==> elapsedMs > durationS * 1000 - 1000
    ensures elapsedMs >= 0 ==> r <= durationS
    ensures elapsedMs <= 0 ==> r >= durationS
  {
    TruncDiv(durationS * 1000 - elapsedMs, 1000)
  }

  // ---------------------------------------------------------------------
  // Actions (`_execute_action`)
  // ---------------------------------------------------------------------

  const ScrollApps: seq<string> :=
    ["Visual Studio Code", "Code", "VS Code", "Chrome", "Firefox", "Edge", "Notepad", "Word", "Excel"]

  /** Python's `any(app in title for app in apps)`. */
  predicate MentionsAny(title: string, apps: seq<string>) {
    exists i | 0 <= i < |apps| :: Contains(title, apps[i])
  }

  /** What the window manager and the input simulator answer during one
      action: each call either returns or raises. `choice` is the draw behind
      `random.choice`. `switch_to_window` catches everything itself, and its
      answer is ignored, so it needs no entry. */
  datatype Executor = Executor(
    foreground: Outcome<Option<WindowInfo>>,
    moveRandom: Outcome<(int, int)>,
    safeClick: Outcome<(int, int)>,
    windows: Outcome<seq<WindowInfo>>,
    choice: nat,
    foregroundAfter: Outcome<Option<WindowInfo>>,
    altTab: Outcome<bool>,
    ctrlTab: Outcome<bool>,
    scroll: Outcome<string>)

  /** The returned description, the `current_app` the action published (if
      any), the window it asked to bring forward (if any), and whether an
      exception was caught. */
  datatype ActionResult = ActionResult(description: string, currentApp: Option<string>, switchTarget: Option<int>, raised: bool)

  predicate IsErrorText(d: string) {
    |d| >= 7 && d[..7] == "Error: "
  }

  function Failure(message: string, target: Option<int>): (r: ActionResult)
    ensures r.raised && IsErrorText(r.description) && r.currentApp.None?
  {
    ActionResult("Error: " + message, None, target, true)
  }

  /** A report that cannot be mistaken for an error: it does not start with 'E'. */
  function Success(description: string, app: Option<string>, target: Option<int>): (r: ActionResult)
    requires |description| > 0 && description[0] != 'E'
    ensures !r.raised && !IsErrorText(r.description)
  {
    ActionResult(description, app, target, false)
  }

  function PointText(p: (int, int)): string {
    "(" + IntToString(p.0) + ", " + IntToString(p.1) + ")"
  }

  function TitleOr(w: Option<WindowInfo>, default: string): string {
    if w.Some? then w.value.title else default
  }

  /** The windows whose handle differs from `hwnd`, in order. */
  function OtherWindows(ws: seq<WindowInfo>, hwnd: int): (r: seq<WindowInfo>)
    ensures forall i | 0 <= i < |r| :: r[i].hwnd != hwnd && r[i] in ws
    ensures forall w | w in ws && w.hwnd != hwnd :: w in r
    decreases |ws|
  {
    if ws == [] then []
    else
      var rest := OtherWindows(ws[1..], hwnd);
      assert forall w | w in ws[1..] :: w in ws;
      if ws[0].hwnd != hwnd then [ws[0]] + rest else rest
  }

  function MoveAction(ex: Executor): (r: ActionResult)
    ensures r.switchTarget.None? && r.currentApp.None?
    ensures r.raised <==> IsErrorText(r.description)
    ensures r.raised <==> ex.moveRandom.Raised?
  {
    match ex.moveRandom
    case Raised(m) => Failure(m, None)
    case Ok(p) => Success("Mouse moved to " + PointText(p), None, None)
  }

  /** The Alt+Tab fallback of an app switch, which reads the foreground
      window again and falls back to "Unknown". */
  function AltTabAction(ex: Executor): (r: ActionResult)
    ensures r.switchTarget.None?
    ensures r.raised <==> IsErrorText(r.description)
    ensures r.raised <==> ex.altTab.Raised? || ex.foregroundAfter.Raised?
    ensures !r.raised ==> r.currentApp == Some(TitleOr(ex.foregroundAfter.value, "Unknown"))
  {
    match ex.altTab
    case Raised(m) => Failure(m, None)
    case Ok(_) =>
      match ex.foregroundAfter
      case Raised(m) => Failure(m, None)
      case Ok(w) =>
        var app := TitleOr(w, "Unknown");
        Success("Alt+Tab to: " + Take(app, 30) + "...", Some(app), None)
  }

  /** An app switch: a window other than the current one, chosen at random,
      if there are at least two windows and such a window exists; Alt+Tab
      otherwise. */
  function SwitchApp(current: Option<WindowInfo>, ex: Executor): (r: ActionResult)
    ensures r.raised <==> IsErrorText(r.description)
    ensures r.currentApp.Some? ==> !r.raised
    ensures ex.windows.Raised? ==> r.raised && r.switchTarget.None?
    ensures r.switchTarget.Some? ==>
      ex.windows.Ok? && |ex.windows.value| > 1
      && (exists i | 0 <= i < |ex.windows.value| :: ex.windows.value[i].hwnd == r.switchTarget.value)
      && r.switchTarget.value != (if current.Some? then current.value.hwnd else 0)
    ensures ex.windows.Ok? && |ex.windows.value| > 1
            && (exists w | w in ex.windows.value :: w.hwnd != (if current.Some? then current.value.hwnd else 0))
            ==> r.switchTarget.Some?
    ensures ex.windows.Ok? && r.switchTarget.None? ==> r == AltTabAction(ex)
  {
    match ex.windows
    case Raised(m) => Failure(m, None)
    case Ok(ws) =>
      var here := if current.Some? then current.value.hwnd else 0;
      var others := OtherWindows(ws, here);
      if |ws| > 1 && |others| > 0 then
        var target := others[ex.choice % |others|];
        assert target in ws;
        match ex.foregroundAfter
        case Raised(m) => Failure(m, Some(target.hwnd))
        case Ok(w) =>
          var app := TitleOr(w, target.title);
          Success("Switched to: " + Take(app, 30) + "...", Some(app), Some(target.hwnd))
      else
        AltTabAction(ex)
  }

  /** `_execute_action`: the foreground window is read first; any exception
      on the way is caught and reported as "Error: <message>". */
  function ExecuteAction(action: ActionType, ex: Executor): (r: ActionResult)
    ensures r.raised <==> IsErrorText(r.description)
    ensures ex.foreground.Raised? ==> r == Failure(ex.foreground.message, None)
    ensures r.switchTarget.Some? ==> action == AppSwitch
    ensures r.currentApp.Some? ==> action == AppSwitch && !r.raised
    ensures ex.foreground.Ok? && action == Scroll && !MentionsAny(TitleOr(ex.foreground.value, ""), ScrollApps)
            ==> r == MoveAction(ex)
    ensures ex.foreground.Ok? && action == Scroll && MentionsAny(TitleOr(ex.foreground.value, ""), ScrollApps)
            ==> (r.raised <==> ex.scroll.Raised?)
    ensures ex.foreground.Ok? && action == MouseClick ==> (r.raised <==> ex.safeClick.Raised?)
    ensures ex.foreground.Ok? && action == TabSwitch ==> (r.raised <==> ex.ctrlTab.Raised?)
  {
    match ex.foreground
    case Raised(m) => Failure(m, None)
    case Ok(current) =>
      var title := TitleOr(current, "");
      match action
      case MouseMove => MoveAction(ex)
      case MouseClick =>
        (match ex.safeClick
         case Raised(m) => Failure(m, None)
         case Ok(p) => Success("Safe click at " + PointText(p) + " - edges only", None, None))
      case AppSwitch => SwitchApp(current, ex)
      case TabSwitch =>
        (match ex.ctrlTab
         case Raised(m) => Failure(m, None)
         case Ok(_) => Success("Switched tab (Ctrl+Tab)", None, None))
      case Scroll =>
        if MentionsAny(title, ScrollApps) then
          match ex.scroll
          case Raised(m) => Failure(m, None)
          case Ok(direction) => Success("Scrolled " + direction + " in " + Take(title, 20) + "...", None, None)
        else
          MoveAction(ex)
  }

  /** An app switch never asks for the window that is already in front. */
  lemma SwitchAvoidsCurrent(ex: Executor)
    requires ex.foreground.Ok? && ex.foreground.value.Some?
    ensures ExecuteAction(AppSwitch, ex).switchTarget.Some?
            ==> ExecuteAction(AppSwitch, ex).switchTarget.value != ex.foreground.value.value.hwnd
  {
  }

  // ---------------------------------------------------------------------
  // The simulator as it is written
  // ---------------------------------------------------------------------

  /** The message of Python's AttributeError for a missing method. */
  function NoAttribute(name: string): string {
    "'InputSimulator' object has no attribute '" + name + "'"
  }

  /** The executor the scheduler actually gets: the input simulator defines
      neither `safe_click` nor `scroll_random`, so looking them up raises. */
  function ShippedExecutor(ex: Executor): (r: Executor)
    ensures r.safeClick.Raised? && r.scroll.Raised?
    ensures r.foreground == ex.foreground && r.moveRandom == ex.moveRandom && r.windows == ex.windows
  {
    ex.(safeClick := Raised(NoAttribute("safe_click")), scroll := Raised(NoAttribute("scroll_random")))
  }

  /** `_execute_action` run against the shipped input simulator. */
  function ExecuteActionAsShipped(action: ActionType, ex: Executor): ActionResult {
    ExecuteAction(action, ShippedExecutor(ex))
  }

  /** As shipped, a click never happens: it always reports the missing method. */
  lemma ShippedClickAlwaysFails(ex: Executor)
    requires ex.foreground.Ok?
    ensures ExecuteActionAsShipped(MouseClick, ex).raised
    ensures ExecuteActionAsShipped(MouseClick, ex).description == "Error: " + NoAttribute("safe_click")
  {
  }

  /** As shipped, scrolling fails in exactly the applications it is meant for. */
  lemma ShippedScrollFailsWhereScrollable(ex: Executor)
    requires ex.foreground.Ok? && MentionsAny(TitleOr(ex.foreground.value, ""), ScrollApps)
    ensures ExecuteActionAsShipped(Scroll, ex).raised
    ensures ExecuteActionAsShipped(Scroll, ex).description == "Error: " + NoAttribute("scroll_random")
  {
  }

  /** With an executor that provides the two methods, a click or scroll that
      returns is reported, and the report is not an error. */
  lemma ProvidedClickAndScrollSucceed(ex: Executor)
    requires ex.foreground.Ok? && ex.safeClick.Ok? && ex.scroll.Ok?
    ensures !ExecuteAction(MouseClick, ex).raised
    ensures ExecuteAction(MouseClick, ex).description == "Safe click at " + PointText(ex.safeClick.value) + " - edges only"
    ensures MentionsAny(TitleOr(ex.foreground.value, ""), ScrollApps) ==> !ExecuteAction(Scroll, ex).raised
  {
  }

  // ---------------------------------------------------------------------
  // The worker thread
  // ---------------------------------------------------------------------

  /** Where the worker is. `Exited` stands for "no live worker thread":
      never started, or ended. */
  datatype Pc =
    | LoopTop
    | ActivePhase(start: int)
    | Waiting(start: int, actionStart: int, interval: int)
    | IdlePhase(start: int, duration: int)
    | Exited

  /** `cycles` is the worker's local cycle counter. */
  datatype Scheduler = Scheduler(config: Config, state: SchedulerState, stopRequested: bool, worker: Pc, cycles: int)

  function Create(config: Config): Scheduler {
    Scheduler(config, InitialState, false, Exited, 0)
  }

  /** `is_running()`: the worker thread exists and is alive. */
  predicate IsRunning(s: Scheduler) {
    !s.worker.Exited?
  }

  /** What one worker step sees: the clock before and after the action, the
      foreground window read when an active phase starts, the random draws,
      the chosen action and the executor's answers. */
  datatype Tick = Tick(now: int, after: int, foreground: Outcome<Option<WindowInfo>>,
                       intervalDraw: nat, idleDraw: nat, action: ActionType, executor: Executor)

  /** The worker leaves its loop; the `finally` clause publishes the stop. */
  function WindDown(s: Scheduler): (r: Scheduler)
    ensures !IsRunning(r) && Stopping(r.state)
    ensures r.cycles == s.cycles && r.state.cycleCount == s.state.cycleCount
  {
    s.(worker := Exited, state := Finish(s.state))
  }

  /** A loop iteration starts: the cycle counter goes up by one, then the
      active phase begins with the full duration on the clock and the
      foreground window's title as the current app. */
  function BeginCycle(s: Scheduler, t: Tick): (r: Scheduler)
    ensures r.cycles == s.cycles + 1 && r.state.cycleCount == s.cycles + 1
    ensures t.foreground.Raised? ==> r == WindDown(s.(cycles := s.cycles + 1, state := s.state.(cycleCount := s.cycles + 1)))
    ensures t.foreground.Ok? ==>
      r.worker == ActivePhase(t.now) && r.state.phase == Active && r.state.timeRemaining == s.config.activeDuration
      && r.state.currentApp == TitleOr(t.foreground.value, s.state.currentApp)
      && r.state.lastAction == s.state.lastAction && r.state.isRunning == s.state.isRunning
  {
    var counted := s.(cycles := s.cycles + 1, state := s.state.(cycleCount := s.cycles + 1));
    var active := counted.state.(phase := Active, timeRemaining := s.config.activeDuration);
    match t.foreground
    case Raised(_) => WindDown(counted)
    case Ok(w) =>
      counted.(worker := ActivePhase(t.now), state := active.(currentApp := TitleOr(w, active.currentApp)))
  }

  /** The idle phase begins with a duration drawn from [idle_min, idle_max];
      an empty range raises, which ends the worker. */
  function EnterIdle(s: Scheduler, t: Tick): (r: Scheduler)
    ensures s.config.idleMin > s.config.idleMax ==> r == WindDown(s)
    ensures s.config.idleMin <= s.config.idleMax ==>
      r.worker.IdlePhase? && r.worker.start == t.now
      && s.config.idleMin <= r.worker.duration <= s.config.idleMax
      && r.state == s.state.(phase := Idle, timeRemaining := r.worker.duration, lastAction := "Idle - no actions")
      && r.cycles == s.cycles
  {
    match RandInt(s.config.idleMin, s.config.idleMax, t.idleDraw)
    case None => WindDown(s)
    case Some(d) =>
      s.(worker := IdlePhase(t.now, d), state := s.state.(phase := Idle, timeRemaining := d, lastAction := "Idle - no actions"))
  }

  /** The active phase's loop test: with time left, publish it and draw the
      next interval; otherwise the phase is over and the idle phase begins. */
  function ActiveTick(s: Scheduler, start: int, t: Tick): (r: Scheduler)
    ensures Remaining(s.config.activeDuration, t.now - start) <= 0 ==> r == EnterIdle(s, t)
    ensures Remaining(s.config.activeDuration, t.now - start) > 0 ==>
      r.worker.Waiting? && r.worker.start == start && r.worker.actionStart == t.now
      && Min(s.config.intervalMinMs, s.config.intervalMaxMs) <= r.worker.interval <= Max(s.config.intervalMinMs, s.config.intervalMaxMs)
      && r.state == s.state.(timeRemaining := Remaining(s.config.activeDuration, t.now - start))
  {
    var remaining := Remaining(s.config.activeDuration, t.now - start);
    if remaining <= 0 then EnterIdle(s, t)
    else
      var interval := Uniform(s.config.intervalMinMs, s.config.intervalMaxMs, t.intervalDraw);
      s.(worker := Waiting(start, t.now, interval), state := s.state.(timeRemaining := remaining))
  }

  /** The wait before an action: count down `next_action_in` until the
      interval has passed, then run the action and publish its outcome. */
  function WaitTick(s: Scheduler, start: int, actionStart: int, interval: int, t: Tick): (r: Scheduler)
    ensures t.now - actionStart < interval ==>
      r.worker == s.worker && r.state == s.state.(nextActionIn := TruncDiv(interval - (t.now - actionStart), 1000))
    ensures t.now - actionStart >= interval ==>
      var done := ExecuteAction(t.action, t.executor);
      r.worker == ActivePhase(start) && r.state.nextActionIn == 0
      && r.state.lastAction == done.description
      && r.state.currentApp == done.currentApp.GetOr(s.state.currentApp)
      && r.state.timeRemaining == Remaining(s.config.activeDuration, t.after - start)
      && r.state.phase == s.state.phase && r.state.cycleCount == s.state.cycleCount
  {
    var waited := t.now - actionStart;
    if waited < interval then
      s.(state := s.state.(nextActionIn := TruncDiv(interval - waited, 1000)))
    else
      var done := ExecuteAction(t.action, t.executor);
      var published := s.state.(nextActionIn := 0, currentApp := done.currentApp.GetOr(s.state.currentApp));
      s.(worker := ActivePhase(start),
         state := published.(lastAction := done.description,
                             timeRemaining := Remaining(s.config.activeDuration, t.after - start)))
  }

  /** The idle phase's loop test: publish the time left, or go back to the
      top of the main loop. */
  function IdleTick(s: Scheduler, start: int, duration: int, t: Tick): (r: Scheduler)
    ensures Remaining(duration, t.now - start) <= 0 ==> r == s.(worker := LoopTop)
    ensures Remaining(duration, t.now - start) > 0 ==>
      r == s.(state := s.state.(timeRemaining := Remaining(duration, t.now - start)))
  {
    var remaining := Remaining(duration, t.now - start);
    if remaining <= 0 then s.(worker := LoopTop)
    else s.(state := s.state.(timeRemaining := remaining))
  }

  /** One step of the worker, from one test of the stop flag to the next. A
      set stop flag ends the worker at once, wherever it is: no further
      action runs. */
  function Step(s: Scheduler, t: Tick): (r: Scheduler)
    ensures !IsRunning(s) ==> r == s
    ensures IsRunning(s) && s.stopRequested ==> !IsRunning(r) && Stopping(r.state) && r.cycles == s.cycles
    ensures r.config == s.config && r.stopRequested == s.stopRequested
    ensures r.cycles != s.cycles ==> s.worker == LoopTop && r.cycles == s.cycles + 1 && !s.stopRequested
    ensures r.state.lastAction != s.state.lastAction && r.worker.ActivePhase? ==>
      s.worker.Waiting? && t.now - s.worker.actionStart >= s.worker.interval
  {
    if !IsRunning(s) then s
    else if s.stopRequested then WindDown(s)
    else
      match s.worker
      case LoopTop => BeginCycle(s, t)
      case ActivePhase(start) => ActiveTick(s, start, t)
      case Waiting(start, actionStart, interval) => WaitTick(s, start, actionStart, interval, t)
      case IdlePhase(start, duration) => IdleTick(s, start, duration, t)
  }

  /** `start`: refused while a worker is alive; otherwise it clears the stop
      flag, publishes running / cycle 0 / "Starting..." and starts a worker. */
  function Start(s: Scheduler): (r: (bool, Scheduler))
    ensures IsRunning(s) ==> r == (false, s)
    ensures !IsRunning(s) ==>
      r.0 && IsRunning(r.1) && r.1.worker == LoopTop && !r.1.stopRequested && r.1.cycles == 0
      && r.1.state == s.state.(isRunning := true, cycleCount := 0, lastAction := StartingAction)
  {
    if IsRunning(s) then (false, s)
    else
      (true, s.(stopRequested := false, worker := LoopTop, cycles := 0,
                state := s.state.(isRunning := true, cycleCount := 0, lastAction := StartingAction)))
  }

  /** `stop`: refused when no worker is alive; otherwise it sets the stop
      flag, gives the worker a chance to end (`exitsInTime` says whether it
      does before the join times out) and publishes the stop either way. */
  function Stop(s: Scheduler, exitsInTime: bool): (r: (bool, Scheduler))
    ensures !IsRunning(s) ==> r == (false, s)
    ensures IsRunning(s) ==>
      r.0 && r.1.stopRequested && Stopping(r.1.state) && (IsRunning(r.1) <==> !exitsInTime)
      && r.1.state.cycleCount == s.state.cycleCount && r.1.cycles == s.cycles
  {
    if !IsRunning(s) then (false, s)
    else
      var signalled := s.(stopRequested := true);
      var joined := if exitsInTime then WindDown(signalled) else signalled;
      (true, joined.(state := Finish(joined.state)))
  }

  // ---------------------------------------------------------------------
  // Runs
  // ---------------------------------------------------------------------

  datatype Event = StartCall | StopCall(exitsInTime: bool) | WorkerStep(tick: Tick)

  function Apply(s: Scheduler, e: Event): Scheduler {
    match e
    case StartCall => Start(s).1
    case StopCall(x) => Stop(s, x).1
    case WorkerStep(t) => Step(s, t)
  }

  function Run(s: Scheduler, es: seq<Event>): Scheduler
    decreases |es|
  {
    if es == [] then s else Run(Apply(s, es[0]), es[1..])
  }

  /** The published phase agrees with where the worker is. */
  predicate PhaseAgrees(s: Scheduler) {
    match s.worker
    case ActivePhase(_) => s.state.phase == Active
    case Waiting(_, _, interval) =>
      s.state.phase == Active
      && Min(s.config.intervalMinMs, s.config.intervalMaxMs) <= interval <= Max(s.config.intervalMinMs, s.config.intervalMaxMs)
    case IdlePhase(_, duration) =>
      s.state.phase == Idle && s.config.idleMin <= duration <= s.config.idleMax
    case _ => true
  }

  /** What holds between any two steps:
      - with no live worker, the published state is the initial one or a stop;
      - a stop request has already been published;
      - a live worker that was not asked to stop is published as running,
        with its own cycle count, in the phase it is in. */
  predicate Invariant(s: Scheduler) {
    && s.cycles >= 0
    && (!IsRunning(s) ==> s.state == InitialState || Stopping(s.state))
    && (s.stopRequested ==> Stopping(s.state))
    && (IsRunning(s) && !s.stopRequested ==>
          s.state.isRunning && s.state.cycleCount == s.cycles && PhaseAgrees(s)
          && (s.worker != LoopTop ==> s.cycles >= 1))
  }

  lemma ApplyKeepsInvariant(s: Scheduler, e: Event)
    requires Invariant(s)
    ensures Invariant(Apply(s, e))
  {
    match e
    case StartCall =>
    case StopCall(x) =>
    case WorkerStep(t) =>
      if IsRunning(s) && !s.stopRequested {
        match s.worker
        case LoopTop =>
        case ActivePhase(start) =>
          if Remaining(s.config.activeDuration, t.now - start) <= 0 {
            assert Step(s, t) == EnterIdle(s, t);
          }
        case Waiting(start, actionStart, interval) =>
        case IdlePhase(start, duration) =>
      }
  }

  lemma {:induction false} RunKeepsInvariant(s: Scheduler, es: seq<Event>)
    requires Invariant(s)
    ensures Invariant(Run(s, es))
    decreases |es|
  {
    if es != [] {
      ApplyKeepsInvariant(s, es[0]);
      RunKeepsInvariant(Apply(s, es[0]), es[1..]);
    }
  }

  /** Whatever happens, a scheduler with no live worker shows either its
      initial state or phase STOPPED, not running, no time left, "Stopped". */
  lemma EveryExitIsStopped(config: Config, es: seq<Event>)
    ensures var s := Run(Create(config), es);
            !IsRunning(s) ==> s.state == InitialState || Stopping(s.state)
  {
    RunKeepsInvariant(Create(config), es);
  }

  /** `is_running()` against the published state: over any run from a new
      scheduler, a state published as running has a live worker behind it. */
  lemma PublishedRunningIsAlive(config: Config, es: seq<Event>)
    ensures var s := Run(Create(config), es);
            s.state.isRunning ==> IsRunning(s)
  {
    RunKeepsInvariant(Create(config), es);
  }

  /** After a stop, the next worker step ends a worker that outlived the join. */
  lemma StopThenStepEnds(s: Scheduler, t: Tick)
    requires IsRunning(s)
    ensures !IsRunning(Step(Stop(s, false).1, t))
    ensures Stopping(Step(Stop(s, false).1, t).state)
  {
  }

  /** Once stopped, the scheduler can be started again. */
  lemma StopThenStartSucceeds(s: Scheduler, exitsInTime: bool, t: Tick)
    requires IsRunning(s)
    ensures var stopped := Stop(s, exitsInTime).1;
            var ended := if exitsInTime then stopped else Step(stopped, t);
            Start(ended).0 && Start(ended).1.state.cycleCount == 0
  {
  }
}

=== FILE: text.dfy ===
/** The few pieces of Python string behaviour the core relies on: slicing,
    substring tests, `str(int)`, the `02d` / `02X` format specs, and
    `split("+")` / `"+".join(...)`, `strip()` and `upper()`. */
module Text {
  import opened Base

  /** `s[:n]` for `n >= 0`. */
  function Take(s: string, n: nat): (r: string)
    ensures |r| == Min(n, |s|)
    ensures r <= s
  {
    if n <= |s| then s[..n] else s
  }

  /** Python's `sub in s` on strings. */
  predicate Contains(s: string, sub: string) {
    exists i | 0 <= i <= |s| - |sub| :: OccursAt(s, sub, i)
  }

  predicate OccursAt(s: string, sub: string, i: nat)
    requires i + |sub| <= |s|
  {
    s[i..i + |sub|] == sub
  }

  predicate IsDigit(c: char) { '0' <= c <= '9' }

  predicate AllDigits(s: string) { forall i | 0 <= i < |s| :: IsDigit(s[i]) }

  function DigitChar(d: nat): (c: char)
    requires d < 10
    ensures IsDigit(c)
  {
    "0123456789"[d]
  }

  function DigitValue(c: char): (d: nat)
    requires IsDigit(c)
    ensures d < 10
  {
    (c as int - '0' as int) as nat
  }

  lemma DigitRoundTrip(d: nat)
    requires d < 10
    ensures DigitValue(DigitChar(d)) == d
  {
  }

  lemma DigitCharRoundTrip(c: char)
    requires IsDigit(c)
    ensures DigitChar(DigitValue(c)) == c
  {
    if c == '0' {} else if c == '1' {} else if c == '2' {} else if c == '3' {} else if c == '4' {}
    else if c == '5' {} else if c == '6' {} else if c == '7' {} else if c == '8' {} else {}
  }

  /** `str(n)` for a natural number: decimal digits, no leading zero. */
  function NatToString(n: nat): (r: string)
    ensures |r| >= 1 && AllDigits(r)
    ensures (n < 10) == (|r| == 1)
    ensures |r| > 1 ==> r[0] != '0'
    decreases n
  {
    if n < 10 then [DigitChar(n)] else NatToString(n / 10) + [DigitChar(n % 10)]
  }

  /** The value of a string of decimal digits (`int(s)` for such strings). */
  function ParseDigits(s: string): nat
    requires AllDigits(s)
    decreases |s|
  {
    if |s| == 0 then 0 else ParseDigits(s[..|s| - 1]) * 10 + DigitValue(s[|s| - 1])
  }

  /** `int(str(n)) == n`. */
  lemma {:induction false} NatToStringRoundTrip(n: nat)
    ensures ParseDigits(NatToString(n)) == n
    decreases n
  {
    var r := NatToString(n);
    if n < 10 {
      DigitRoundTrip(n);
    } else {
      NatToStringRoundTrip(n / 10);
      DigitRoundTrip(n % 10);
      assert r[..|r| - 1] == NatToString(n / 10);
    }
  }

  /** `str(i)` for any integer. */
  function IntToString(i: int): (r: string)
    ensures |r| >= 1
    ensures (i < 0) == (r[0] == '-')
  {
    if i < 0 then "-" + NatToString(-i) else NatToString(i)
  }

  /** `f"{n:02d}"`: zero-padded to width two after the sign. */
  function Pad2(n: int): (r: string)
    ensures 0 <= n < 100 ==> |r| == 2
    ensures n >= 0 ==> AllDigits(r) && ParseDigits(r) == n
    ensures |r| >= 1 && (n < 0 <==> r[0] == '-')
    ensures n < 0 ==> |r| >= 2 && AllDigits(r[1..]) && ParseDigits(r[1..]) == -n
  {
    if n < 0 then
      PadNegative(-n);
      "-" + NatToString(-n)
    else if n < 10 then
      PadSmall(n);
      "0" + NatToString(n)
    else
      PadLarge(n);
      NatToString(n)
  }

  lemma PadNegative(k: nat)
    ensures var r := "-" + NatToString(k);
      r[1..] == NatToString(k) && AllDigits(r[1..]) && ParseDigits(r[1..]) == k
  {
    NatToStringRoundTrip(k);
    assert ("-" + NatToString(k))[1..] == NatToString(k);
  }

  lemma PadSmall(n: nat)
    requires n < 10
    ensures var r := "0" + NatToString(n); |r| == 2 && AllDigits(r) && ParseDigits(r) == n
  {
    NatToStringRoundTrip(n);
    var r := "0" + NatToString(n);
    assert r[..|r| - 1] == "0";
    assert ParseDigits("0") == 0 by { assert "0"[..0] == ""; }
  }

  lemma PadLarge(n: nat)
    requires n >= 10
    ensures var r := NatToString(n); (n < 100 ==> |r| == 2) && AllDigits(r) && ParseDigits(r) == n
  {
    NatToStringRoundTrip(n);
    if n < 100 {
      assert NatToString(n) == NatToString(n / 10) + [DigitChar(n % 10)];
    }
  }

  predicate IsUpperHexDigit(c: char) { '0' <= c <= '9' || 'A' <= c <= 'F' }

  function HexDigitChar(d: nat): (c: char)
    requires d < 16
    ensures IsUpperHexDigit(c)
  {
    "0123456789ABCDEF"[d]
  }

  /** Upper-case hexadecimal digits of a natural number, no leading zero. */
  function NatToHex(n: nat): (r: string)
    ensures |r| >= 1
    ensures forall i | 0 <= i < |r| :: IsUpperHexDigit(r[i])
    decreases n
  {
    if n < 16 then [HexDigitChar(n)] else NatToHex(n / 16) + [HexDigitChar(n % 16)]
  }

  function HexDigitValue(c: char): (d: nat)
    requires IsUpperHexDigit(c)
    ensures d < 16
  {
    if c <= '9' then (c as int - '0' as int) as nat else (c as int - 'A' as int + 10) as nat
  }

  lemma HexDigitRoundTrip(d: nat)
    requires d < 16
    ensures HexDigitValue(HexDigitChar(d)) == d
  {
  }

  predicate AllHexDigits(s: string) { forall i | 0 <= i < |s| :: IsUpperHexDigit(s[i]) }

  /** The value of a string of upper-case hexadecimal digits (`int(s, 16)`). */
  function ParseHex(s: string): nat
    requires AllHexDigits(s)
    decreases |s|
  {
    if |s| == 0 then 0 else ParseHex(s[..|s| - 1]) * 16 + HexDigitValue(s[|s| - 1])
  }

  /** `int(format(n, "X"), 16) == n`. */
  lemma {:induction false} NatToHexRoundTrip(n: nat)
    ensures ParseHex(NatToHex(n)) == n
    decreases n
  {
    var r := NatToHex(n);
    if n < 16 {
      HexDigitRoundTrip(n);
    } else {
      NatToHexRoundTrip(n / 16);
      HexDigitRoundTrip(n % 16);
      assert r[..|r| - 1] == NatToHex(n / 16);
    }
  }

  /** `f"0x{n:02X}"`: for a non-negative code, `0x` and at least two
      upper-case hex digits reading back as the code; a negative code gives
      `0x-` and the digits of its magnitude. */
  function HexName(n: int): (r: string)
    ensures |r| >= 4 && r[..2] == "0x"
    ensures IsUpperHexDigit(r[|r| - 1])
    ensures forall k | 2 <= k < |r| :: IsUpperHexDigit(r[k]) || r[k] == '-'
    ensures n >= 0 ==> AllHexDigits(r[2..]) && ParseHex(r[2..]) == n
    ensures n < 0 ==> r[..3] == "0x-" && AllHexDigits(r[3..]) && ParseHex(r[3..]) == -n
  {
    if n < 0 then
      var digits := NatToHex(-n);
      NatToHexRoundTrip(-n);
      assert ("0x-" + digits)[3..] == digits;
      "0x-" + digits
    else if n < 16 then
      var digits := "0" + NatToHex(n);
      NatToHexRoundTrip(n);
      assert digits[..1] == "0";
      assert ("0x" + digits)[2..] == digits;
      "0x" + digits
    else
      var digits := NatToHex(n);
      NatToHexRoundTrip(n);
      assert ("0x" + digits)[2..] == digits;
      "0x" + digits
  }

  /** `sep.join(parts)` for a one-character separator. */
  function Join(parts: seq<string>, sep: char): string
    decreases |parts|
  {
    if |parts| == 0 then ""
    else if |parts| == 1 then parts[0]
    else parts[0] + [sep] + Join(parts[1..], sep)
  }

  /** `s.split(sep)` for a one-character separator: the pieces between the
      separators, so `""` splits into `[""]` and `"a+"` into `["a", ""]`. */
  function Split(s: string, sep: char): (r: seq<string>)
    ensures |r| >= 1
    ensures forall i | 0 <= i < |r| :: sep !in r[i]
    ensures |r| == 1 <==> sep !in s
    decreases |s|
  {
    if |s| == 0 then [""]
    else
      var rest := Split(s[1..], sep);
      if s[0] == sep then [""] + rest
      else [[s[0]] + rest[0]] + rest[1..]
  }

  /** Joining the pieces of a split gives back the string. */
  lemma {:induction false} JoinSplit(s: string, sep: char)
    ensures Join(Split(s, sep), sep) == s
    decreases |s|
  {
    if |s| > 0 {
      var rest := Split(s[1..], sep);
      JoinSplit(s[1..], sep);
      if s[0] == sep {
        assert Split(s, sep)[1..] == rest;
      } else {
        var r := Split(s, sep);
        if |rest| == 1 {
          assert r == [[s[0]] + rest[0]];
        } else {
          assert r[1..] == rest[1..];
          assert Join(rest, sep) == rest[0] + [sep] + Join(rest[1..], sep);
        }
      }
    }
  }

  /** Splitting a join of separator-free pieces gives back the pieces. */
  lemma {:induction false} SplitJoin(parts: seq<string>, sep: char)
    requires |parts| >= 1
    requires forall i | 0 <= i < |parts| :: sep !in parts[i]
    ensures Split(Join(parts, sep), sep) == parts
    decreases |parts|, |parts[0]|
  {
    var p := parts[0];
    if |p| == 0 {
      if |parts| == 1 {
      } else {
        var tail := Join(parts[1..], sep);
        assert Join(parts, sep) == [sep] + tail;
        SplitJoin(parts[1..], sep);
        assert ([sep] + tail)[1..] == tail;
      }
    } else {
      var shorter := [p[1..]] + parts[1..];
      assert forall i | 0 <= i < |shorter| :: sep !in shorter[i] by {
        forall i | 0 <= i < |shorter| ensures sep !in shorter[i] {
          if i == 0 {
            assert forall c | c in p[1..] :: c in p;
          } else {
            assert shorter[i] == parts[i];
          }
        }
      }
      SplitJoin(shorter, sep);
      JoinDropFirst(parts, sep);
      assert shorter[1..] == parts[1..];
      assert [p[0]] + p[1..] == p;
    }
  }

  /** Dropping the first character of a join whose first piece is non-empty. */
  lemma JoinDropFirst(parts: seq<string>, sep: char)
    requires |parts| >= 1 && |parts[0]| > 0
    ensures var j := Join(parts, sep);
      |j| > 0 && j[0] == parts[0][0] && j[1..] == Join([parts[0][1..]] + parts[1..], sep)
  {
    var p := parts[0];
    var shorter := [p[1..]] + parts[1..];
    assert shorter[0] == p[1..] && shorter[1..] == parts[1..];
    if |parts| == 1 {
      assert Join(parts, sep) == p;
      assert Join(shorter, sep) == p[1..];
    } else {
      var rest := Join(parts[1..], sep);
      assert Join(parts, sep) == p + [sep] + rest;
      assert Join(shorter, sep) == p[1..] + [sep] + rest;
      assert (p + [sep] + rest)[1..] == p[1..] + [sep] + rest;
    }
  }

  /** The characters Python's `str.isspace()` accepts in the ASCII range. */
  predicate IsAsciiSpace(c: char) {
    c == ' ' || ('\U{0009}' <= c <= '\U{000D}') || ('\U{001C}' <= c <= '\U{001F}')
  }

  function TrimStart(s: string): (r: string)
    ensures |r| <= |s| && r == s[|s| - |r|..]
    ensures |r| > 0 ==> !IsAsciiSpace(r[0])
    decreases |s|
  {
    if |s| > 0 && IsAsciiSpace(s[0]) then TrimStart(s[1..]) else s
  }

  function TrimEnd(s: string): (r: string)
    ensures r <= s
    ensures |r| > 0 ==> !IsAsciiSpace(r[|r| - 1])
    decreases |s|
  {
    if |s| > 0 && IsAsciiSpace(s[|s| - 1]) then TrimEnd(s[..|s| - 1]) else s
  }

  /** `s.strip()`: leading and trailing white space removed. */
  function Strip(s: string): (r: string)
    ensures |r| > 0 ==> !IsAsciiSpace(r[0]) && !IsAsciiSpace(r[|r| - 1])
    ensures |r| <= |s|
  {
    TrimEnd(TrimStart(s))
  }

  /** A string with no white space at either end is its own strip. */
  lemma StripKeeps(s: string)
    requires |s| > 0 && !IsAsciiSpace(s[0]) && !IsAsciiSpace(s[|s| - 1])
    ensures Strip(s) == s
  {
    assert TrimStart(s) == s;
  }

  function UpperChar(c: char): char {
    if 'a' <= c <= 'z' then (c as int - 32) as char else c
  }

  /** `s.upper()` on the ASCII letters. */
  function Upper(s: string): (r: string)
    ensures |r| == |s|
    ensures forall i | 0 <= i < |s| :: r[i] == UpperChar(s[i])
  {
    seq(|s|, i requires 0 <= i < |s| => UpperChar(s[i]))
  }

  /** A string without lower-case ASCII letters is its own upper case. */
  lemma UpperKeeps(s: string)
    requires forall i | 0 <= i < |s| :: !('a' <= s[i] <= 'z')
    ensures Upper(s) == s
  {
    assert forall i | 0 <= i < |s| :: Upper(s)[i] == s[i];
  }
}

=== FILE: ui.dfy ===
/** The window's logic (autoweb/ui.py): the `MM:SS` timer text, what a
    published scheduler state turns into on screen, and the consent gate in
    front of `start`. Widgets, colours and the dialog's rendering are not
    modelled; the dialog's answer is a parameter. */
module Ui {
  import opened Base
  import opened Text
  import Scheduler

  // ---------------------------------------------------------------------
  // Timer text
  // ---------------------------------------------------------------------

  /** `_format_time`: `f"{seconds // 60:02d}:{seconds % 60:02d}"`. Python's
      `//` and `%` floor, which for the positive divisor 60 agrees with
      Dafny's Euclidean division. */
  function FormatTime(seconds: int): (r: string)
    ensures |r| >= 5 && r[|r| - 3] == ':'
    ensures '0' <= r[|r| - 2] <= '5' && IsDigit(r[|r| - 1])
    ensures 0 <= seconds < 6000 ==> |r| == 5
    ensures seconds < 0 <==> r[0] == '-'
  {
    var minutes, secs := seconds / 60, seconds % 60;
    var m, s := Pad2(minutes), Pad2(secs);
    SecondsTens(secs);
    assert 0 <= minutes < 100 ==> |m| == 2;
    m + ":" + s
  }

  /** Below a minute, the tens digit of the seconds is at most 5. */
  lemma SecondsTens(secs: int)
    requires 0 <= secs < 60
    ensures |Pad2(secs)| == 2 && '0' <= Pad2(secs)[0] <= '5' && IsDigit(Pad2(secs)[1])
  {
    var s := Pad2(secs);
    assert s[..1][..0] == [];
    assert ParseDigits(s[..1]) == DigitValue(s[0]);
    assert ParseDigits(s) == DigitValue(s[0]) * 10 + DigitValue(s[1]);
  }

  /** Reading a timer text back: minutes (possibly negative), a colon and
      two digits of seconds. */
  function ParseClock(r: string): (v: Option<int>)
    ensures v.Some? ==> |r| >= 4 && r[|r| - 3] == ':'
  {
    if |r| < 4 || r[|r| - 3] != ':' || !AllDigits(r[|r| - 2..]) then None
    else
      var m, s := r[..|r| - 3], r[|r| - 2..];
      if AllDigits(m) then Some(ParseDigits(m) * 60 + ParseDigits(s))
      else if |m| >= 2 && m[0] == '-' && AllDigits(m[1..]) then
        var negated: int := ParseDigits(m[1..]);
        Some(ParseDigits(s) - negated * 60)
      else None
  }

  /** Where the pieces of a timer text sit. */
  lemma ClockPieces(m: string, s: string)
    requires |s| == 2 && |m| >= 1
    ensures var r := m + ":" + s;
      |r| >= 4 && r[|r| - 3] == ':' && r[..|r| - 3] == m && r[|r| - 2..] == s
  {
  }

  /** The timer text names the exact number of seconds, negative ones
      included. */
  lemma FormatTimeRoundTrip(seconds: int)
    ensures ParseClock(FormatTime(seconds)) == Some(seconds)
  {
    var minutes, secs := seconds / 60, seconds % 60;
    var m, s := Pad2(minutes), Pad2(secs);
    assert FormatTime(seconds) == m + ":" + s;
    ClockPieces(m, s);
    assert minutes * 60 + secs == seconds;
    if minutes < 0 {
      assert !IsDigit(m[0]);
      assert ParseClock(m + ":" + s) == Some(secs - (-minutes) * 60);
    } else {
      assert ParseClock(m + ":" + s) == Some(minutes * 60 + secs);
    }
  }

  // ---------------------------------------------------------------------
  // Showing a published state
  // ---------------------------------------------------------------------

  datatype Colour = Success | Warning | Error

  /** The status label: its words and colour. */
  datatype Status = Status(text: string, colour: Colour)

  /** ACTIVE and IDLE have their own label; every other phase reads STOPPED. */
  function StatusOf(phase: Scheduler.Phase): (r: Status)
    ensures r.colour == Success <==> phase == Scheduler.Active
    ensures r.colour == Warning <==> phase == Scheduler.Idle
  {
    match phase
    case Active => Status("ACTIVE", Success)
    case Idle => Status("IDLE", Warning)
    case _ => Status("STOPPED", Error)
  }

  /** The label tells the three phases apart. */
  lemma StatusDistinguishesPhases(p: Scheduler.Phase, q: Scheduler.Phase)
    ensures StatusOf(p) == StatusOf(q) <==> p == q
  {
  }

  const TitleLimit := 40

  /** The application label: a title longer than 40 characters is cut to
      its first 40 followed by "...", and an empty one reads "None". */
  function AppText(title: string): (r: string)
    ensures |r| <= TitleLimit + 3 && |r| >= 1
    ensures title == "" ==> r == "None"
    ensures 0 < |title| <= TitleLimit ==> r == title
    ensures |title| > TitleLimit ==>
      |r| == TitleLimit + 3 && r[..TitleLimit] == title[..TitleLimit] && r[TitleLimit..] == "..."
  {
    var shown := if |title| > TitleLimit then title[..TitleLimit] + "..." else title;
    if shown == "" then "None" else shown
  }

  /** A published last action goes to the log unless it is empty or the
      "Starting..." placeholder. */
  function LogLine(lastAction: string): (r: Option<string>)
    ensures r.Some? <==> lastAction != "" && lastAction != Scheduler.StartingAction
    ensures r.Some? ==> r.value == lastAction
  {
    if lastAction != "" && lastAction != Scheduler.StartingAction then Some(lastAction) else None
  }

  /** What the window shows. */
  datatype View = View(status: Status, timer: string, cycles: string, app: string)

  /** `_on_state_change`: the view a published state produces, and the line
      it adds to the log, if any. */
  function OnStateChange(state: Scheduler.SchedulerState): (r: (View, Option<string>))
    ensures r.0.status == StatusOf(state.phase) && r.0.app == AppText(state.currentApp)
    ensures ParseClock(r.0.timer) == Some(state.timeRemaining)
    ensures r.1 == LogLine(state.lastAction)
  {
    FormatTimeRoundTrip(state.timeRemaining);
    (View(StatusOf(state.phase), FormatTime(state.timeRemaining), IntToString(state.cycleCount), AppText(state.currentApp)),
     LogLine(state.lastAction))
  }

  /** The state a successful `start` publishes adds nothing to the log. */
  lemma StartIsNotLogged(s: Scheduler.Scheduler)
    requires !Scheduler.IsRunning(s)
    ensures OnStateChange(Scheduler.Start(s).1.state).1 == None
  {
  }

  // ---------------------------------------------------------------------
  // Buttons and consent
  // ---------------------------------------------------------------------

  datatype Message = Declined | Started | StartFailed | Stopped | StopFailed

  /** The window: whether consent was given, the scheduler behind it, the
      log and which button is enabled. */
  datatype App = App(consent: bool, scheduler: Scheduler.Scheduler, log: seq<Message>, startEnabled: bool, stopEnabled: bool)

  function Create(config: Scheduler.Config): App {
    App(false, Scheduler.Create(config), [], true, false)
  }

  /** `_on_start`. Without recorded consent the dialog is shown and its
      answer recorded; a refusal is logged and nothing starts. With consent
      the scheduler is started and the buttons follow its answer. */
  function OnStart(app: App, answer: bool): (r: App)
    ensures app.consent ==> r.consent
    ensures !app.consent ==> r.consent == answer
    ensures !r.consent ==> r == app.(log := app.log + [Declined])
    ensures r.consent ==> r.scheduler == Scheduler.Start(app.scheduler).1
    ensures r.consent && Scheduler.Start(app.scheduler).0 ==> !r.startEnabled && r.stopEnabled
  {
    var consent := app.consent || answer;
    if !consent then app.(log := app.log + [Declined])
    else
      var (started, s') := Scheduler.Start(app.scheduler);
      if started then app.(consent := true, scheduler := s', log := app.log + [Started], startEnabled := false, stopEnabled := true)
      else app.(consent := true, scheduler := s', log := app.log + [StartFailed])
  }

  /** `_on_stop`: the buttons follow the scheduler's answer. */
  function OnStop(app: App, exitsInTime: bool): (r: App)
    ensures r.consent == app.consent
    ensures r.scheduler == Scheduler.Stop(app.scheduler, exitsInTime).1
    ensures |r.log| == |app.log| + 1 && r.log[..|app.log|] == app.log
    ensures r.log[|app.log|] == Stopped <==> Scheduler.Stop(app.scheduler, exitsInTime).0
    ensures Scheduler.Stop(app.scheduler, exitsInTime).0 ==> r.startEnabled && !r.stopEnabled
  {
    var (stopped, s') := Scheduler.Stop(app.scheduler, exitsInTime);
    if stopped then app.(scheduler := s', log := app.log + [Stopped], startEnabled := true, stopEnabled := false)
    else app.(scheduler := s', log := app.log + [StopFailed])
  }

  /** `_on_close`: a running scheduler is stopped before the window goes. */
  function OnClose(app: App, exitsInTime: bool): (r: App)
    ensures Scheduler.IsRunning(app.scheduler) ==> r.scheduler == Scheduler.Stop(app.scheduler, exitsInTime).1
    ensures !Scheduler.IsRunning(app.scheduler) ==> r == app
  {
    if Scheduler.IsRunning(app.scheduler) then app.(scheduler := Scheduler.Stop(app.scheduler, exitsInTime).1) else app
  }

  datatype Event = StartClick(answer: bool) | StopClick(exitsInTime: bool) | Close(exitsInTime: bool)

  function Apply(app: App, e: Event): App {
    match e
    case StartClick(a) => OnStart(app, a)
    case StopClick(x) => OnStop(app, x)
    case Close(x) => OnClose(app, x)
  }

  function Run(app: App, es: seq<Event>): App
    decreases |es|
  {
    if es == [] then app else Run(Apply(app, es[0]), es[1..])
  }

  /** Consent, once given, is kept for the rest of the run. */
  lemma {:induction false} ConsentIsRemembered(app: App, es: seq<Event>)
    requires app.consent
    ensures Run(app, es).consent
    decreases |es|
  {
    if es != [] {
      ConsentIsRemembered(Apply(app, es[0]), es[1..]);
    }
  }

  /** If the dialog is never agreed to, the scheduler is never started: it
      stays exactly as it was, and consent stays unrecorded. */
  lemma {:induction false} NoStartWithoutConsent(app: App, es: seq<Event>)
    requires !app.consent && !Scheduler.IsRunning(app.scheduler)
    requires forall i | 0 <= i < |es| :: es[i] != StartClick(true)
    ensures !Run(app, es).consent && Run(app, es).scheduler == app.scheduler
    decreases |es|
  {
    if es != [] {
      var next := Apply(app, es[0]);
      assert next.scheduler == app.scheduler && !next.consent;
      assert forall i | 0 <= i < |es[1..]| :: es[1..][i] != StartClick(true) by {
        forall i | 0 <= i < |es[1..]| ensures es[1..][i] != StartClick(true) {
          assert es[1..][i] == es[i + 1];
        }
      }
      NoStartWithoutConsent(next, es[1..]);
    }
  }
}

=== FILE: window_manager.dfy ===
/** Window enumeration and switching (autoweb/window_manager.py). The
    operating system's answers are inputs: the enumeration order and
    attributes of the top-level windows, the foreground window, and the
    results of the focus calls. */
module WindowManager {
  import opened Base

  /** What `EnumWindows` and the attribute queries report for one top-level
      window. `exStyle` is the signed `GWL_EXSTYLE` value. */
  datatype RawWindow = RawWindow(hwnd: int, visible: bool, title: string, exStyle: int, iconic: bool)

  datatype WindowInfo = WindowInfo(hwnd: int, title: string, isVisible: bool, processName: string)

  /** Titles of system windows that are never offered for switching (the
      empty title among them). */
  const ExcludedTitles: seq<string> := [
    "Program Manager",
    "Windows Input Experience",
    "Settings",
    "Microsoft Text Input Application",
    "NVIDIA GeForce Overlay",
    ""
  ]

  const WS_EX_TOOLWINDOW := 0x80

  /** The enumeration callback keeps a window: visible, titled, not an
      excluded system window, not a tool window, not minimised. */
  predicate Accepted(w: RawWindow) {
    && w.visible
    && |w.title| != 0
    && w.title !in ExcludedTitles
    && !HasFlag(w.exStyle, WS_EX_TOOLWINDOW)
    && !w.iconic
  }

  function Describe(w: RawWindow): WindowInfo {
    WindowInfo(w.hwnd, w.title, true, "")
  }

  /** `get_all_windows`: the accepted windows in enumeration order. */
  function GetAllWindows(raws: seq<RawWindow>): (r: seq<WindowInfo>)
    ensures |r| <= |raws|
    ensures forall i | 0 <= i < |r| :: r[i].isVisible && r[i].title !in ExcludedTitles && r[i].title != ""
    decreases |raws|
  {
    if |raws| == 0 then []
    else if Accepted(raws[0]) then [Describe(raws[0])] + GetAllWindows(raws[1..])
    else GetAllWindows(raws[1..])
  }

  /** Some accepted window of the enumeration is described by `w`. */
  predicate Kept(raws: seq<RawWindow>, w: WindowInfo) {
    exists j | 0 <= j < |raws| :: Accepted(raws[j]) && Describe(raws[j]) == w
  }

  /** The list holds exactly the accepted windows: nothing filtered out
      appears, and nothing accepted is missing. */
  lemma {:induction false} GetAllWindowsMembers(raws: seq<RawWindow>, w: WindowInfo)
    ensures w in GetAllWindows(raws) <==> Kept(raws, w)
    decreases |raws|
  {
    if |raws| > 0 {
      GetAllWindowsMembers(raws[1..], w);
      if Kept(raws[1..], w) {
        var j :| 0 <= j < |raws[1..]| && Accepted(raws[1..][j]) && Describe(raws[1..][j]) == w;
        assert raws[j + 1] == raws[1..][j];
      }
      if Kept(raws, w) {
        var j :| 0 <= j < |raws| && Accepted(raws[j]) && Describe(raws[j]) == w;
        if j > 0 {
          assert raws[1..][j - 1] == raws[j];
        }
      }
    }
  }

  /** Enumeration is compositional: the windows accepted from two runs of
      the enumeration are those of each, in order. */
  lemma {:induction false} GetAllWindowsAppend(a: seq<RawWindow>, b: seq<RawWindow>)
    ensures GetAllWindows(a + b) == GetAllWindows(a) + GetAllWindows(b)
    decreases |a|
  {
    if |a| > 0 {
      assert (a + b)[1..] == a[1..] + b;
      GetAllWindowsAppend(a[1..], b);
    } else {
      assert a + b == b;
    }
  }

  /** How many windows pass the filter, counted directly. */
  function CountAccepted(raws: seq<RawWindow>): nat
    decreases |raws|
  {
    if |raws| == 0 then 0 else (if Accepted(raws[0]) then 1 else 0) + CountAccepted(raws[1..])
  }

  /** `get_window_count`: the number of switchable windows. */
  function GetWindowCount(raws: seq<RawWindow>): (n: nat)
    ensures n == CountAccepted(raws)
    ensures n <= |raws|
  {
    CountMatches(raws);
    |GetAllWindows(raws)|
  }

  lemma {:induction false} CountMatches(raws: seq<RawWindow>)
    ensures |GetAllWindows(raws)| == CountAccepted(raws)
    decreases |raws|
  {
    if |raws| > 0 {
      CountMatches(raws[1..]);
    }
  }

  /** `get_visible_windows`: the list of `get_all_windows`, since minimised
      windows are already filtered out there; so it holds one entry per
      accepted window and nothing else. */
  function GetVisibleWindows(raws: seq<RawWindow>): (r: seq<WindowInfo>)
    ensures |r| == CountAccepted(raws)
    ensures forall w :: w in r <==> Kept(raws, w)
  {
    CountMatches(raws);
    AllMembers(raws);
    GetAllWindows(raws)
  }

  /** `GetAllWindowsMembers` for every window at once. */
  lemma AllMembers(raws: seq<RawWindow>)
    ensures forall w :: w in GetAllWindows(raws) <==> Kept(raws, w)
  {
    forall w {
      GetAllWindowsMembers(raws, w);
    }
  }

  /** Every window `get_visible_windows` reports comes from a visible,
      non-minimised window of the enumeration. */
  lemma VisibleWindowsNotMinimised(raws: seq<RawWindow>, w: WindowInfo)
    requires w in GetVisibleWindows(raws)
    ensures exists j | 0 <= j < |raws| :: raws[j].visible && !raws[j].iconic && raws[j].hwnd == w.hwnd
  {
    var j :| 0 <= j < |raws| && Accepted(raws[j]) && Describe(raws[j]) == w;
  }

  /** `get_foreground_window`: no window for a null handle; a window whose
      title is empty is reported as "Unknown". */
  function GetForegroundWindow(hwnd: int, title: string): (r: Option<WindowInfo>)
    ensures r.None? <==> hwnd == 0
    ensures r.Some? ==> r.value.hwnd == hwnd && r.value.isVisible
    ensures r.Some? ==> r.value.title == (if |title| == 0 then "Unknown" else title)
  {
    if hwnd == 0 then None
    else if |title| == 0 then Some(WindowInfo(hwnd, "Unknown", true, ""))
    else Some(WindowInfo(hwnd, title, true, ""))
  }

  /** The operating system's answers during one `switch_to_window` call:
      `IsIconic`, the first `SetForegroundWindow`, and the thread-attach
      fallback sequence as a whole. */
  datatype SwitchOracle = SwitchOracle(isIconic: Outcome<bool>, setForeground: Outcome<bool>, fallback: Outcome<()>)

  datatype SwitchResult = SwitchResult(ok: bool, foregroundRequested: bool, usedFallback: bool)

  /** `switch_to_window`: a minimised window is refused (never restored);
      otherwise the window is brought forward, through the thread-attach
      fallback when the direct call is refused; any exception means false. */
  function SwitchToWindow(o: SwitchOracle): (r: SwitchResult)
    ensures o.isIconic == Ok(true) ==> !r.ok && !r.foregroundRequested
    ensures r.ok ==> o.isIconic == Ok(false) && r.foregroundRequested
    ensures o.isIconic == Ok(false) ==> r.foregroundRequested
    ensures o.isIconic == Ok(false) && o.setForeground == Ok(true) ==> r.ok && !r.usedFallback
    ensures o.isIconic == Ok(false) && o.setForeground == Ok(false) ==> r.usedFallback && (r.ok <==> o.fallback.Ok?)
    ensures o.setForeground.Raised? ==> !r.ok
  {
    match o.isIconic
    case Raised(_) => SwitchResult(false, false, false)
    case Ok(true) => SwitchResult(false, false, false)
    case Ok(false) =>
      match o.setForeground
      case Raised(_) => SwitchResult(false, true, false)
      case Ok(true) => SwitchResult(true, true, false)
      case Ok(false) => SwitchResult(o.fallback.Ok?, true, true)
  }

  /** Position of the first window with the handle, or -1. */
  function IndexOfHandle(windows: seq<WindowInfo>, hwnd: int): (i: int)
    ensures -1 <= i < |windows|
    ensures i >= 0 ==> windows[i].hwnd == hwnd && forall k | 0 <= k < i :: windows[k].hwnd != hwnd
    ensures i == -1 ==> forall k | 0 <= k < |windows| :: windows[k].hwnd != hwnd
    decreases |windows|
  {
    if |windows| == 0 then -1
    else if windows[0].hwnd == hwnd then 0
    else
      var j := IndexOfHandle(windows[1..], hwnd);
      if j == -1 then -1 else j + 1
  }

  /** The window `switch_to_next_window` tries: the first one when there is
      no foreground window, otherwise the one after the foreground window's
      first occurrence, wrapping round; the first one when the foreground
      window is not in the list. */
  function NextIndex(windows: seq<WindowInfo>, current: Option<WindowInfo>): (i: nat)
    requires |windows| >= 2
    ensures i < |windows|
  {
    if current.None? then 0 else (IndexOfHandle(windows, current.value.hwnd) + 1) % |windows|
  }

  datatype NextResult = NextResult(attempted: Option<nat>, window: Option<WindowInfo>)

  /** `switch_to_next_window`, given the current window list, the foreground
      window and the answers of the one switch it attempts. */
  function SwitchToNextWindow(windows: seq<WindowInfo>, current: Option<WindowInfo>, o: SwitchOracle): (r: NextResult)
    ensures |windows| < 2 ==> r == NextResult(None, None)
    ensures |windows| >= 2 ==> r.attempted == Some(NextIndex(windows, current))
    ensures r.window.Some? <==> r.attempted.Some? && SwitchToWindow(o).ok
    ensures r.window.Some? ==> r.window.value == windows[r.attempted.value]
    ensures |windows| >= 2 && current.None? ==> r.attempted == Some(0)
    ensures |windows| >= 2 && current.Some? && (forall k | 0 <= k < |windows| :: windows[k].hwnd != current.value.hwnd)
      ==> r.attempted == Some(0)
  {
    if |windows| < 2 then NextResult(None, None)
    else
      var i := NextIndex(windows, current);
      NextResult(Some(i), if SwitchToWindow(o).ok then Some(windows[i]) else None)
  }

  predicate DistinctHandles(windows: seq<WindowInfo>) {
    forall i, j | 0 <= i < j < |windows| :: windows[i].hwnd != windows[j].hwnd
  }

  /** `(k) % n` for the one wrap-around `k == n` can reach. */
  function Wrap(k: int, n: int): int {
    if k >= n then k - n else k
  }

  lemma SuccMod(i: nat, n: nat)
    requires i < n
    ensures (i + 1) % n == Wrap(i + 1, n)
  {
    if i + 1 == n {
      assert (i + 1) % n == 0;
    } else {
      assert (i + 1) % n == i + 1;
    }
  }

  /** With distinct handles, the window after `windows[i]` is the next one
      round the list, and it is a different window. */
  lemma NextAfter(windows: seq<WindowInfo>, i: nat)
    requires |windows| >= 2 && i < |windows| && DistinctHandles(windows)
    ensures NextIndex(windows, Some(windows[i])) == Wrap(i + 1, |windows|)
    ensures windows[NextIndex(windows, Some(windows[i]))].hwnd != windows[i].hwnd
  {
    var k := IndexOfHandle(windows, windows[i].hwnd);
    assert k == i;
    SuccMod(i, |windows|);
  }

  /** The windows visited by `k` successive successful switches that start
      with `windows[start]` in the foreground. */
  function Tour(windows: seq<WindowInfo>, start: nat, k: nat): (r: seq<nat>)
    requires |windows| >= 2 && start < |windows|
    ensures |r| == k
    ensures forall j | 0 <= j < k :: r[j] < |windows|
    decreases k
  {
    if k == 0 then []
    else
      var next := NextIndex(windows, Some(windows[start]));
      [next] + Tour(windows, next, k - 1)
  }

  lemma {:induction false} TourPositions(windows: seq<WindowInfo>, start: nat, k: nat)
    requires |windows| >= 2 && start < |windows| && DistinctHandles(windows) && k <= |windows|
    ensures forall j | 0 <= j < k :: Tour(windows, start, k)[j] == Wrap(start + j + 1, |windows|)
    decreases k
  {
    if k > 0 {
      var n := |windows|;
      NextAfter(windows, start);
      var next := Wrap(start + 1, n);
      TourPositions(windows, next, k - 1);
      forall j | 1 <= j < k ensures Tour(windows, start, k)[j] == Wrap(start + j + 1, n) {
        assert Tour(windows, start, k)[j] == Tour(windows, next, k - 1)[j - 1];
      }
    }
  }

  /** Round-robin switching: with distinct handles, `n` successive
      successful switches through `n` windows visit every window exactly
      once, ending back where they started. */
  lemma TourVisitsAll(windows: seq<WindowInfo>, start: nat)
    requires |windows| >= 2 && start < |windows| && DistinctHandles(windows)
    ensures var t := Tour(windows, start, |windows|);
      && (forall i, j | 0 <= i < j < |t| :: t[i] != t[j])
      && (forall w | 0 <= w < |windows| :: w in t)
      && t[|t| - 1] == start
  {
    var n := |windows|;
    var t := Tour(windows, start, n);
    TourPositions(windows, start, n);
    forall w | 0 <= w < n ensures w in t {
      var j := if w > start then w - start - 1 else w + n - start - 1;
      assert t[j] == w;
    }
  }
}
